=== FILE: README.md ===
# smartpond-client in Dafny

This project models the sequential core of the smartpond client, the desktop
program of a fish-pond monitoring system, and proves properties about it. The
client talks to the smartpond server through JSON packets and reads water
sensors over Modbus. It keeps a short history of the readings and prepares
rows for a forecasting model.

Four parts are modelled:

- **Message registry and wire envelope.** The registry is in `serialize.dfy`,
  the older variant in `legacy_serialize.dfy`, the packet class hierarchy in
  `packet.dfy`, and the message catalogue in `messages.dfy`.
  - A class decorator derives each packet's wire name and records it in a
    global name table (`Serialize.Registry`).
  - The encoder tags every registered packet with a `"=="` member.
  - The decoder's object hook works bottom-up: it strips the tag of every
    object and calls the registered class on the remaining members. A class
    either takes jsonobject's member dict or has a positional constructor
    of its own (`Packets.Init`), and the latter cannot be rebuilt.
  - The `execute` handlers of the incoming packets are in `handlers.dfy`, both
    as functions over a context (`Handlers.Handle`) and as a class whose
    methods update that state in place (`Handlers.PacketHandlers`).
- **Serial device monitor** (`serial_monitor.dfy`).
  - Reads the holding registers of a sensor: Modbus function 0x03, section 6.3
    of the Modbus Application Protocol Specification V1.1b3.
  - Decodes the word-swapped 32-bit floats (`float32.dfy`).
  - Pairs the readings with the field keys of the sensor model.
  - Keeps a per-field history that is spaced and bounded.
  - Caches the last payload for 60 seconds, and reports.
- **Supervisor bookkeeping and counter-gated monitors.**
  - `supervisor.dfy` models the supervisor thread and its `Monitors` facade;
    `legacy_supervisor.dfy` models the older pair.
  - `gated_monitors.dfy` models the prediction and weather monitors. Each acts
    on every 30th call and keeps class-level shared containers.
  - `counters.dfy` holds the counter arithmetic that all of them share.
- **Small pure helpers.**
  - `predict.py`: minute keys, feature vectors, and the merge of sensor and
    weather reports into frame rows (`predict.dfy`, with `ordered.dfy` for
    `sorted` and `max`).
  - Weather payload extraction (`weather_extract.dfy`).
  - Session URL joining (`session.dfy`).
  - The `Singleton` metaclass's instance cache (`singleton.dfy`).

Not modelled, and passed in as parameters instead:
- **Wall clock:** times are integer seconds.
- **Device I/O:** whether a reconnect worked, and the response bytes or their absence.
- **Database queries:** their results arrive as sequences, newest first.
- **JSON text:** the model works on the JSON tree the text denotes.

The thread loops are driven by the caller: `Step` is one turn of a loop, and
a report pass comes back as the ordered list of monitor names to report.

Registering a second class under a name that is already taken replaces the
first class silently (`Serialize.Registry.Serializable`,
`Serialize.OverwrittenNameDecodesAsOther`).

## Model

| member | source | states |
|---|---|---|
| Serialize.WireNameRules | client/abstract/serialize.py:16-33 | an explicit `__serial_name__` wins; otherwise the namespace, then `Out` for an incoming or `In` for an outgoing packet, then the class name; a packet of neither direction raises TypeError; a non-packet, or a `None` override, raises ValueError |
| Serialize.DerivedNamesInjective | client/abstract/serialize.py:20-29 | two derived names are equal only for classes of the same direction and class name |
| Serialize.Registry.constructor | client/abstract/serialize.py:11 | the name table starts empty |
| Serialize.Registry.Serializable | client/abstract/serialize.py:15-37 | on success it sets `type` to the wire name, maps the name to the class (silently replacing an earlier class) and returns the class unchanged; on failure it raises the derivation's exception and changes nothing; every table entry stays the wire name of its class |
| Serialize.Default | client/abstract/serialize.py:41-48 | only JsonObjects encode (anything else raises TypeError); `"=="` is present exactly for a registered packet (or when `to_json()` already has it) and then holds the class's `type`; less the tag, the envelope is `to_json()`; an unregistered JsonObject gives `to_json()` unchanged |
| Serialize.Str | client/abstract/packet.py:12-14 | `str(packet)` is `serialize(packet)` |
| Serialize.ContextIsEnvelopeWithoutTag | client/abstract/packet.py:16-18 | `context` is the encoded envelope less its tag, and the tag is the wire name |
| Serialize.UntaggedPassesThrough | client/abstract/serialize.py:57-59 | an object with no `"=="` comes back unchanged |
| Serialize.UnknownTagStripped | client/abstract/serialize.py:57-59 | an object with an unknown tag comes back as the same dict without the tag |
| Serialize.RegisteredTagRebuilds | client/abstract/serialize.py:60-64 | a registered tag calls its class on the remaining members: a class taking the member dict, or one that is no JsonObject, gets exactly those members; a positional constructor of its own raises TypeError, or ValueError when its one string parameter is handed the dict |
| Serialize.DecodeObject | client/abstract/serialize.py:66-67 | an object whose members all decode is handed to the hook with the decoded members |
| Serialize.DecodeTagged | client/abstract/serialize.py:56-62 | an object tagged with a registered class taking the member dict becomes that class with the decoded members, tag removed |
| Serialize.FirstFailingItem | client/abstract/serialize.py:66-67 | an array raises exactly the exception of its first failing item |
| Serialize.FailingMember | client/abstract/serialize.py:66-67 | an object raises the exception its failing members raise, the hook never running on it |
| Serialize.NestedPositionalRaises | client/abstract/serialize.py:60-67 | a positional class's envelope raises its constructor's error, alone, as a member or as an array item |
| Serialize.DecodeTagFree | client/abstract/serialize.py:66-67 | JSON without tags decodes to the plain values `json.loads` builds |
| Serialize.DecodeEnvelope | client/abstract/serialize.py:56-64 | the hook sees the members of an envelope decoded plainly, plus the tag |
| Serialize.ToJsonLifted | client/abstract/serialize.py:66-67 | the members of an object decoded without a hook serialise back to the object |
| Serialize.LiftedRoundTrip | client/abstract/serialize.py:60-62 | the attributes of a rebuilt instance serialise back to the object's members less the tag |
| Serialize.RoundTrip | client/abstract/serialize.py:41-67 | encoding a registered packet whose fields hold no tags, then decoding, yields an instance of the same class with equal `to_json()` when the class takes the member dict; a class with a positional constructor raises instead |
| Serialize.OverwrittenNameDecodesAsOther | client/abstract/serialize.py:35 | once another class has taken a packet's name, whatever the envelope decodes to is an instance of that other class, and it does decode when that class takes the member dict |
| Serialize.DeserializeIntoClass | client/abstract/serialize.py:66-71 | without a class, the hooked decode; with a class taking the member dict, every parsed member is kept, `"=="` included, and a parsed value that is neither object nor null raises ValueError; with a class that is no JsonObject, `None` |
| LegacySerialize.LegacyEnvelope | client/network/packet/base.py:85-87 | the older envelope is the instance's attribute dictionary plus `"=="` holding the wire name, whatever `to_json()` holds; it equals the newer envelope exactly when that dictionary equals `to_json()` |
| LegacySerialize.LegacyContextIsEnvelopeWithoutTag | client/network/packet/base.py:44-46 | the older `context` is the attribute dictionary, which is exactly the older envelope less its tag; the tag is the wire name |
| LegacySerialize.UnregisteredBecomesNone | client/network/packet/base.py:95-98 | in the older decoder, an object with no tag, a null tag or an unknown tag becomes `None` |
| LegacySerialize.DecodeObjectFree | client/network/packet/base.py:105-106 | values that contain no objects decode to themselves |
| LegacySerialize.LegacyDecodeEnvelope | client/network/packet/base.py:99-103 | a registered tag calls the class on the remaining members: a JsonObject class through its constructor, any other class with exactly those members |
| LegacySerialize.LegacyFirstFailingItem | client/network/packet/base.py:105-106 | in the older decoder too, an array raises exactly the exception of its first failing item |
| LegacySerialize.LegacyFailingMember | client/network/packet/base.py:105-106 | an object raises the exception its failing members raise |
| LegacySerialize.LegacyNestedPositionalRaises | client/network/packet/base.py:99-106 | a positional class's envelope raises its constructor's error, alone or as a member |
| LegacySerialize.LegacyRoundTrip | client/network/packet/base.py:85-106 | for an attribute dictionary that holds no objects, a class taking the member dict comes back with exactly those attributes; a positional constructor raises |
| LegacySerialize.NestedObjectBecomesNone | client/network/packet/base.py:95-98 | an untagged object nested in a tagged one is lost as `None`, so that round trip fails |
| LegacySerialize.LegacyTextConstruction | client/network/packet/base.py:105-110 | without a class, the hooked decode; with a JsonObject class nothing is parsed: jsonobject's own constructor rejects the raw text with ValueError, a one-parameter constructor stores the whole text in its member, and one with more parameters raises TypeError; with any other class, `None` |
| Messages.BoolsRoundTrip | client/network/serializable/sensor.py:13 | the active-field flags map key to bool and read back unchanged |
| Messages.SensorRoundTrip | client/network/serializable/sensor.py:7-16 | a sensor reads back from its members, with `id` under `_id` and the model under `type` |
| Messages.SensorsRoundTrip | client/network/serializable/packet/auth.py:40 | a sensor list reads back element by element |
| Messages.StrsRoundTrip | client/network/serializable/packet/sensor.py:22 | a type list reads back unchanged |
| Messages.ParseProfile | client/network/serializable/packet/auth.py:36-41 | what the `Profile` class builds is a `Profile` |
| Messages.ParseKeepsClass | client/abstract/serialize.py:60-62 | the packet built for a class is of that class |
| Messages.ParseFields | client/abstract/serialize.py:61-62 | jsonobject's member reading: every catalogue packet reads back from its own `to_json()` members |
| Messages.IncomingConstructors | client/abstract/packet.py:21-39 | exactly the nine handler-bearing packets are incoming |
| Messages.CatalogueConstructors | client/network/serializable/packet/auth.py:18-32 | every incoming class takes the member dict; exactly NodeRegistration, RequestProfile, RequestNodeList, NodeCreation, PondCreation and SensorCreation have positional constructors, whose parameters are the members they travel with |
| Messages.CatalogueRoundTrip | client/abstract/serialize.py:41-67 | a registered catalogue packet without tags in its members decodes from its envelope and reads back as the same packet when its class takes the member dict, as every incoming class does; the six positional classes raise |
| Messages.ParseOperationPacket | client/network/serializable/packet/control.py:47-48 | an `Operation` is built only from an object `packet` member, which it keeps unchanged |
| Messages.NodeMembers | client/network/serializable/packet/node.py:10-35 | `RequestNodeList` carries only `pondId`; `NodeCreation` carries `pondId`, `name` and `signature` from its arguments |
| Messages.CreationMembers | client/network/serializable/packet/sensor.py:15-41 | `SensorCreation` stores the model under `type`; `PondCreation` carries only `name`; `RequestSensorTypeList` carries nothing |
| Messages.AuthMembers | client/network/serializable/packet/auth.py:18-32 | `RequestProfile` puts the node id under `nodeId`; `NodeRegistration` carries only `signature` |
| Messages.CatalogueWireNames | client/abstract/serialize.py:16-29 | every catalogue class has a wire name: incoming ones `...PacketOut<Name>`, outgoing ones `...PacketIn<Name>`, and `Operation` its explicit name |
| Messages.OperationNameNotDerived | client/network/serializable/packet/control.py:46 | the explicit `Operation` name, which has no direction marker, is never a derived name |
| Messages.CatalogueNamesDistinct | client/abstract/serialize.py:35 | no two catalogue classes share a wire name, so none overwrites another |
| Messages.RegisterNext | client/abstract/serialize.py:34-35 | registering the next catalogue class keeps the earlier registrations |
| Messages.RegisterCatalogue | client/network/serializable/packet/__init__.py:1-6 | importing the catalogue registers every class under its own wire name, and names outside the catalogue keep their classes |
| Handlers.UnwrapTagged | client/network/serializable/packet/control.py:51 | an inner dict tagged with a registered incoming class that takes the member dict unwraps to what that class reads from the other members; a positional constructor raises |
| Handlers.UnwrapParsed | client/network/serializable/packet/control.py:51 | a tagged dict whose class reads a packet from the other members unwraps to that packet |
| Handlers.BuildFacts | client/network/serializable/packet/control.py:52 | only an incoming-packet instance is accepted, and the packet is read from its attributes with its own class |
| Handlers.UnwrapFacts | client/network/serializable/packet/control.py:51-54 | what unwraps is an incoming packet, and an inner `Operation` is the outer's `packet` member |
| Handlers.UnwrapEnvelope | client/network/serializable/packet/control.py:51 | unwrapping the envelope of an incoming packet gives that packet |
| Handlers.DecodedDictUntagged | client/abstract/serialize.py:56-59 | no dict that comes out of the hooked decode carries a `"=="` member |
| Handlers.DecodedObjectMembers | client/abstract/serialize.py:66-67 | each attribute of a decoded instance is the decode of the member of that name |
| Handlers.BuiltOperationPacket | client/network/serializable/packet/control.py:47-48 | a built `Operation` comes from an instance whose `packet` attribute is a dict with the same keys |
| Handlers.ReceivedOperationUntagged | client/abstract/serialize.py:56-67 | an `Operation` read off the wire has a `packet` member without a tag |
| Handlers.WireOperationIgnored | client/network/serializable/packet/control.py:50-54 | an `Operation` read off the wire therefore unwraps to nothing and runs no handler |
| Handlers.DecodeIncomingEnvelope | client/abstract/serialize.py:60-62 | the envelope of a registered incoming packet decodes to an instance of its class |
| Handlers.DecodeWrappedEnvelope | client/abstract/serialize.py:66-67 | an `Operation` envelope around such an envelope decodes to an `Operation` instance whose `packet` attribute is an instance |
| Handlers.OperationOffWireRejected | client/network/serializable/packet/control.py:48-51 | an `Operation` carrying the envelope of a registered incoming packet cannot be read off the wire: it raises ValueError |
| Handlers.InstanceAttributeUnbuildable | client/network/serializable/packet/control.py:47-48 | an incoming packet with an instance among its attributes cannot be built: ValueError |
| Handlers.MonitorCalls | client/network/serializable/packet/auth.py:48-49 | one monitoring request per sensor, in list order |
| Handlers.HandleProfileAsWritten | client/network/serializable/packet/auth.py:43-52 | as written: the profile is cached and the supervisor launched; the handler raises AttributeError exactly when there are sensors, and then the UI is untouched |
| Handlers.ProfileAsWrittenRaises | client/network/serializable/packet/auth.py:45-49 | as written, a profile with sensors never reaches the dashboard, while the intended handler does |
| Handlers.ProfileRequestsEachSensor | client/network/serializable/packet/auth.py:43-52 | the profile is cached, then the supervisor launched, then each sensor's monitoring requested in order, then the dashboard shown |
| Handlers.RegistrationReply | client/network/serializable/packet/auth.py:14-15 | exactly one `NodeRegistration` with the machine signature is sent, and nothing else changes |
| Handlers.FailureDispatch | client/network/serializable/packet/control.py:14-41 | codes outside 0..8 raise ValueError before anything happens; code 8 on the sensor creation page unlocks it and shows the name-taken message; any other code or page changes nothing |
| Handlers.OperationDelegates | client/network/serializable/packet/control.py:50-55 | an `Operation` runs its decoded inner packet with the same context, nested ones recursively; a non-packet is ignored; a decode error propagates |
| Handlers.UntaggedOperationIgnored | client/network/serializable/packet/control.py:51-54 | an inner dict with no tag, a null tag or an unknown tag executes nothing |
| Handlers.OperationRunsWrapped | client/network/serializable/packet/control.py:50-55 | as intended: an `Operation` whose `packet` member still holds the envelope of an incoming packet runs exactly that packet's handler |
| Handlers.ReceiptRequestsNodes | client/network/serializable/packet/pond.py:30-35 | the pond id is cached first, then one `RequestNodeList` with that same id is sent; without a `pondId` member the handler raises and changes nothing |
| Handlers.TypesReachCreatePage | client/network/serializable/packet/sensor.py:24-31 | only on the sensor creation page are the types emitted, then ready; otherwise nothing changes |
| Handlers.ReceiptExtendsProfile | client/network/serializable/packet/sensor.py:49-55 | as intended: the sensor is appended to the cached profile, the structure added only when not null, then the dashboard is shown; without a profile it raises and changes nothing |
| Handlers.SensorReceiptAsWrittenRaises | client/network/serializable/packet/sensor.py:49-55 | as written, a receipt with a structure appends the sensor, then raises AttributeError with the structures and the UI unchanged, while the intended handler stores it and shows the dashboard; without a structure the two agree |
| Handlers.NodeListNavigates | client/network/serializable/packet/node.py:23-25 | navigates to node selection with exactly the packet's nodes |
| Handlers.PondListNavigates | client/network/serializable/packet/pond.py:15-17 | navigates to pond selection with exactly the packet's ponds |
| Handlers.PacketHandlers.constructor | client/config/cached.py:4-8 | starts with no cached pond id or profile and empty logs |
| Handlers.PacketHandlers.ExecuteProfile | client/network/serializable/packet/auth.py:43-52 | the loop over the sensors updates the state exactly as `HandleProfile` |
| Handlers.PacketHandlers.ExecuteFailure | client/network/serializable/packet/control.py:30-41 | updates the state exactly as `HandleFailure` |
| Handlers.PacketHandlers.ExecutePondReceipt | client/network/serializable/packet/pond.py:32-35 | updates the state exactly as `HandlePondReceipt` |
| Handlers.PacketHandlers.ExecuteTypes | client/network/serializable/packet/sensor.py:24-31 | updates the state exactly as `HandleTypes` |
| Handlers.PacketHandlers.ExecuteSensorReceipt | client/network/serializable/packet/sensor.py:49-55 | updates the state exactly as `HandleSensorReceipt` |
| Handlers.PacketHandlers.ExecuteDirect | client/abstract/packet.py:37-39 | runs each non-`Operation` incoming packet's handler exactly as `HandleDirect` |
| Handlers.PacketHandlers.ExecuteOperation | client/network/serializable/packet/control.py:50-55 | the recursive unwrap updates the state exactly as `HandleOperation` |
| Handlers.PacketHandlers.Execute | client/abstract/packet.py:37-39 | `execute` of any incoming packet updates the state exactly as `Handle` |
| Float32s.ZeroTest | client/network/monitor/serial.py:55 | the byte test for a zero reading is exactly comparison with `0.0`: both signed zeros and nothing else |
| SerialMonitors.CommandFor | client/network/monitor/serial.py:17-27 | TNET_100 gives address 100, 24 registers, unit 33; any other model raises KeyError |
| SerialMonitors.DecodeShape | client/network/monitor/serial.py:95-99 | decoding succeeds exactly when there is a byte count and the last visited group fits; there is one reading per index 1, 5, 9, ... below the count, each the word-swapped group at that index |
| SerialMonitors.TnetResponse | client/network/monitor/serial.py:93-99 | a 48-byte TNET_100 response decodes to 12 readings |
| SerialMonitors.DecodeReadings | client/network/monitor/serial.py:95-99 | the decode loop computes `Decode` |
| SerialMonitors.Match | client/network/monitor/serial.py:54-55 | a key is kept exactly when some position below both lengths holds it with a reading other than 0.0 |
| SerialMonitors.MatchValue | client/network/monitor/serial.py:54-55 | with distinct keys, each kept reading sits under its own key |
| SerialMonitors.StepField | client/network/monitor/serial.py:62-71 | one field's update computes `Step` |
| SerialMonitors.StepFields | client/network/monitor/serial.py:61-71 | the first loop steps exactly the fields of the latest readings and leaves the rest |
| SerialMonitors.DropStale | client/network/monitor/serial.py:72-73 | the second loop keeps exactly the fields that are among the latest readings, with their points unchanged |
| SerialMonitors.RecordHistory | client/network/monitor/serial.py:57-73 | both loops together compute `RecordSpec` |
| SerialMonitors.StepRule | client/network/monitor/serial.py:62-68 | a point goes in exactly when the field has no points or its newest point is at least 60 s older, and then under the raw timestamp |
| SerialMonitors.HourBound | client/network/monitor/serial.py:69-70 | points at least 60 s apart within one hour number at most 60 |
| SerialMonitors.StepBounded | client/network/monitor/serial.py:62-71 | a step keeps a field's points 60 s apart and at most 60 |
| SerialMonitors.RecordBounded | client/network/monitor/serial.py:57-73 | after `record` every field holds at most 60 points spaced 60 s apart, and the fields are exactly those of the latest readings |
| SerialMonitors.PullFailureKeepsReadings | client/network/monitor/serial.py:81-92 | a pull without a link, or with an invalid response, leaves payload, timestamp and history unchanged |
| SerialMonitors.PullRequests | client/network/monitor/serial.py:81-89 | every pull that gets a link issues exactly one read request with the monitor's command |
| SerialMonitors.LazyPullUsesCache | client/network/monitor/serial.py:107-113 | a cache set and under 60 s old answers with no device I/O; otherwise a pull |
| SerialMonitors.PullKeepsBound | client/network/monitor/serial.py:81-113 | pulls keep every field's history bounded |
| SerialMonitors.SerialMonitor.constructor | client/network/monitor/serial.py:23-33 | the command comes from the table; the monitor starts offline, with no payload, timestamp or history |
| SerialMonitors.SerialMonitor.LastValues | client/network/monitor/serial.py:43-48 | `None` without a payload, else the matched payload |
| SerialMonitors.SerialMonitor.Record | client/network/monitor/serial.py:57-73 | the history becomes `RecordSpec` of the matched payload at the stored timestamp, staying bounded |
| SerialMonitors.SerialMonitor.Pull | client/network/monitor/serial.py:81-105 | the state and result are `PullSpec`: reconnect once, request, decode, store, record |
| SerialMonitors.SerialMonitor.LazyPull | client/network/monitor/serial.py:107-113 | the state and result are `LazyPullSpec` |
| SerialMonitors.SerialMonitor.Report | client/network/monitor/serial.py:115-129 | as intended: with readings, the prediction store gets the matched map, `sensor.fields` becomes `{k: True}` for the matched keys, and exactly one report of those fields is sent; otherwise nothing is fed, flagged or sent |
| SerialMonitors.SerialMonitor.ReportAsWritten | client/network/monitor/serial.py:115-129 | as written: the store and `sensor.fields` change as in `Report`, then the report raises ImportError (or AttributeError, were the wrapper defined) and nothing is sent |
| SerialMonitors.SerialMonitor.Connect | client/network/monitor/serial.py:75-76 | only the link state changes |
| SerialMonitors.SerialMonitor.Close | client/network/monitor/serial.py:78-79 | the link goes down and nothing else changes |
| Counters.FiringSchedule | client/network/monitors.py:61-67 | a counter starting at `c0` acts on call `t - c0` and every `t`-th call after it |
| Counters.EveryNth | client/network/monitor/prediction.py:28-33 | from 0, the `n`-th call acts exactly when `n` is a multiple of the threshold |
| GatedMonitors.MinuteKeyShared | client/network/monitor/prediction.py:13-14 | two times share a minute key exactly when they fall in the same minute |
| GatedMonitors.PredictionStore.constructor | client/network/monitor/prediction.py:9-10 | the shared containers start empty |
| GatedMonitors.PredictionMonitor.constructor | client/network/monitor/prediction.py:8 | the counter starts at the class default 0 |
| GatedMonitors.PredictionMonitor.AppendSerial | client/network/monitor/prediction.py:12-14 | stores the values under the current minute in the shared dict, replacing an earlier append in that minute |
| GatedMonitors.PredictionMonitor.AppendWeather | client/network/monitor/prediction.py:16-18 | the same for the weather dict |
| GatedMonitors.PredictionMonitor.Report | client/network/monitor/prediction.py:28-33 | counts the call, and pulls and resets exactly when the count reaches 30 |
| GatedMonitors.WeatherMonitor.constructor | client/network/monitor/weather.py:9-10 | the counter starts at 0 and the monitor shares the class-level list |
| GatedMonitors.WeatherMonitor.RegisterPrediction | client/network/monitor/weather.py:12-13 | appends to the shared list, duplicates included |
| GatedMonitors.WeatherMonitor.Report | client/network/monitor/weather.py:23-30 | as intended: sends exactly one `RequestWeather` on the call that reaches 30 and resets; other calls send nothing |
| GatedMonitors.WeatherMonitor.ReportAsWritten | client/network/monitor/weather.py:23-30 | as written: the counter runs as in `Report`, the call that reaches 30 raises ImportError (or AttributeError, were the wrapper defined), and nothing is ever sent |
| GatedMonitors.GatedSchedule | client/network/monitor/weather.py:23-27 | a fresh monitor acts on calls 30, 60, 90, ... |
| Ordered.SortedIsEnumeration | client/service/predict.py:56-57 | `sorted` lists each key once, strictly ascending |
| Ordered.SortedLastIsMax | client/service/predict.py:66 | the last of the sorted keys is the greatest |
| Ordered.SortedKeys | client/service/predict.py:56-57 | the loop computes the ascending enumeration |
| Ordered.MaxOf | client/network/monitor/serial.py:65 | `max(records.keys())` is the greatest key |
| Ordered.MinOf | client/service/predict.py:56 | the least key, which `sorted` puts first |
| Supervisors.PredictionKey | client/network/monitors.py:110 | the key is the sensor name followed by `[prediction]` |
| Supervisors.Insert | client/network/monitors.py:109-110 | a dict's key order after an assignment: a new key goes last and an existing key keeps its place |
| Supervisors.PassSchedule | client/network/monitors.py:61-67 | the first pass is on the 10th heartbeat, then one every 60th |
| Supervisors.Connected | client/network/monitors.py:103-108 | a new serial monitor feeding a new prediction monitor, online exactly when `connect` succeeded |
| Supervisors.Supervisor.constructor | client/network/monitors.py:24-34 | a new thread holds only the weather monitor under `'weather'` |
| Supervisors.Supervisor.Launch | client/network/monitors.py:143 | `start()` makes the thread alive and changes nothing else |
| Supervisors.Supervisor.Heartbeat | client/network/monitors.py:62-73 | counts the heartbeat; on reaching 60 resets it and schedules every monitor in insertion order |
| Supervisors.Supervisor.Teardown | client/network/monitors.py:83-87 | every serial monitor is closed with its history kept, then `stopped` resolves |
| Supervisors.Supervisor.Step | client/network/monitors.py:62-87 | one turn of the loop: the teardown once the stop sign is set, a heartbeat otherwise |
| Supervisors.Supervisor.End | client/network/monitors.py:48-50 | sets the stop sign and returns after the teardown |
| Supervisors.Supervisor.Put | client/network/monitors.py:109 | a map assignment on a key other than `'weather'`, keeping the invariant |
| Supervisors.Supervisor.Add | client/network/monitors.py:103-112 | stores the new serial monitor under the name and its prediction under the prediction key, and registers the prediction with the weather monitor, even when `connect` failed |
| Supervisors.Supervisor.Register | client/network/monitors.py:98-112 | with an online monitor under the name, nothing happens; an unknown model raises KeyError and stores nothing; otherwise `Add` |
| Supervisors.Supervisor.Monitor | client/network/monitors.py:89-96 | on a finished thread, a resolved future and nothing registered; on a live thread, exactly what `Register` does: nothing for an online monitor, KeyError for an unknown model, otherwise a new serial and prediction monitor stored in order and the prediction registered with the weather monitor |
| Supervisors.Supervisor.Pull | client/network/monitors.py:114-120 | on a finished thread, a resolved `None` and no device I/O; otherwise the monitor's pull |
| Supervisors.Monitors.constructor | client/network/monitors.py:124-126 | there is no thread at first |
| Supervisors.Monitors.Current | client/network/monitors.py:128-133 | the thread's map, or an empty one |
| Supervisors.Monitors.Launch | client/network/monitors.py:135-143 | with a live thread and no restart, nothing happens; with a restart the old thread is ended first; then a new thread holding only the weather monitor starts; weather registrations survive |
| Supervisors.Monitors.Stop | client/network/monitors.py:145-151 | with no thread, a resolved future; otherwise the stop sign is set and the thread's `stopped` future returned |
| LegacySupervisors.LegacyPassSchedule | client/network/monitor.py:162-168 | a pass on every 10th heartbeat |
| LegacySupervisors.LegacySupervisor.constructor | client/network/monitor.py:129-135 | a new thread with an empty map |
| LegacySupervisors.LegacySupervisor.Launch | client/network/monitor.py:237 | `start()` makes the thread alive |
| LegacySupervisors.LegacySupervisor.Heartbeat | client/network/monitor.py:163-174 | on every 10th heartbeat, every monitor in insertion order |
| LegacySupervisors.LegacySupervisor.Teardown | client/network/monitor.py:184-188 | every monitor closed, then `stopped` resolves |
| LegacySupervisors.LegacySupervisor.Step | client/network/monitor.py:163-188 | one turn of the older loop |
| LegacySupervisors.LegacySupervisor.End | client/network/monitor.py:149-151 | sets the stop sign and returns after the teardown |
| LegacySupervisors.LegacySupervisor.Register | client/network/monitor.py:199-206 | a new monitor with no prediction feed always replaces the name's entry, keeping its place, even when `connect` failed; an unknown model raises KeyError |
| LegacySupervisors.LegacySupervisor.Monitor | client/network/monitor.py:190-197 | on a finished thread, a resolved future and nothing registered; on a live thread, KeyError for an unknown model, otherwise exactly what `Register` stores |
| LegacySupervisors.LegacySupervisor.Pull | client/network/monitor.py:208-214 | on a finished thread, a resolved `None`; otherwise the monitor's pull |
| LegacySupervisors.LegacyMonitors.constructor | client/network/monitor.py:218-220 | no thread at first |
| LegacySupervisors.LegacyMonitors.Current | client/network/monitor.py:222-227 | the thread's map, or an empty one |
| LegacySupervisors.LegacyMonitors.Launch | client/network/monitor.py:229-237 | no-op with a live thread and no restart; otherwise the live thread is ended, its monitors closed, and a new empty thread started |
| LegacySupervisors.LegacyMonitors.Stop | client/network/monitor.py:239-245 | a resolved future without a thread; otherwise the stop sign and the thread's `stopped` future |
| WeatherExtract.Index | client/util/weather.py:11 | subscripting gives the member, KeyError on an object without it, TypeError on a non-object |
| WeatherExtract.Translate | client/util/weather.py:13 | a known skycon string gives its translation; an unknown one raises KeyError, a list or dict TypeError |
| WeatherExtract.ExtractContents | client/util/weather.py:10-16 | extraction succeeds exactly on well-formed payloads and gives exactly three keys: the translated condition, and the wind speed and temperature copied unchanged |
| WeatherExtract.UnknownSkyconRaises | client/util/weather.py:13 | an unknown skycon raises KeyError |
| WeatherExtract.MissingResultRaises | client/util/weather.py:11 | a non-object payload raises TypeError; one without `result`, KeyError |
| Predictions.TransformKey | client/service/predict.py:14-16 | the start of the minute: a multiple of 60, at most the time and less than 60 s before it |
| Predictions.SameMinute | client/service/predict.py:14-16 | two times share a key exactly when they share a minute, and the key is idempotent |
| Predictions.PrepareFrom | client/service/predict.py:19-20 | one entry per key, in order: the row's value or 0.0 |
| Predictions.PrepareOnlyFeatures | client/service/predict.py:11-20 | the vector depends only on the nine feature keys, and a row without any gives nine zeros |
| Predictions.PrepareWeather | client/service/predict.py:11 | an extracted weather row fills the wind and temperature slots, while the condition slot reads 0.0 because the keys differ |
| Predictions.Collect | client/service/predict.py:38-40 | the query loop computes `Collected` |
| Predictions.CollectedKeys | client/service/predict.py:38-40 | the keys are exactly the minutes of the reports |
| Predictions.CollectedWinner | client/service/predict.py:52-54 | each minute holds the fields of the last report visited in that minute |
| Predictions.OldestInMinuteWins | client/service/predict.py:32-40 | with the newest-first query order, the oldest report of a minute wins |
| Predictions.MergeSensorRow | client/service/predict.py:60-66 | the inner loop computes `MergeRow` |
| Predictions.OverlayValues | client/service/predict.py:62-64 | after the overlay, a key holds the value of the last strictly earlier weather that has it, else its starting value |
| Predictions.LatestWeatherWins | client/service/predict.py:65-66 | on a non-empty row the latest weather's keys always win; an empty row stays empty |
| Predictions.SensorFieldsKept | client/service/predict.py:60-64 | a sensor field no weather names survives unchanged |
| Predictions.Rows | client/service/predict.py:59-73 | one row per sensor minute |
| Predictions.ExtractAll | client/service/predict.py:52-54 | every weather context is extracted in order; any failing extraction makes the whole fail |
| Predictions.MergeRows | client/service/predict.py:59-73 | the outer loop and the stamping compute `Rows` |
| Predictions.BuildFrame | client/service/predict.py:38-73 | the loops compute the frame of the collected reports |
| Predictions.NoWeatherNoRows | client/service/predict.py:58 | without weather reports there are no rows |
| Predictions.RowsAscending | client/service/predict.py:56-73 | with weather there is one row per sensor minute, stamped in strictly ascending order, each the merged row |
| Predictions.FillDissolvedOxygen | client/service/predict.py:77-78 | the frame keeps its length |
| Predictions.FilledColumn | client/service/predict.py:77-78 | once filled, either no row has a dissolved-oxygen value or every row has a non-null one; when the column exists, a missing or null value becomes 0.0; present values are kept and nothing else changes |
| Sessions.RStrip | client/network/session.py:11 | a prefix of the base, not ending in `/`, with only slashes removed |
| Sessions.LStrip | client/network/session.py:11 | a suffix of the path, not starting with `/`, with only slashes removed |
| Sessions.JoinOneSlash | client/network/session.py:11 | the join is the stripped base, exactly one slash with no slash beside it, then the stripped path |
| Sessions.JoinIgnoresSeamSlashes | client/network/session.py:11 | extra slashes at the seam do not change the URL |
| Sessions.Request | client/network/session.py:9-12 | `absolute` is always removed; the method and all other arguments are forwarded unchanged |
| Sessions.RequestUrl | client/network/session.py:10-11 | a truthy `absolute` passes the URL through unchanged; otherwise it is joined to the base; the request fails, with AttributeError, exactly when it needs a base and has none |
| Singletons.Singleton.constructor | client/abstract/meta.py:8 | the cache starts empty |
| Singletons.Singleton.Call | client/abstract/meta.py:10-13 | the first call constructs with the given arguments and caches the instance; later calls return the identical object and run no constructor |
| Singletons.DistinctClassesDistinctInstances | client/abstract/meta.py:8-11 | the cache is keyed by class, so distinct classes get distinct instances |
| Singletons.CallTwice | client/abstract/meta.py:10-13 | two calls for a class give one object and at most one construction, and another class gets another object |

## Left out

- Threads, the asyncio event loop, Qt and the websocket are not modelled. A thread loop is driven through `Step`, and a future is resolved when the call returns.
- Supervisors.Supervisor.Heartbeat: a pass is returned as the ordered list of names to report, and the caller performs the reports. The code catches no exception from a monitor's `report` (client/network/monitors.py:73-75). An exception leaves the loop coroutine altogether: no later monitor reports, the teardown closes no monitor, `stopped` is never resolved (so the future `Monitors.stop()` returns never completes), and the thread ends. This is not modelled. With the as-written reports (see Findings), the first pass that reaches a report with readings, or the weather monitor's 30th call, ends the supervisor this way.
- LegacySupervisors.LegacySupervisor.Heartbeat: the same holds for the older loop (client/network/monitor.py:170-188). An exception from `report` ends the coroutine without closing any monitor or resolving `stopped`.
- Sending a packet is appending to a log (`Outbox.Connection`). `Report` and `RequestWeather` are opaque outgoing wrappers. The repository defines neither: client/network/serializable/packet/__init__.py:5-6 imports them, with `RawReport` and `Weather`, from packet/sensor.py, which defines none of the four.
- Messages.RegisterCatalogue: as written, importing the packet package stops part-way. client/network/serializable/packet/__init__.py:1 imports the auth module first, so RequestNodeRegistration, NodeRegistration, RequestProfile and Profile are registered. Line 2 then imports control.py, whose line 7 imports `deserialize_from_dict` from client/abstract/serialize.py, which does not define it: ImportError, so Failure, Operation and every node, pond and sensor class are never defined or registered. With that import fixed, lines 5-6 would raise ImportError next. The model assumes the package imports, and the monitors' reports are modelled both as written (ImportError) and as intended (see Findings).
- The JSON text itself is not modelled: objects are maps, so member order is lost. `json.dumps` and `json.loads` work on the tree.
- Messages.Parse: jsonobject's property validation and conversion are not modelled. A declared member that is missing, or of the wrong JSON type, makes the packet unbuildable (`None`, and ValueError in `Handlers.Unwrap`). jsonobject instead fills a missing member with the property's default (`None` for a string, integer or object property, an empty list for a list property). Members a class does not declare are ignored.
- Messages.ParseFields: states the member-reading half only; the constructor call is stated by `Messages.CatalogueRoundTrip`, where the six positional classes raise.
- Serialize.Construct: jsonobject's own constructor is modelled as taking a dict or `None` and raising ValueError (its BadValueError) otherwise. A positional constructor's string member takes a string or `None`. A class that is no JsonObject, called as `target(**values)`, is modelled as taking every member.
- Messages.CreationMembers, Serialize.Default: the decorator's `setattr(clazz, 'type', name)` (client/abstract/serialize.py:34) replaces SensorCreation's declared `type` property with the wire-name string on the class. The model keeps the two apart: the instance member `type` holds the model, and `getattr(o, 'type')` gives the wire name. How jsonobject resolves this collision is not modelled.
- LegacySerialize.LegacyDefault: the instance attribute dictionary `o.__dict__` is a parameter. What jsonobject keeps there, as opposed to its internal member storage, is not modelled; the older envelope equals the newer one only when the two agree (`LegacySerialize.LegacyEnvelope`).
- Handlers.Unwrap: when an inner packet's members do not fit its class, the model raises ValueError. This approximates jsonobject's own validation error.
- Handlers.HandlePondReceipt: a `pondId` that is not a string, null included, raises ValueError. jsonobject's `StringProperty` would accept null.
- Handlers.HandleSensorReceipt: `Profile.structures` is declared as a set property (client/network/serializable/packet/auth.py:41), and the handler calls `append` on it, which a set lacks. The as-written handler raises (see Findings). The intended handler adds the structure, and the set is modelled as a list, so adding a structure that is already present is not modelled.
- Handlers.HandleTypes: the emitted model list is modelled as the set of types, because its order is set iteration order.
- `deserialize_from_dict`, imported at client/network/serializable/packet/control.py:7, is defined nowhere in the repository, so that import raises ImportError (see `Messages.RegisterCatalogue` above). `Operation.execute` is modelled with the `from_dict` hook applied to its inner dict.
- Serialize.Decode, LegacySerialize.LegacyDecode: an exception raised while decoding a nested object propagates unchanged. For an array it is that of the first failing item. For an object it is that of one failing member, without saying which one wins when several raise different exceptions, because the JSON tree does not keep the order of an object's members.
- Handlers.Receive: reading a packet off the wire is modelled with the newer `deserialize` (client/abstract/serialize.py:66-67). The listener at client/network/websocket.py:103 uses the older one of client/network/packet/base.py and calls `execute()` with no arguments; the listener itself is not modelled.
- Float32s.ToReal: the IEEE 754 conversion is stated as an exact real (with `None` for infinities and NaNs) and is used only for the zero test. Float arithmetic is not modelled.
- Times are integer seconds, and date-times are integers on the wire. A minute key `'%Y-%m-%d %H:%M'` is the minute index. Time zones and calendar formatting are not modelled.
- The Modbus transport (pymodbus) is a parameter: whether a reconnect worked, and the response bytes or `None` for a response of the wrong kind.
- SerialMonitors.SerialMonitor.Report: the monitor's `sensor` is held as a value (`Messages.Sensor`). In the code it is the same object as the sensor in the cached `Profile`, so the `fields` that `report` rewrites (client/network/monitor/serial.py:123-124, client/network/monitor.py:119-120) are also what the dashboard reads (client/ui/widget/dashboard.py:38). That aliasing is not modelled: the profile in `Handlers.Context` keeps its own copy.
- SerialMonitors.SerialMonitor.Connect: a `connect` that raises is modelled as a connect that leaves the link down; the exception is caught and logged in `__monitor`.
- The older `Monitor` class of client/network/monitor.py is the same `SerialMonitors.SerialMonitor` with no prediction monitor (`prediction == null`). Its report imports the same undefined `Report` (ImportError as written), but then sends through `Client().connection`, which exists; the intended `SerialMonitors.SerialMonitor.Report` is its behaviour once the wrapper is defined.
- The database queries of `pull` in predict.py are not modelled. Their results arrive as sequences in query order, newest first.
- Predictions.Frame: the pandas DataFrame is a sequence of row maps, and the minute stamp is an integer.
- Predictions.FillDissolvedOxygen: `fillna` is modelled as filling missing cells and null cells; NaN is the JSON null.
- `PredictionMonitor.pull` has no body and `WeatherMonitor.pull` returns `None`; both are left out.
- Logging is dropped throughout.
- Registration order: the catalogue classes are registered in the order of `Messages.Catalogue`. Other modules that register classes are not part of this model.

## Findings

| source | as written | input that shows it | evidently intended | confidence | as-written member | corrected member |
|---|---|---|---|---|---|---|
| client/network/serializable/packet/auth.py:45-49 | `Profile.execute` calls `monitors.monitor(sensor)` on the `Monitors` facade. Neither facade defines `monitor` (client/network/monitors.py:123-151, client/network/monitor.py:217-245); only the thread class does, and it takes the structure as well | a `Profile` whose `sensors` list is non-empty: the handler raises AttributeError after launching the supervisor, and the dashboard is never shown | request monitoring of each sensor in order, then show the dashboard | not executed | Handlers.HandleProfileAsWritten, Handlers.ProfileAsWrittenRaises | Handlers.HandleProfile, Handlers.ProfileRequestsEachSensor |
| client/network/monitor/serial.py:128-129 | `report` imports `Report` from the packet package, whose sensor module does not define it, and then calls `Client().send`; `Client` (client/network/websocket.py:138-177) has no `send`, only `Connection` does. weather.py:29-30 does the same with `RequestWeather` | a report pass in which the lazy pull yields readings: the prediction store and `sensor.fields` are updated, then the report raises ImportError and nothing is sent; the weather monitor's 30th call raises the same way | define the wrappers and send through `Client().connection`, as the older monitor.py:125 does | not executed | SerialMonitors.SerialMonitor.ReportAsWritten, GatedMonitors.WeatherMonitor.ReportAsWritten | SerialMonitors.SerialMonitor.Report, GatedMonitors.WeatherMonitor.Report |
| client/network/serializable/packet/control.py:50-55 | `Operation.execute` decodes its `packet` member as a tagged envelope, but the wire text was decoded bottom-up with the object hook (client/abstract/serialize.py:66-67), which has already stripped or consumed that tag | `{"==": "cn.edu.bistu.smartpond.packet.Operation", "operationId": 1, "packet": {"==": "cn.edu.bistu.smartpond.packet.PacketOutRequestNodeRegistration"}}`: the inner object becomes an instance, which the `packet` dict property rejects (ValueError); an `Operation` that does decode has an untagged `packet` and runs nothing | the `Operation` runs the packet its `packet` member wraps | not executed | Handlers.OperationOffWireRejected, Handlers.WireOperationIgnored | Handlers.OperationRunsWrapped, Handlers.UnwrapEnvelope |
| client/network/serializable/packet/sensor.py:52-55 | the receipt calls `profile.structures.append(...)`, but `structures` is a set property (client/network/serializable/packet/auth.py:41), which has no `append` | a `SensorCreationReceipt` with a non-null structure and a cached profile: the sensor is appended, then AttributeError, and the dashboard is never shown | add the structure to the set and show the dashboard | not executed | Handlers.HandleSensorReceiptAsWritten, Handlers.SensorReceiptAsWrittenRaises | Handlers.HandleSensorReceipt, Handlers.ReceiptExtendsProfile |

=== FILE: counters.dfy ===
/** The gate "count one more call; below the threshold do nothing; at the
    threshold reset to zero and act" used by the supervisor heartbeat and by the
    weather and prediction monitors. */
module Counters {

  /** The counter after one call: `count += 1`, and back to 0 once it reaches
      `threshold`. */
  function Next(count: int, threshold: int): int {
    if count + 1 < threshold then count + 1 else 0
  }

  /** Whether the call made with counter value `count` acts. */
  predicate Fires(count: int, threshold: int) {
    count + 1 >= threshold
  }

  /** The counter after `n` calls starting from `c0`. */
  function After(c0: int, threshold: int, n: nat): int {
    if n == 0 then c0 else Next(After(c0, threshold, n - 1), threshold)
  }

  /** Whether the `n`-th call (counting from 1) acts. */
  predicate FiresOn(c0: int, threshold: int, n: nat)
    requires n >= 1
  {
    Fires(After(c0, threshold, n - 1), threshold)
  }

  lemma {:induction false} MulAtLeast(d: int, t: int)
    requires d >= 1 && t > 0
    ensures d * t >= t
  {
    if d > 1 {
      MulAtLeast(d - 1, t);
      assert d * t == (d - 1) * t + t;
    }
  }

  lemma ModUnique(a: int, t: int, q: int, r: int)
    requires t > 0 && a == q * t + r && 0 <= r < t
    ensures a % t == r
  {
    var q', r' := a / t, a % t;
    assert a == q' * t + r';
    assert q * t - q' * t == (q - q') * t;
    if q > q' {
      MulAtLeast(q - q', t);
      assert false;
    } else if q < q' {
      MulAtLeast(q' - q, t);
      assert false;
    }
  }

  lemma ModStep(k: nat, t: int)
    requires t > 0
    ensures (k + 1) % t == if k % t + 1 < t then k % t + 1 else 0
  {
    var q, r := k / t, k % t;
    assert k == q * t + r;
    if r + 1 < t {
      ModUnique(k + 1, t, q, r + 1);
    } else {
      assert k + 1 == (q + 1) * t + 0;
      ModUnique(k + 1, t, q + 1, 0);
    }
  }

  /** Closed form of the counter: it climbs from `c0` to the threshold, then
      runs through 0 .. threshold-1 forever. */
  lemma {:induction false} AfterClosedForm(c0: int, t: int, n: nat)
    requires 0 <= c0 < t
    ensures After(c0, t, n) == if n < t - c0 then c0 + n else (n - (t - c0)) % t
  {
    if n > 0 {
      AfterClosedForm(c0, t, n - 1);
      var d := t - c0;
      var prev := After(c0, t, n - 1);
      assert After(c0, t, n) == Next(prev, t);
      if n - 1 >= d {
        var k: nat := n - 1 - d;
        assert prev == k % t;
        ModStep(k, t);
        assert n - d == k + 1;
      } else if n == d {
        assert prev == t - 1;
        assert (n - d) % t == 0;
      }
    }
  }

  /** The `n`-th call acts exactly on call `t - c0` and every `t`-th call
      after it. */
  lemma FiringSchedule(c0: int, t: int, n: nat)
    requires 0 <= c0 < t && n >= 1
    ensures FiresOn(c0, t, n) <==> n >= t - c0 && (n - (t - c0)) % t == 0
  {
    AfterClosedForm(c0, t, n - 1);
    if n - 1 >= t - c0 {
      ModStep(n - 1 - (t - c0), t);
    } else if n == t - c0 {
      assert (n - (t - c0)) % t == 0;
    } else {
      assert n < t - c0;
    }
  }

  /** Starting from 0, the `n`-th call acts exactly when `n` is a multiple
      of the threshold. */
  lemma EveryNth(t: int, n: nat)
    requires t > 0 && n >= 1
    ensures FiresOn(0, t, n) <==> n % t == 0
  {
    FiringSchedule(0, t, n);
    if n >= t {
      var k := n - t;
      var q, r := k / t, k % t;
      assert k == q * t + r;
      assert n == (q + 1) * t + r;
      ModUnique(n, t, q + 1, r);
    } else {
      ModUnique(n, t, 0, n);
    }
  }
}

=== FILE: float32.dfy ===
/** Bytes and IEEE 754 binary32 values as read from the sensor's holding
    registers. */
module Float32s {
  import opened Wrappers

  newtype byte = x: int | 0 <= x < 256

  /** The four bytes of a binary32 value, most significant first (the
      operand of `struct.unpack('>f', ...)`). */
  datatype Float32 = Float32(b0: byte, b1: byte, b2: byte, b3: byte)
  {
    function Sign(): int {
      if b0 as int >= 128 then -1 else 1
    }

    function Exponent(): int {
      (b0 as int % 128) * 2 + b1 as int / 128
    }

    function Mantissa(): int {
      (b1 as int % 128) * 65536 + b2 as int * 256 + b3 as int
    }

    /** Whether the value compares equal to `0.0` (either signed zero). */
    predicate IsZero() {
      b0 as int % 128 == 0 && b1 == 0 && b2 == 0 && b3 == 0
    }
  }

  function Pow2(n: nat): (r: real)
    ensures r >= 1.0
  {
    if n == 0 then 1.0 else 2.0 * Pow2(n - 1)
  }

  /** 2 to the power `e`, for any integer `e`. */
  function Scale(e: int): (r: real)
    ensures r > 0.0
  {
    if e >= 0 then Pow2(e) else 1.0 / Pow2(-e)
  }

  /** The real number a binary32 value denotes; `None` for infinities and NaNs. */
  function ToReal(f: Float32): Option<real> {
    var e := f.Exponent();
    var m := f.Mantissa();
    if e == 255 then None
    else if e == 0 then Some(f.Sign() as real * m as real * Scale(-149))
    else Some(f.Sign() as real * (8388608 + m) as real * Scale(e - 150))
  }

  lemma ProductNonZero(a: real, b: real, c: real)
    requires a != 0.0 && b != 0.0 && c != 0.0
    ensures a * b * c != 0.0
  {
    assert a * b != 0.0;
  }

  /** Both fields vanish exactly for the two signed zeros. */
  lemma ZeroFields(f: Float32)
    ensures f.IsZero() <==> f.Exponent() == 0 && f.Mantissa() == 0
  {
    var x0, x1, x2, x3 := f.b0 as int, f.b1 as int, f.b2 as int, f.b3 as int;
    if f.Exponent() == 0 && f.Mantissa() == 0 {
      assert x1 / 128 == 0 && x1 % 128 == 0;
      assert x1 == 128 * (x1 / 128) + x1 % 128;
    }
  }

  /** The byte test `IsZero` is exactly the comparison with `0.0`. */
  lemma ZeroTest(f: Float32)
    ensures f.IsZero() <==> ToReal(f) == Some(0.0)
  {
    ZeroFields(f);
    var e, m, s := f.Exponent(), f.Mantissa(), f.Sign();
    if e == 0 && m != 0 {
      ProductNonZero(s as real, m as real, Scale(-149));
    } else if e != 0 && e != 255 {
      ProductNonZero(s as real, (8388608 + m) as real, Scale(e - 150));
    }
  }
}

=== FILE: gated_monitors.dfy ===
/** The prediction and weather monitors of client/network/monitor/prediction.py
    and weather.py: each acts on every 30th `report` call, counting in a field
    of its own, and shares class-level containers with every other instance. */
module GatedMonitors {
  import opened Wrappers
  import opened JsonValues
  import opened Float32s
  import opened Counters
  import opened Outbox

  /** Both monitors act on every 30th report. */
  const Period := 30

  /** The `'%Y-%m-%d %H:%M'` key of the wall-clock time `now` (in seconds):
      the index of its minute. */
  function MinuteKey(now: int): int {
    now / 60
  }

  /** Two times share a key exactly when they fall in the same minute. */
  lemma MinuteKeyShared(a: int, b: int)
    ensures MinuteKey(a) == MinuteKey(b) <==> a - a % 60 == b - b % 60
  {
    assert a == 60 * (a / 60) + a % 60;
    assert b == 60 * (b / 60) + b % 60;
  }

  /** The class-level dictionaries `serials` and `weathers`, shared by every
      prediction monitor. */
  class PredictionStore {
    var serials: map<int, map<string, Float32>>
    var weathers: map<int, map<string, Json>>

    constructor ()
      ensures serials == map[] && weathers == map[]
    {
      serials := map[];
      weathers := map[];
    }
  }

  class PredictionMonitor {
    /** `self.count`: the class default 0 until the first report gives the
        instance its own counter. */
    var count: int
    const store: PredictionStore

    constructor (store: PredictionStore)
      ensures count == 0 && this.store == store
    {
      count := 0;
      this.store := store;
    }

    /** Stores the readings under the current minute; a later append in the
        same minute replaces an earlier one. */
    method AppendSerial(values: map<string, Float32>, now: int)
      modifies store
      ensures store.serials == old(store.serials)[MinuteKey(now) := values]
      ensures store.weathers == old(store.weathers)
    {
      store.serials := store.serials[MinuteKey(now) := values];
    }

    method AppendWeather(values: map<string, Json>, now: int)
      modifies store
      ensures store.weathers == old(store.weathers)[MinuteKey(now) := values]
      ensures store.serials == old(store.serials)
    {
      store.weathers := store.weathers[MinuteKey(now) := values];
    }

    /** Counts the call; on reaching 30 resets the counter and pulls (which
        does nothing). `pulled` tells whether it did. */
    method Report() returns (pulled: bool)
      modifies this
      ensures count == Next(old(count), Period)
      ensures pulled == Fires(old(count), Period)
    {
      count := count + 1;
      if count < Period {
        return false;
      }
      count := 0;
      pulled := true;
    }
  }

  /** The class-level list `predictions` of the weather monitor. */
  class WeatherRegistry {
    var predictions: seq<PredictionMonitor>

    constructor ()
      ensures predictions == []
    {
      predictions := [];
    }
  }

  class WeatherMonitor {
    var count: int
    const registry: WeatherRegistry
    const link: Connection

    constructor (registry: WeatherRegistry, link: Connection)
      ensures count == 0 && this.registry == registry && this.link == link
    {
      count := 0;
      this.registry := registry;
      this.link := link;
    }

    /** Appends to the shared list, duplicates included. */
    method RegisterPrediction(p: PredictionMonitor)
      modifies registry
      ensures registry.predictions == old(registry.predictions) + [p]
    {
      registry.predictions := registry.predictions + [p];
    }

    /** Counts the call; on reaching 30 resets the counter and sends one
        `RequestWeather`. */
    method Report()
      modifies this, link
      ensures count == Next(old(count), Period)
      ensures link.sent == old(link.sent) + if Fires(old(count), Period) then [RequestWeather] else []
    {
      count := count + 1;
      if count < Period {
        return;
      }
      count := 0;
      link.Send(RequestWeather);
    }

    /** `report` as written: the counter is kept as in `Report`, but on the
        30th call the `RequestWeather` wrapper is imported from a package
        that does not define it (ImportError); were it defined, `Client` has
        no `send` method (AttributeError). Nothing is ever sent. */
    method ReportAsWritten(wrapperDefined: bool) returns (r: Result<(), Exception>)
      modifies this
      ensures count == Next(old(count), Period)
      ensures link.sent == old(link.sent)
      ensures Fires(old(count), Period) <==> r.Failure?
      ensures r.Failure? ==> r.error == if wrapperDefined then AttributeError else ImportError
    {
      count := count + 1;
      if count < Period {
        return Success(());
      }
      count := 0;
      r := Failure(if wrapperDefined then AttributeError else ImportError);
    }
  }

  /** A fresh monitor acts on exactly the calls numbered 30, 60, 90, ... */
  lemma GatedSchedule(n: nat)
    requires n >= 1
    ensures FiresOn(0, Period, n) <==> n % 30 == 0
  {
    EveryNth(Period, n);
  }
}

=== FILE: handlers.dfy ===
/** The `execute` handlers of the incoming packets (client/network/serializable/
    packet/auth.py, control.py, node.py, pond.py and sensor.py).

    A handler receives the connection, the client and the main window. What
    it touches is gathered in one object: the cached pond id and profile
    (`Cached()`), the machine signature (`Secrets()`), the page the window
    shows, the window's signals (as a log of emitted events), the calls made
    on the monitor supervisor (as a log), the connection (its log of sent
    packets) and the registry the decoder looks names up in. */
module Handlers {
  import opened Wrappers
  import opened JsonValues
  import opened Packets
  import opened Serialize
  import opened Messages
  import opened Outbox

  /** The window's central widget, as far as the handlers look at it. */
  datatype Page = SensorCreatePage | DashboardPage | OtherPage

  /** Where `window.builder.emit` navigates to. */
  datatype Target =
    | Dashboard
    | NodeSelect(nodes: seq<Json>)
    | PondSelect(ponds: seq<Json>)

  /** A signal emitted towards the UI. `Models` carries the set of types: the
      list the handler emits is that set in iteration order. */
  datatype UiEvent =
    | Navigate(target: Target)
    | Unlock
    | StatusMessage(text: string)
    | Models(types: set<string>)
    | Ready

  /** A call made on the `Monitors` supervisor facade. */
  datatype SupervisorCall =
    | LaunchSupervisor(restart: bool)
    | MonitorSensor(sensor: Sensor)

  /** How a handler ends: normally, after logging and doing nothing, or by
      raising. */
  datatype Outcome = Handled | Ignored | Raised(error: Exception)

  /** The profile the client caches: always a `Profile` packet. */
  type CachedProfile = m: Message | m.Profile? witness Profile("", JNull, JNull, [], [])

  /** What the handlers read and write. */
  datatype Context = Context(
    pondId: Option<Json>,
    profile: Option<CachedProfile>,
    ui: seq<UiEvent>,
    calls: seq<SupervisorCall>,
    sent: seq<Outgoing>)

  /** The highest `FailureReason` code (`INVALID_SENSOR_NAME`). */
  const InvalidSensorName := 8

  const NameTakenMessage := "该传感器名称已被占用"

  /** What `isinstance(packet, IncomingPacket)` and the packet's members
      make of a decoded value: an incoming packet; `None` for anything
      else; an incoming class whose members do not fit gives ValueError. */
  function Build(p: Py): Result<Option<Message>, Exception> {
    if p.PyObject? && p.cls.kind.IncomingPacket? then
      match ToJson(p.attrs)
      case None => Result.Failure(ValueError)
      case Some(f) =>
        match Parse(p.cls, f)
        case None => Result.Failure(ValueError)
        case Some(inner) => Success(Some(inner))
    else Success(None)
  }

  /** What is built is an incoming packet of the decoded class, read from
      the JSON form of the decoded attributes. */
  lemma BuildFacts(p: Py)
    ensures Build(p).Success? && Build(p).value.Some? ==>
              && p.PyObject? && ToJson(p.attrs).Some?
              && Parse(p.cls, ToJson(p.attrs).value) == Some(Build(p).value.value)
              && ClassOf(Build(p).value.value) == p.cls && IsIncoming(Build(p).value.value)
  {
    if Build(p).Success? && Build(p).value.Some? {
      ParseKeepsClass(p.cls, ToJson(p.attrs).value);
    }
  }

  /** The decoding step of `Operation.execute`: the inner dictionary through
      the decode hook, then built. A hook error propagates. */
  function Unwrap(packet: map<string, Json>, reg: map<string, ClassDesc>): Result<Option<Message>, Exception> {
    match FromDict(Lifted(packet), reg)
    case Failure(e) => Result.Failure(e)
    case Success(p) => Build(p)
  }

  /** A packet read from the wire with `deserialize(content)`: the whole
      tree decoded bottom-up through the hook, then built. `j` is the JSON
      tree of `content`. */
  ghost function Receive(j: Json, reg: map<string, ClassDesc>): Result<Option<Message>, Exception> {
    match Decode(j, reg)
    case Failure(e) => Result.Failure(e)
    case Success(p) => Build(p)
  }

  /** A dictionary tagged with the name of a registered incoming packet
      class unwraps to what that class makes of the other members. */
  lemma UnwrapTagged(packet: map<string, Json>, reg: map<string, ClassDesc>, n: string)
    requires Tag in packet && packet[Tag] == JStr(n) && n in reg && reg[n].kind.IncomingPacket?
    ensures reg[n].init.MemberInit? ==>
              Unwrap(packet, reg) ==
              match Parse(reg[n], packet - {Tag})
              case None => Result.Failure(ValueError)
              case Some(inner) => Success(Some(inner))
    ensures reg[n].init.PositionalInit? ==> Unwrap(packet, reg) == Result.Failure(PositionalError(reg[n]))
  {
    var values := Lifted(packet);
    assert values[Tag] == PyStr(n);
    assert FromDict(values, reg) == Construct(reg[n], PyDict(values - {Tag}));
    LiftedRoundTrip(packet);
  }

  /** A dictionary tagged with a registered incoming class that takes the
      member dict unwraps to what that class reads from the other members. */
  lemma UnwrapParsed(f: map<string, Json>, reg: map<string, ClassDesc>, n: string, m: Message)
    requires Tag !in f && n in reg
    requires reg[n].kind.IncomingPacket? && reg[n].init.MemberInit?
    requires Parse(reg[n], f) == Some(m)
    ensures Unwrap(f[Tag := JStr(n)], reg) == Success(Some(m))
  {
    UnwrapTagged(f[Tag := JStr(n)], reg, n);
    assert f[Tag := JStr(n)] - {Tag} == f;
  }

  /** What unwrapping gives is an incoming packet, and an inner `Operation`
      is the `packet` member of the outer one. */
  lemma UnwrapFacts(packet: map<string, Json>, reg: map<string, ClassDesc>)
    ensures Unwrap(packet, reg).Success? && Unwrap(packet, reg).value.Some? ==>
              var inner := Unwrap(packet, reg).value.value;
              && IsIncoming(inner)
              && (inner.Operation? ==> "packet" in packet && packet["packet"] == JObj(inner.packet))
  {
    var values := Lifted(packet);
    var d := FromDict(values, reg);
    if d.Success? && Build(d.value).Success? && Build(d.value).value.Some? {
      BuildFacts(d.value);
      var p := d.value;
      var inner := Build(p).value.value;
      assert p.attrs == values - {Tag};
      LiftedRoundTrip(packet);
      if inner.Operation? {
        assert p.cls == OperationClass;
        ParseOperationPacket(packet - {Tag});
      }
    }
  }

  /** The hook strips every tag it sees, so no dictionary that comes out of
      a decode carries one. */
  lemma DecodedDictUntagged(j: Json, reg: map<string, ClassDesc>)
    requires Decode(j, reg).Success? && Decode(j, reg).value.PyDict?
    ensures Tag !in Decode(j, reg).value.entries
  {
  }

  /** Each attribute of a decoded instance is the decode of the member of
      the same name. */
  lemma DecodedObjectMembers(m: map<string, Json>, reg: map<string, ClassDesc>)
    requires Decode(JObj(m), reg).Success? && Decode(JObj(m), reg).value.PyObject?
    ensures var attrs := Decode(JObj(m), reg).value.attrs;
            forall k :: k in attrs ==> k in m && Decode(m[k], reg) == Success(attrs[k])
  {
  }

  /** The `Profile` handler as written: the profile is cached and the
      supervisor launched, then `monitors.monitor(sensor)` is looked up on a
      facade that has no such method, so the first sensor raises
      AttributeError before the dashboard is shown. */
  function HandleProfileAsWritten(s: Context, m: Message): (r: (Context, Outcome))
    requires m.Profile?
    ensures r.0.profile == Some(m) && r.0.calls == s.calls + [LaunchSupervisor(false)]
    ensures r.0.pondId == s.pondId && r.0.sent == s.sent
    ensures |m.sensors| > 0 <==> r.1 == Raised(AttributeError)
    ensures |m.sensors| > 0 <==> r.0.ui == s.ui
  {
    var launched := s.(profile := Some(m), calls := s.calls + [LaunchSupervisor(false)]);
    if |m.sensors| > 0 then (launched, Raised(AttributeError))
    else (launched.(ui := s.ui + [Navigate(Dashboard)]), Handled)
  }

  /** The supervisor calls that request monitoring of each sensor, in order. */
  function MonitorCalls(sensors: seq<Sensor>): (r: seq<SupervisorCall>)
    ensures |r| == |sensors| && forall i :: 0 <= i < |sensors| ==> r[i] == MonitorSensor(sensors[i])
  {
    seq(|sensors|, i requires 0 <= i < |sensors| => MonitorSensor(sensors[i]))
  }

  /** The `Profile` handler as intended: cache the profile, launch the
      supervisor, request monitoring of every sensor in list order, then
      show the dashboard. */
  function HandleProfile(s: Context, m: Message): (Context, Outcome)
    requires m.Profile?
  {
    (s.(profile := Some(m),
        calls := s.calls + [LaunchSupervisor(false)] + MonitorCalls(m.sensors),
        ui := s.ui + [Navigate(Dashboard)]),
     Handled)
  }

  /** `FailureReason(code)` raises ValueError for a code outside 0..8; on
      the sensor creation page, `INVALID_SENSOR_NAME` unlocks the form and
      shows that the name is taken; every other reason is only logged. */
  function HandleFailure(s: Context, page: Page, code: int): (Context, Outcome) {
    if code < 0 || code > InvalidSensorName then (s, Raised(ValueError))
    else if code == InvalidSensorName && page == SensorCreatePage then
      (s.(ui := s.ui + [Unlock, StatusMessage(NameTakenMessage)]), Handled)
    else (s, Handled)
  }

  /** `Cached().pond_id = self.pondId` (AttributeError when the member is
      missing), then `RequestNodeList` with the cached id, whose field
      requires a string. */
  function HandlePondReceipt(s: Context, members: map<string, Json>): (Context, Outcome) {
    if "pondId" !in members then (s, Raised(AttributeError))
    else
      var cached := s.(pondId := Some(members["pondId"]));
      if members["pondId"].JStr? then
        (cached.(sent := s.sent + [Send(RequestNodeList(members["pondId"].s))]), Handled)
      else (cached, Raised(ValueError))
  }

  /** The model list goes to the sensor creation page only. */
  function HandleTypes(s: Context, page: Page, types: seq<string>): (Context, Outcome) {
    if page == SensorCreatePage then
      (s.(ui := s.ui + [Models(set t | t in types), Ready]), Handled)
    else (s, Ignored)
  }

  /** The receipt handler as intended: `Cached().profile.sensors.append(sensor)`,
      the structure added to `structures` unless it is null, then the
      dashboard; AttributeError without a cached profile. */
  function HandleSensorReceipt(s: Context, sensor: Sensor, structure: Json): (Context, Outcome) {
    if s.profile.None? then (s, Raised(AttributeError))
    else
      var p := s.profile.value;
      var structures := if structure.JNull? then p.structures else p.structures + [structure];
      (s.(profile := Some(p.(sensors := p.sensors + [sensor], structures := structures)),
          ui := s.ui + [Navigate(Dashboard)]),
       Handled)
  }

  /** The receipt handler as written: the sensor is appended, but the
      profile's `structures` member is a set, which has no `append`, so a
      receipt carrying a structure raises AttributeError before the
      dashboard is shown. */
  function HandleSensorReceiptAsWritten(s: Context, sensor: Sensor, structure: Json): (Context, Outcome) {
    if s.profile.None? then (s, Raised(AttributeError))
    else
      var p := s.profile.value;
      var appended := s.(profile := Some(p.(sensors := p.sensors + [sensor])));
      if structure.JNull? then (appended.(ui := s.ui + [Navigate(Dashboard)]), Handled)
      else (appended, Raised(AttributeError))
  }

  /** As written, a receipt with a structure keeps the appended sensor but
      raises before the structure is stored or the dashboard shown; the
      intended handler stores both and shows the dashboard. Without a
      structure the two agree. */
  lemma SensorReceiptAsWrittenRaises(s: Context, sensor: Sensor, structure: Json)
    requires s.profile.Some? && !structure.JNull?
    ensures var (s', o) := HandleSensorReceiptAsWritten(s, sensor, structure);
            && o == Raised(AttributeError)
            && s'.profile.Some? && s'.profile.value.Profile?
            && s'.profile.value.sensors == s.profile.value.sensors + [sensor]
            && s'.profile.value.structures == s.profile.value.structures
            && s'.ui == s.ui
    ensures var (s', o) := HandleSensorReceipt(s, sensor, structure);
            && o == Handled && s'.profile.Some? && s'.profile.value.Profile?
            && s'.profile.value.structures == s.profile.value.structures + [structure]
            && s'.ui == s.ui + [Navigate(Dashboard)]
    ensures HandleSensorReceiptAsWritten(s, sensor, JNull) == HandleSensorReceipt(s, sensor, JNull)
  {
  }

  /** The handlers of every incoming packet but `Operation`. `page` is the
      window's central widget, `signature` the machine signature. */
  function HandleDirect(s: Context, page: Page, signature: string, m: Message): (Context, Outcome)
    requires IsIncoming(m) && !m.Operation?
  {
    IncomingConstructors(m);
    match m
    case RequestNodeRegistration =>
      (s.(sent := s.sent + [Send(NodeRegistration(signature))]), Handled)
    case Profile(_, _, _, _, _) => HandleProfile(s, m)
    case Failure(code) => HandleFailure(s, page, code)
    case NodeList(_, nodes) => (s.(ui := s.ui + [Navigate(NodeSelect(nodes))]), Handled)
    case PondList(ponds) => (s.(ui := s.ui + [Navigate(PondSelect(ponds))]), Handled)
    case PondCreationReceipt(members) => HandlePondReceipt(s, members)
    case SensorTypeList(types) => HandleTypes(s, page, types)
    case SensorCreationReceipt(sensor, structure) => HandleSensorReceipt(s, sensor, structure)
  }

  /** `Operation.execute`: decode the inner dictionary and run what it
      holds; `reg` is the decoder's name table. */
  function HandleOperation(s: Context, page: Page, signature: string, reg: map<string, ClassDesc>,
                           packet: map<string, Json>): (Context, Outcome)
    decreases JObj(packet)
  {
    UnwrapFacts(packet, reg);
    match Unwrap(packet, reg)
    case Failure(e) => (s, Raised(e))
    case Success(None) => (s, Ignored)
    case Success(Some(inner)) =>
      if inner.Operation? then HandleOperation(s, page, signature, reg, inner.packet)
      else HandleDirect(s, page, signature, inner)
  }

  /** `packet.execute(connection, client, window)` for an incoming packet. */
  function Handle(s: Context, page: Page, signature: string, reg: map<string, ClassDesc>, m: Message): (Context, Outcome)
    requires IsIncoming(m)
  {
    if m.Operation? then HandleOperation(s, page, signature, reg, m.packet)
    else HandleDirect(s, page, signature, m)
  }

  // ---------------------------------------------------------------------------
  // What each handler promises
  // ---------------------------------------------------------------------------

  /** Each handler touches only what it names; these are stated per packet. */
  lemma RegistrationReply(s: Context, page: Page, signature: string, reg: map<string, ClassDesc>)
    ensures Handle(s, page, signature, reg, RequestNodeRegistration) ==
            (s.(sent := s.sent + [Send(NodeRegistration(signature))]), Handled)
  {
  }

  /** Codes outside 0..8 raise before anything happens; code 8 on the sensor
      creation page unlocks it and shows the name-taken message; every other
      code or page changes nothing. */
  lemma FailureDispatch(s: Context, page: Page, signature: string, reg: map<string, ClassDesc>, code: int)
    ensures var (s', o) := Handle(s, page, signature, reg, Message.Failure(code));
            && (!(0 <= code <= 8) ==> s' == s && o == Raised(ValueError))
            && (0 <= code <= 8 ==> o == Handled)
            && (code == 8 && page == SensorCreatePage ==> s' == s.(ui := s.ui + [Unlock, StatusMessage(NameTakenMessage)]))
            && (0 <= code <= 8 && !(code == 8 && page == SensorCreatePage) ==> s' == s)
  {
  }

  /** An `Operation` whose inner dictionary decodes to an incoming packet
      behaves exactly as that packet with the same context; otherwise it
      changes nothing. */
  lemma OperationDelegates(s: Context, page: Page, signature: string, reg: map<string, ClassDesc>,
                           id: int, packet: map<string, Json>)
    ensures var r := Handle(s, page, signature, reg, Operation(id, packet));
            && (Unwrap(packet, reg).Success? && Unwrap(packet, reg).value.Some? ==>
                  IsIncoming(Unwrap(packet, reg).value.value) &&
                  r == Handle(s, page, signature, reg, Unwrap(packet, reg).value.value))
            && (Unwrap(packet, reg).Success? && Unwrap(packet, reg).value.None? ==> r == (s, Ignored))
            && (Unwrap(packet, reg).Failure? ==> r == (s, Raised(Unwrap(packet, reg).error)))
  {
    UnwrapFacts(packet, reg);
  }

  /** An object without a tag, or with a tag nobody registered, is no
      packet: the `Operation` carrying it does nothing. */
  lemma UntaggedOperationIgnored(s: Context, page: Page, signature: string, reg: map<string, ClassDesc>,
                                 id: int, packet: map<string, Json>)
    requires Tag !in packet || (packet[Tag].JStr? && packet[Tag].s !in reg) || packet[Tag].JNull?
    ensures Handle(s, page, signature, reg, Operation(id, packet)) == (s, Ignored)
  {
    var values := Lifted(packet);
    if Tag in packet {
      assert values[Tag] == Lift(packet[Tag]);
    }
  }

  /** Unwrapping the envelope of an incoming packet gives that packet. */
  lemma UnwrapEnvelope(reg: map<string, ClassDesc>, inner: Message)
    requires IsIncoming(inner) && WireName(ClassOf(inner)).Success?
    requires var n := WireName(ClassOf(inner)).value; n in reg && reg[n] == ClassOf(inner)
    requires Tag !in Fields(inner)
    ensures Unwrap(Fields(inner)[Tag := JStr(WireName(ClassOf(inner)).value)], reg) == Success(Some(inner))
  {
    CatalogueConstructors(inner);
    ParseFields(inner);
    UnwrapParsed(Fields(inner), reg, WireName(ClassOf(inner)).value, inner);
  }

  /** An `Operation` whose `packet` member still holds the envelope of an
      incoming packet runs that packet's handler. This is the evident
      intent of `Operation.execute`; an `Operation` read off the wire never
      holds such a member (`WireOperationIgnored`,
      `OperationOffWireRejected`). */
  lemma OperationRunsWrapped(s: Context, page: Page, signature: string, reg: map<string, ClassDesc>,
                             id: int, inner: Message)
    requires IsIncoming(inner) && WireName(ClassOf(inner)).Success?
    requires var n := WireName(ClassOf(inner)).value; n in reg && reg[n] == ClassOf(inner)
    requires Tag !in Fields(inner)
    ensures Handle(s, page, signature, reg,
                   Operation(id, Fields(inner)[Tag := JStr(WireName(ClassOf(inner)).value)])) ==
            Handle(s, page, signature, reg, inner)
  {
    UnwrapEnvelope(reg, inner);
    OperationDelegates(s, page, signature, reg, id, Fields(inner)[Tag := JStr(WireName(ClassOf(inner)).value)]);
  }

  /** A built `Operation` came from an instance whose `packet` attribute is
      a dictionary with the same keys as the packet's `packet` member. */
  lemma BuiltOperationPacket(p: Py)
    requires Build(p).Success? && Build(p).value.Some? && Build(p).value.value.Operation?
    ensures p.PyObject? && "packet" in p.attrs && p.attrs["packet"].PyDict?
    ensures p.attrs["packet"].entries.Keys == Build(p).value.value.packet.Keys
  {
    BuildFacts(p);
    var f := ToJson(p.attrs).value;
    assert p.cls == OperationClass;
    ParseOperationPacket(f);
  }

  /** Read off the wire, an `Operation` holds an untagged `packet` member,
      because the bottom-up decode has already stripped the inner tag. */
  lemma ReceivedOperationUntagged(j: Json, reg: map<string, ClassDesc>)
    requires Receive(j, reg).Success? && Receive(j, reg).value.Some?
    requires Receive(j, reg).value.value.Operation?
    ensures Tag !in Receive(j, reg).value.value.packet
  {
    var p := Decode(j, reg).value;
    BuiltOperationPacket(p);
    assert j.JObj?;
    DecodedObjectMembers(j.members, reg);
    DecodedDictUntagged(j.members["packet"], reg);
  }

  /** An `Operation` read off the wire therefore runs nothing. */
  lemma WireOperationIgnored(s: Context, page: Page, signature: string, reg: map<string, ClassDesc>, j: Json)
    requires Receive(j, reg).Success? && Receive(j, reg).value.Some?
    requires Receive(j, reg).value.value.Operation?
    ensures Tag !in Receive(j, reg).value.value.packet
    ensures Unwrap(Receive(j, reg).value.value.packet, reg) == Success(None)
    ensures Handle(s, page, signature, reg, Receive(j, reg).value.value) == (s, Ignored)
  {
    var op := Receive(j, reg).value.value;
    ReceivedOperationUntagged(j, reg);
    UntaggedOperationIgnored(s, page, signature, reg, op.operationId, op.packet);
  }

  /** The envelope of a registered incoming packet decodes to an instance of
      its class. */
  lemma DecodeIncomingEnvelope(reg: map<string, ClassDesc>, inner: Message)
    requires IsIncoming(inner) && WireName(ClassOf(inner)).Success?
    requires WireName(ClassOf(inner)).value in reg && reg[WireName(ClassOf(inner)).value] == ClassOf(inner)
    requires TagFree(JObj(Fields(inner)))
    ensures var d := Decode(JObj(Fields(inner)[Tag := JStr(WireName(ClassOf(inner)).value)]), reg);
            d.Success? && d.value.PyObject? && d.value.cls == ClassOf(inner)
  {
    CatalogueConstructors(inner);
    var values := DecodeEnvelope(Fields(inner), WireName(ClassOf(inner)).value, reg);
  }

  /** The `Operation` envelope wrapping such an envelope decodes to an
      `Operation` instance whose `packet` attribute is that instance. */
  lemma DecodeWrappedEnvelope(j: Json, reg: map<string, ClassDesc>, id: int)
    requires Decode(j, reg).Success? && Decode(j, reg).value.PyObject?
    requires OperationName in reg && reg[OperationName] == OperationClass
    ensures var d := Decode(JObj(map[Tag := JStr(OperationName), "operationId" := JInt(id), "packet" := j]), reg);
            && d.Success? && d.value.PyObject? && d.value.cls == OperationClass
            && "packet" in d.value.attrs && d.value.attrs["packet"].PyObject?
  {
    var m := map["operationId" := JInt(id), "packet" := j];
    OperationMembersDecode(id, j, reg);
    DecodeTagged(m, OperationName, reg);
    OperationEnvelopeShape(id, j);
  }

  /** Tagging the two members gives the three-member envelope. */
  lemma OperationEnvelopeShape(id: int, j: Json)
    ensures map["operationId" := JInt(id), "packet" := j][Tag := JStr(OperationName)] ==
            map[Tag := JStr(OperationName), "operationId" := JInt(id), "packet" := j]
  {
  }

  /** Both members of such an `Operation` envelope decode. */
  lemma OperationMembersDecode(id: int, j: Json, reg: map<string, ClassDesc>)
    requires Decode(j, reg).Success?
    ensures var m := map["operationId" := JInt(id), "packet" := j];
            forall k :: k in m ==> Decode(m[k], reg).Success?
  {
    assert Decode(JInt(id), reg) == Success(Lift(JInt(id)));
  }

  /** An incoming packet none of whose attributes may be an instance: one
      that is makes the packet unbuildable. */
  lemma InstanceAttributeUnbuildable(p: Py, k: string)
    requires p.PyObject? && p.cls.kind.IncomingPacket?
    requires k in p.attrs && p.attrs[k].PyObject?
    ensures Build(p) == Result.Failure(ValueError)
  {
    assert Plain(p.attrs[k]).None?;
  }

  /** An `Operation` that carries the envelope of a registered incoming
      packet cannot be read off the wire: the hook rebuilds the inner packet
      first, and an instance is no value for the `packet` dict member. */
  lemma OperationOffWireRejected(reg: map<string, ClassDesc>, id: int, inner: Message)
    requires IsIncoming(inner) && WireName(ClassOf(inner)).Success?
    requires WireName(ClassOf(inner)).value in reg && reg[WireName(ClassOf(inner)).value] == ClassOf(inner)
    requires OperationName in reg && reg[OperationName] == OperationClass
    requires TagFree(JObj(Fields(inner)))
    ensures var envelope := Fields(inner)[Tag := JStr(WireName(ClassOf(inner)).value)];
            Receive(JObj(map[Tag := JStr(OperationName), "operationId" := JInt(id), "packet" := JObj(envelope)]), reg) ==
            Result.Failure(ValueError)
  {
    var envelope := Fields(inner)[Tag := JStr(WireName(ClassOf(inner)).value)];
    var j := JObj(map[Tag := JStr(OperationName), "operationId" := JInt(id), "packet" := JObj(envelope)]);
    DecodeIncomingEnvelope(reg, inner);
    DecodeWrappedEnvelope(JObj(envelope), reg, id);
    InstanceAttributeUnbuildable(Decode(j, reg).value, "packet");
  }

  /** The receipt first caches `pondId`, then sends one `RequestNodeList`
      with that same id; without a `pondId` member it raises and nothing
      changes. */
  lemma ReceiptRequestsNodes(s: Context, page: Page, signature: string, reg: map<string, ClassDesc>,
                             members: map<string, Json>)
    ensures var (s', o) := Handle(s, page, signature, reg, PondCreationReceipt(members));
            && ("pondId" !in members ==> s' == s && o == Raised(AttributeError))
            && ("pondId" in members ==> s'.pondId == Some(members["pondId"]) && s'.ui == s.ui &&
                                        s'.profile == s.profile && s'.calls == s.calls)
            && ("pondId" in members && members["pondId"].JStr? ==>
                  o == Handled && s'.sent == s.sent + [Send(RequestNodeList(members["pondId"].s))] &&
                  s'.sent[|s'.sent| - 1].message.pondId == s'.pondId.value.s)
  {
  }

  /** The type list reaches the page only when it is the sensor creation
      page: the types, then ready. */
  lemma TypesReachCreatePage(s: Context, page: Page, signature: string, reg: map<string, ClassDesc>,
                             types: seq<string>)
    ensures var (s', o) := Handle(s, page, signature, reg, SensorTypeList(types));
            && (page == SensorCreatePage ==>
                  o == Handled && s' == s.(ui := s.ui + [Models(set t | t in types), Ready]) &&
                  forall t :: t in s'.ui[|s.ui|].types <==> t in types)
            && (page != SensorCreatePage ==> s' == s && o == Ignored)
  {
  }

  /** The receipt appends the sensor to the cached profile, the structure
      only when present, then shows the dashboard; without a cached profile
      it raises and nothing changes. */
  lemma ReceiptExtendsProfile(s: Context, page: Page, signature: string, reg: map<string, ClassDesc>,
                              sensor: Sensor, structure: Json)
    ensures var (s', o) := Handle(s, page, signature, reg, SensorCreationReceipt(sensor, structure));
            && (s.profile.None? ==> s' == s && o == Raised(AttributeError))
            && (s.profile.Some? ==>
                  && o == Handled && s'.profile.Some? && s'.profile.value.Profile?
                  && s'.profile.value.sensors == s.profile.value.sensors + [sensor]
                  && s'.profile.value.structures ==
                       (if structure.JNull? then s.profile.value.structures else s.profile.value.structures + [structure])
                  && s'.profile.value.username == s.profile.value.username
                  && s'.ui == s.ui + [Navigate(Dashboard)] && s'.sent == s.sent && s'.pondId == s.pondId)
  {
  }

  /** The node list is handed to the node selection page unchanged. */
  lemma NodeListNavigates(s: Context, page: Page, signature: string, reg: map<string, ClassDesc>,
                          pondId: string, nodes: seq<Json>)
    ensures IsIncoming(NodeList(pondId, nodes))
    ensures Handle(s, page, signature, reg, NodeList(pondId, nodes)) ==
            (s.(ui := s.ui + [Navigate(NodeSelect(nodes))]), Handled)
  {
  }

  /** The pond list is handed to the pond selection page unchanged. */
  lemma PondListNavigates(s: Context, page: Page, signature: string, reg: map<string, ClassDesc>,
                          ponds: seq<Json>)
    ensures IsIncoming(PondList(ponds))
    ensures Handle(s, page, signature, reg, PondList(ponds)) ==
            (s.(ui := s.ui + [Navigate(PondSelect(ponds))]), Handled)
  {
  }

  /** The intended `Profile` handler: the profile is cached, the supervisor
      launched, each sensor's monitoring requested in list order, and the
      dashboard shown last. */
  lemma ProfileRequestsEachSensor(s: Context, page: Page, signature: string, reg: map<string, ClassDesc>,
                                  m: Message)
    requires m.Profile?
    ensures var (s', o) := Handle(s, page, signature, reg, m);
            && o == Handled && s'.profile == Some(m)
            && |s'.calls| == |s.calls| + 1 + |m.sensors|
            && s'.calls[..|s.calls|] == s.calls && s'.calls[|s.calls|] == LaunchSupervisor(false)
            && (forall i :: 0 <= i < |m.sensors| ==> s'.calls[|s.calls| + 1 + i] == MonitorSensor(m.sensors[i]))
            && s'.ui == s.ui + [Navigate(Dashboard)]
  {
    var calls := s.calls + [LaunchSupervisor(false)] + MonitorCalls(m.sensors);
    assert calls[..|s.calls|] == s.calls;
  }

  /** As written, a profile with sensors never reaches the dashboard. */
  lemma ProfileAsWrittenRaises(s: Context, m: Message)
    requires m.Profile? && |m.sensors| > 0
    ensures HandleProfileAsWritten(s, m).1 == Raised(AttributeError)
    ensures Navigate(Dashboard) !in HandleProfileAsWritten(s, m).0.ui[|s.ui|..]
    ensures HandleProfile(s, m).1 == Handled
    ensures HandleProfile(s, m).0.ui[|s.ui|..] == [Navigate(Dashboard)]
  {
    assert HandleProfileAsWritten(s, m).0.ui[|s.ui|..] == [];
  }

  // ---------------------------------------------------------------------------
  // The handlers on their state
  // ---------------------------------------------------------------------------

  class PacketHandlers {
    const link: Connection
    const registry: Registry
    const signature: string
    var page: Page
    var pondId: Option<Json>
    var profile: Option<CachedProfile>
    var ui: seq<UiEvent>
    var calls: seq<SupervisorCall>

    function Snapshot(): Context
      reads this, link
    {
      Context(pondId, profile, ui, calls, link.sent)
    }

    constructor (link: Connection, registry: Registry, signature: string, page: Page)
      ensures this.link == link && this.registry == registry && this.signature == signature
      ensures this.page == page && pondId == None && profile == None && ui == [] && calls == []
    {
      this.link := link;
      this.registry := registry;
      this.signature := signature;
      this.page := page;
      pondId := None;
      profile := None;
      ui := [];
      calls := [];
    }

    /** `Profile.execute` (as intended), proved against `HandleProfile`. */
    method ExecuteProfile(m: Message) returns (o: Outcome)
      requires m.Profile?
      modifies this
      ensures (Snapshot(), o) == HandleProfile(old(Snapshot()), m)
      ensures page == old(page)
    {
      profile := Some(m);
      var made := calls + [LaunchSupervisor(false)];
      for i := 0 to |m.sensors|
        invariant made == calls + [LaunchSupervisor(false)] + MonitorCalls(m.sensors[..i])
      {
        assert MonitorCalls(m.sensors[..i + 1]) == MonitorCalls(m.sensors[..i]) + [MonitorSensor(m.sensors[i])];
        made := made + [MonitorSensor(m.sensors[i])];
      }
      assert m.sensors[..|m.sensors|] == m.sensors;
      calls := made;
      ui := ui + [Navigate(Dashboard)];
      o := Handled;
    }

    method ExecuteFailure(code: int) returns (o: Outcome)
      modifies this
      ensures (Snapshot(), o) == HandleFailure(old(Snapshot()), page, code)
      ensures page == old(page)
    {
      if code < 0 || code > InvalidSensorName {
        return Raised(ValueError);
      }
      if code == InvalidSensorName && page == SensorCreatePage {
        ui := ui + [Unlock, StatusMessage(NameTakenMessage)];
      }
      o := Handled;
    }

    method ExecutePondReceipt(members: map<string, Json>) returns (o: Outcome)
      modifies this, link
      ensures (Snapshot(), o) == HandlePondReceipt(old(Snapshot()), members)
      ensures page == old(page)
    {
      if "pondId" !in members {
        return Raised(AttributeError);
      }
      pondId := Some(members["pondId"]);
      if !members["pondId"].JStr? {
        return Raised(ValueError);
      }
      link.Send(Send(RequestNodeList(members["pondId"].s)));
      o := Handled;
    }

    method ExecuteTypes(types: seq<string>) returns (o: Outcome)
      modifies this
      ensures (Snapshot(), o) == HandleTypes(old(Snapshot()), page, types)
      ensures page == old(page)
    {
      if page != SensorCreatePage {
        return Ignored;
      }
      ui := ui + [Models(set t | t in types), Ready];
      o := Handled;
    }

    method ExecuteSensorReceipt(sensor: Sensor, structure: Json) returns (o: Outcome)
      modifies this
      ensures (Snapshot(), o) == HandleSensorReceipt(old(Snapshot()), sensor, structure)
      ensures page == old(page)
    {
      if profile.None? {
        return Raised(AttributeError);
      }
      var p := profile.value;
      p := p.(sensors := p.sensors + [sensor]);
      if !structure.JNull? {
        p := p.(structures := p.structures + [structure]);
      }
      profile := Some(p);
      ui := ui + [Navigate(Dashboard)];
      o := Handled;
    }

    method ExecuteDirect(m: Message) returns (o: Outcome)
      requires IsIncoming(m) && !m.Operation?
      modifies this, link
      ensures (Snapshot(), o) == HandleDirect(old(Snapshot()), page, signature, m)
      ensures page == old(page)
    {
      IncomingConstructors(m);
      match m {
        case RequestNodeRegistration =>
          link.Send(Send(NodeRegistration(signature)));
          o := Handled;
        case Profile(_, _, _, _, _) =>
          o := ExecuteProfile(m);
        case Failure(code) =>
          o := ExecuteFailure(code);
        case NodeList(_, nodes) =>
          ui := ui + [Navigate(NodeSelect(nodes))];
          o := Handled;
        case PondList(ponds) =>
          ui := ui + [Navigate(PondSelect(ponds))];
          o := Handled;
        case PondCreationReceipt(members) =>
          o := ExecutePondReceipt(members);
        case SensorTypeList(types) =>
          o := ExecuteTypes(types);
        case SensorCreationReceipt(sensor, structure) =>
          o := ExecuteSensorReceipt(sensor, structure);
      }
    }

    method ExecuteOperation(packet: map<string, Json>) returns (o: Outcome)
      modifies this, link
      ensures (Snapshot(), o) == HandleOperation(old(Snapshot()), page, signature, registry.registered, packet)
      ensures page == old(page)
      decreases JObj(packet)
    {
      UnwrapFacts(packet, registry.registered);
      var unwrapped := Unwrap(packet, registry.registered);
      if unwrapped.Failure? {
        return Raised(unwrapped.error);
      }
      if unwrapped.value.None? {
        return Ignored;
      }
      var inner := unwrapped.value.value;
      if inner.Operation? {
        o := ExecuteOperation(inner.packet);
      } else {
        o := ExecuteDirect(inner);
      }
    }

    /** `packet.execute(connection, client, window)`, proved against `Handle`. */
    method Execute(m: Message) returns (o: Outcome)
      requires IsIncoming(m)
      modifies this, link
      ensures (Snapshot(), o) == Handle(old(Snapshot()), page, signature, registry.registered, m)
      ensures page == old(page)
    {
      if m.Operation? {
        o := ExecuteOperation(m.packet);
      } else {
        o := ExecuteDirect(m);
      }
    }
  }
}

=== FILE: json.dfy ===
/** JSON values (RFC 8259) as trees. The text form is not modelled: encoding
    and decoding work on the tree that the text denotes. Objects are maps, so
    the order of their members is not represented. */
module JsonValues {

  datatype Json =
    | JNull
    | JBool(b: bool)
    | JInt(i: int)
    | JReal(r: real)
    | JStr(s: string)
    | JArr(items: seq<Json>)
    | JObj(members: map<string, Json>)

  /** Python truthiness of the value `json.loads` would build from `j`:
      `None`, `False`, `0`, `0.0`, `""`, `[]` and `{}` are false. */
  predicate Truthy(j: Json) {
    match j
    case JNull => false
    case JBool(b) => b
    case JInt(i) => i != 0
    case JReal(r) => r != 0.0
    case JStr(s) => s != ""
    case JArr(items) => items != []
    case JObj(members) => members != map[]
  }
}

=== FILE: legacy_serialize.dfy ===
/** The older envelope of client/network/packet/base.py.

    The decorator (base.py:15-37) is the same as the newer one and is
    modelled once, by `Serialize.WireName` and `Serialize.Registry`. The
    encoder differs in taking the instance's attribute dictionary
    (`o.__dict__`) instead of its `to_json()`. The decoder differs: every
    object that does not carry a registered tag becomes `None`, nested ones
    included, and a target class receives the raw text. */
module LegacySerialize {
  import opened Wrappers
  import opened JsonValues
  import opened Packets
  import opened Serialize

  /** `PacketEncoder.default` of the older module on an object whose
      instance attribute dictionary is `attrs`: a registered packet becomes
      a copy of `attrs` with `"=="` set to its `type`; any other JSON object
      its `to_json()`; anything else raises TypeError. */
  function LegacyDefault(o: Instance, attrs: map<string, Json>, typeAttr: map<ClassDesc, string>): Result<Json, Exception> {
    if o.cls.IsPacket() && o.cls in typeAttr then Success(JObj(attrs[Tag := JStr(typeAttr[o.cls])]))
    else if o.cls.IsJsonObject() then Success(JObj(o.fields))
    else Failure(TypeError)
  }

  /** The older envelope of a registered packet is its attribute dictionary
      plus the tag, whatever its `to_json()` holds; it agrees with the newer
      envelope only when the two dictionaries agree. */
  lemma LegacyEnvelope(p: Instance, attrs: map<string, Json>, typeAttr: map<ClassDesc, string>)
    requires p.cls.IsPacket() && p.cls in typeAttr
    ensures var r := LegacyDefault(p, attrs, typeAttr);
            && r.Success? && r.value.JObj?
            && r.value.members.Keys == attrs.Keys + {Tag}
            && r.value.members - {Tag} == attrs - {Tag}
            && r.value.members[Tag] == JStr(typeAttr[p.cls])
    ensures forall f :: LegacyDefault(p.(fields := f), attrs, typeAttr) == LegacyDefault(p, attrs, typeAttr)
    ensures Tag !in attrs && Tag !in p.fields ==>
              (LegacyDefault(p, attrs, typeAttr) == Default(p, typeAttr) <==> attrs == p.fields)
  {
    var name := JStr(typeAttr[p.cls]);
    if Tag !in attrs && Tag !in p.fields && attrs[Tag := name] == p.fields[Tag := name] {
      assert attrs == attrs[Tag := name] - {Tag};
      assert p.fields == p.fields[Tag := name] - {Tag};
    }
  }

  /** The older `context` property (base.py:44-46) is the instance attribute
      dictionary; the older `execute` takes no arguments and reads it. The
      older envelope is that context plus the tag naming the class. */
  lemma LegacyContextIsEnvelopeWithoutTag(p: Instance, attrs: map<string, Json>, typeAttr: map<ClassDesc, string>)
    requires p.cls.IsPacket() && p.cls in typeAttr && Tag !in attrs
    ensures LegacyDefault(p, attrs, typeAttr).Success? && LegacyDefault(p, attrs, typeAttr).value.JObj?
    ensures LegacyDefault(p, attrs, typeAttr).value.members - {Tag} == attrs
    ensures LegacyDefault(p, attrs, typeAttr).value.members[Tag] == JStr(typeAttr[p.cls])
  {
    var e := LegacyDefault(p, attrs, typeAttr).value.members;
    assert e == attrs[Tag := JStr(typeAttr[p.cls])];
    assert e - {Tag} == attrs;
  }

  /** The legacy hook: only a registered tag yields a value; everything else
      (no tag, a `None` tag, an unknown name) yields `None`. */
  function LegacyFromDict(values: map<string, Py>, reg: map<string, ClassDesc>): Result<Py, Exception> {
    if Tag !in values then Success(PyNone)
    else
      match values[Tag]
      case PyStr(n) =>
        if n !in reg then Success(PyNone)
        else if reg[n].IsJsonObject() then Construct(reg[n], PyDict(values - {Tag}))
        else Success(PyObject(reg[n], values - {Tag}))
      case PyList(_) => Failure(TypeError)
      case PyDict(_) => Failure(TypeError)
      case _ => Success(PyNone)
  }

  /** `json.loads(content, object_hook=from_dict)` with the legacy hook. As
      with `Serialize.Decode`, an exception raised below propagates
      unchanged: that of the first failing item of an array, that of one
      failing member of an object. */
  ghost function LegacyDecode(j: Json, reg: map<string, ClassDesc>): Result<Py, Exception> {
    match j
    case JArr(items) =>
      if exists i :: 0 <= i < |items| && LegacyDecode(items[i], reg).Failure? then
        var i :| 0 <= i < |items| && LegacyDecode(items[i], reg).Failure?;
        var failed := seq(|items|, h requires 0 <= h < |items| => LegacyDecode(items[h], reg).Failure?);
        assert failed[i];
        LegacyDecode(items[FirstTrue(failed)], reg)
      else Success(PyList(seq(|items|, i requires 0 <= i < |items| && LegacyDecode(items[i], reg).Success? =>
                                          LegacyDecode(items[i], reg).value)))
    case JObj(m) =>
      if exists k :: k in m && LegacyDecode(m[k], reg).Failure? then
        var k :| k in m && LegacyDecode(m[k], reg).Failure?;
        LegacyDecode(m[k], reg)
      else LegacyFromDict(map k | k in m :: LegacyDecode(m[k], reg).value, reg)
    case _ => Success(Lift(j))
  }

  /** The first failing item of an array gives the array's error. */
  lemma LegacyFirstFailingItem(items: seq<Json>, reg: map<string, ClassDesc>, i: nat)
    requires i < |items| && LegacyDecode(items[i], reg).Failure?
    requires forall h :: 0 <= h < i ==> LegacyDecode(items[h], reg).Success?
    ensures LegacyDecode(JArr(items), reg) == LegacyDecode(items[i], reg)
  {
    var failed := seq(|items|, h requires 0 <= h < |items| => LegacyDecode(items[h], reg).Failure?);
    assert failed[i];
    var first := FirstTrue(failed);
    assert first == i;
  }

  /** An object whose failing members all raise `e` raises `e`. */
  lemma LegacyFailingMember(m: map<string, Json>, reg: map<string, ClassDesc>, e: Exception)
    requires exists k :: k in m && LegacyDecode(m[k], reg).Failure?
    requires forall k :: k in m && LegacyDecode(m[k], reg).Failure? ==> LegacyDecode(m[k], reg).error == e
    ensures LegacyDecode(JObj(m), reg) == Failure(e)
  {
    var k :| k in m && LegacyDecode(m[k], reg).Failure?;
    assert LegacyDecode(JObj(m), reg).Failure?;
  }

  /** A registered class with a positional constructor nested under `key`
      makes the whole text raise its own error. */
  lemma LegacyNestedPositionalRaises(key: string, n: string, reg: map<string, ClassDesc>)
    requires n in reg && reg[n].IsJsonObject() && reg[n].init.PositionalInit?
    ensures LegacyDecode(JObj(map[Tag := JStr(n)]), reg) == Failure(PositionalError(reg[n]))
    ensures LegacyDecode(JObj(map[key := JObj(map[Tag := JStr(n)])]), reg) == Failure(PositionalError(reg[n]))
  {
    var inner := map[Tag := JStr(n)];
    assert LegacyDecode(inner[Tag], reg) == Success(PyStr(n));
    assert !exists k :: k in inner && LegacyDecode(inner[k], reg).Failure?;
    var values := map k | k in inner :: LegacyDecode(inner[k], reg).value;
    assert values == map[Tag := PyStr(n)];
    assert LegacyDecode(JObj(inner), reg) == Failure(PositionalError(reg[n]));
    assert map[key := JObj(inner)][key] == JObj(inner);
    LegacyFailingMember(map[key := JObj(inner)], reg, PositionalError(reg[n]));
  }

  /** No JSON object occurs anywhere inside `j`. */
  predicate ObjectFree(j: Json) {
    match j
    case JArr(items) => forall i :: 0 <= i < |items| ==> ObjectFree(items[i])
    case JObj(_) => false
    case _ => true
  }

  /** An object without a registered tag decodes to `None`, whatever it holds. */
  lemma UnregisteredBecomesNone(m: map<string, Json>, reg: map<string, ClassDesc>)
    requires forall k :: k in m ==> LegacyDecode(m[k], reg).Success?
    requires Tag !in m || m[Tag].JNull? || (m[Tag].JStr? && m[Tag].s !in reg)
    ensures LegacyDecode(JObj(m), reg) == Success(PyNone)
  {
    assert !exists k :: k in m && LegacyDecode(m[k], reg).Failure?;
    var values := map k | k in m :: LegacyDecode(m[k], reg).value;
    if Tag in m {
      assert values[Tag] == Lift(m[Tag]);
    }
  }

  /** Values without objects decode to themselves. */
  lemma {:induction false} DecodeObjectFree(j: Json, reg: map<string, ClassDesc>)
    requires ObjectFree(j)
    ensures LegacyDecode(j, reg) == Success(Lift(j))
  {
    match j
    case JArr(items) =>
      forall i | 0 <= i < |items| ensures LegacyDecode(items[i], reg) == Success(Lift(items[i])) {
        DecodeObjectFree(items[i], reg);
      }
      assert !exists i :: 0 <= i < |items| && LegacyDecode(items[i], reg).Failure?;
      var decoded := seq(|items|, i requires 0 <= i < |items| && LegacyDecode(items[i], reg).Success? =>
                                   LegacyDecode(items[i], reg).value);
      assert LegacyDecode(j, reg) == Success(PyList(decoded));
      assert decoded == Lift(j).items;
    case _ =>
  }

  /** The legacy hook on an envelope whose members hold no objects: the
      registered class called on the members as the decoder sees them. */
  lemma LegacyDecodeEnvelope(fields: map<string, Json>, reg: map<string, ClassDesc>, name: string)
    requires name in reg && Tag !in fields && forall k :: k in fields ==> ObjectFree(fields[k])
    ensures reg[name].IsJsonObject() ==>
              LegacyDecode(JObj(fields[Tag := JStr(name)]), reg) ==
              Construct(reg[name], PyDict(Lifted(fields[Tag := JStr(name)]) - {Tag}))
    ensures !reg[name].IsJsonObject() ==>
              LegacyDecode(JObj(fields[Tag := JStr(name)]), reg) ==
              Success(PyObject(reg[name], Lifted(fields[Tag := JStr(name)]) - {Tag}))
  {
    var m := fields[Tag := JStr(name)];
    forall k | k in m ensures LegacyDecode(m[k], reg) == Success(Lift(m[k])) {
      if k != Tag {
        DecodeObjectFree(m[k], reg);
      }
    }
    assert !exists k :: k in m && LegacyDecode(m[k], reg).Failure?;
    var values := map k | k in m :: LegacyDecode(m[k], reg).value;
    assert values == Lifted(m);
    assert values[Tag] == PyStr(name);
  }

  /** Round trip in the legacy envelope, for an attribute dictionary that
      holds no objects: a class taking the member dict comes back with
      exactly those attributes; a class with a positional constructor of
      its own cannot be rebuilt. */
  lemma LegacyRoundTrip(p: Instance, attrs: map<string, Json>, reg: map<string, ClassDesc>,
                        typeAttr: map<ClassDesc, string>)
    requires p.cls.IsPacket() && p.cls in typeAttr
    requires typeAttr[p.cls] in reg && reg[typeAttr[p.cls]] == p.cls
    requires Tag !in attrs && forall k :: k in attrs ==> ObjectFree(attrs[k])
    ensures LegacyDefault(p, attrs, typeAttr).Success?
    ensures var d := LegacyDecode(LegacyDefault(p, attrs, typeAttr).value, reg);
            p.cls.init.MemberInit? ==>
              d.Success? && d.value.PyObject? && d.value.cls == p.cls && ToJson(d.value.attrs) == Some(attrs)
    ensures p.cls.init.PositionalInit? ==>
              LegacyDecode(LegacyDefault(p, attrs, typeAttr).value, reg) == Failure(PositionalError(p.cls))
  {
    var m := attrs[Tag := JStr(typeAttr[p.cls])];
    LegacyDecodeEnvelope(attrs, reg, typeAttr[p.cls]);
    LiftedRoundTrip(m);
    assert m - {Tag} == attrs;
  }

  /** A plain object nested in a registered packet is lost: it comes back as
      `None`, so the round trip above cannot be extended to such fields. */
  lemma NestedObjectBecomesNone(p: Instance, attrs: map<string, Json>, reg: map<string, ClassDesc>,
                                typeAttr: map<ClassDesc, string>, key: string)
    requires p.cls.IsPacket() && p.cls in typeAttr && p.cls.init.MemberInit?
    requires typeAttr[p.cls] in reg && reg[typeAttr[p.cls]] == p.cls
    requires key in attrs && key != Tag && attrs[key] == JObj(map[])
    requires forall k :: k in attrs && k != key ==> ObjectFree(attrs[k])
    ensures var d := LegacyDecode(LegacyDefault(p, attrs, typeAttr).value, reg);
            && d.Success? && d.value.PyObject? && d.value.cls == p.cls
            && d.value.attrs[key] == PyNone
            && ToJson(d.value.attrs) != Some(attrs)
  {
    var name := typeAttr[p.cls];
    var m := attrs[Tag := JStr(name)];
    UnregisteredBecomesNone(map[], reg);
    forall k | k in m ensures LegacyDecode(m[k], reg).Success? {
      if k != Tag && k != key {
        DecodeObjectFree(m[k], reg);
      }
    }
    assert !exists k :: k in m && LegacyDecode(m[k], reg).Failure?;
    var values := map k | k in m :: LegacyDecode(m[k], reg).value;
    assert values[Tag] == PyStr(name);
    assert values[key] == PyNone;
    var rest := values - {Tag};
    assert LegacyDecode(JObj(m), reg) == Success(PyObject(p.cls, rest));
  }

  /** `deserialize(content, clazz)` in the legacy variant. `parsed` is the
      JSON tree of `content`; text parsing itself is not modelled. */
  ghost function LegacyDeserialize(content: string, parsed: Json, clazz: Option<ClassDesc>,
                             reg: map<string, ClassDesc>): Result<Py, Exception> {
    match clazz
    case None => LegacyDecode(parsed, reg)
    case Some(c) => if c.IsJsonObject() then Construct(c, PyStr(content)) else Success(PyNone)
  }

  /** With a target class the older `deserialize` parses nothing and hands
      the class the raw text: jsonobject's own constructor rejects it, and a
      constructor with one string parameter stores the whole text in that
      member. */
  lemma LegacyTextConstruction(content: string, parsed: Json, c: ClassDesc, reg: map<string, ClassDesc>)
    ensures LegacyDeserialize(content, parsed, None, reg) == LegacyDecode(parsed, reg)
    ensures !c.IsJsonObject() ==> LegacyDeserialize(content, parsed, Some(c), reg) == Success(PyNone)
    ensures c.IsJsonObject() && c.init.MemberInit? ==>
              LegacyDeserialize(content, parsed, Some(c), reg) == Failure(ValueError)
    ensures c.IsJsonObject() && c.init.PositionalInit? && |c.init.members| == 1 ==>
              LegacyDeserialize(content, parsed, Some(c), reg) ==
              Success(PyObject(c, map[c.init.members[0] := PyStr(content)]))
    ensures c.IsJsonObject() && c.init.PositionalInit? && |c.init.members| != 1 ==>
              LegacyDeserialize(content, parsed, Some(c), reg) == Failure(TypeError)
  {
  }
}

=== FILE: legacy_supervisor.dfy ===
/** The older supervisor of client/network/monitor.py: the same thread and
    facade as `Supervisors`, but the heartbeat counter starts at 0 and fires
    on every 10th beat, the map holds only serial monitors (without a
    prediction feed and without a weather monitor), and a registration
    always replaces what is stored under the sensor's name. */
module LegacySupervisors {
  import opened Wrappers
  import opened Counters
  import opened Outbox
  import opened SerialMonitors
  import opened Supervisors
  import Messages

  const LegacyThreshold := 10

  /** Every 10th heartbeat runs a pass. */
  lemma LegacyPassSchedule(n: nat)
    requires n >= 1
    ensures FiresOn(0, LegacyThreshold, n) <==> n % 10 == 0
  {
    EveryNth(LegacyThreshold, n);
  }

  /** The older `MonitorThread`. */
  class LegacySupervisor {
    const link: Connection

    var order: seq<string>
    var monitors: map<string, SerialMonitor>
    var count: int
    var alive: bool
    var stopSign: bool
    var stopped: bool

    function Serials(): set<SerialMonitor>
      reads this
    {
      set k | k in monitors :: monitors[k]
    }

    ghost predicate Valid()
      reads this
    {
      && Distinct(order)
      && (forall k :: k in order <==> k in monitors)
      && 0 <= count < LegacyThreshold
    }

    constructor (link: Connection)
      ensures Valid() && this.link == link
      ensures order == [] && monitors == map[]
      ensures count == 0 && !alive && !stopSign && !stopped
    {
      this.link := link;
      order := [];
      monitors := map[];
      count := 0;
      alive := false;
      stopSign := false;
      stopped := false;
    }

    method Launch()
      modifies this
      ensures alive
      ensures order == old(order) && monitors == old(monitors) && count == old(count)
      ensures stopSign == old(stopSign) && stopped == old(stopped)
    {
      alive := true;
    }

    /** One heartbeat: on every 10th the counter resets and the pass is the
        stored names in map order. */
    method Heartbeat() returns (schedule: seq<string>)
      requires Valid()
      modifies this
      ensures Valid()
      ensures count == Next(old(count), LegacyThreshold)
      ensures Fires(old(count), LegacyThreshold) ==> schedule == order
      ensures !Fires(old(count), LegacyThreshold) ==> schedule == []
      ensures order == old(order) && monitors == old(monitors)
      ensures alive == old(alive) && stopSign == old(stopSign) && stopped == old(stopped)
    {
      count := count + 1;
      if count < LegacyThreshold {
        return [];
      }
      count := 0;
      schedule := order;
    }

    /** Closes every stored monitor, then resolves `stopped`. */
    method Teardown()
      requires Valid()
      modifies this, Serials()
      ensures Valid()
      ensures forall m :: m in Serials() ==> !m.online
      ensures forall m :: m in old(Serials()) ==> m.history == old(m.history)
      ensures stopped && !alive
      ensures order == old(order) && monitors == old(monitors) && count == old(count)
      ensures stopSign == old(stopSign)
    {
      var i := 0;
      while i < |order|
        invariant 0 <= i <= |order|
        invariant order == old(order) && monitors == old(monitors) && count == old(count)
        invariant alive == old(alive) && stopSign == old(stopSign) && stopped == old(stopped)
        invariant forall j :: 0 <= j < i ==> !monitors[order[j]].online
        invariant forall m :: m in old(Serials()) ==> m.history == old(m.history)
        decreases |order| - i
      {
        monitors[order[i]].Close();
        i := i + 1;
      }
      forall m | m in Serials() ensures !m.online {
        var k :| k in monitors && monitors[k] == m;
        var j :| 0 <= j < |order| && order[j] == k;
      }
      stopped := true;
      alive := false;
    }

    method Step() returns (schedule: seq<string>)
      requires Valid() && alive
      modifies this, Serials()
      ensures Valid()
      ensures old(stopSign) ==> schedule == [] && stopped && !alive && count == old(count) &&
                                forall m :: m in Serials() ==> !m.online
      ensures !old(stopSign) ==> count == Next(old(count), LegacyThreshold) && alive &&
                                 schedule == (if Fires(old(count), LegacyThreshold) then order else [])
      ensures order == old(order) && monitors == old(monitors)
    {
      if stopSign {
        Teardown();
        return [];
      }
      schedule := Heartbeat();
    }

    method End()
      requires Valid() && alive
      modifies this, Serials()
      ensures Valid()
      ensures stopSign && stopped && !alive
      ensures forall m :: m in Serials() ==> !m.online
      ensures order == old(order) && monitors == old(monitors)
    {
      stopSign := true;
      Teardown();
    }

    /** `__monitor`: KeyError from the constructor for a model without a
        command (nothing stored); otherwise a new monitor, connected or not,
        replaces whatever the name held, keeping the name's place. */
    method Register(sensor: Messages.Sensor, structure: Messages.SensorStructure, connected: bool)
      returns (r: Result<(), Exception>)
      requires Valid()
      modifies this
      ensures Valid()
      ensures count == old(count) && alive == old(alive) && stopSign == old(stopSign) && stopped == old(stopped)
      ensures sensor.model !in Commands ==> r == Failure(KeyError) && order == old(order) && monitors == old(monitors)
      ensures sensor.model in Commands ==>
                && r == Success(())
                && sensor.name in monitors
                && var m := monitors[sensor.name];
                && fresh(m) && m.prediction == null && m.Valid()
                && m.sensor == sensor && m.structure == structure && m.online == connected
                && monitors == old(monitors)[sensor.name := m]
                && order == Insert(old(order), sensor.name)
    {
      if sensor.model !in Commands {
        return Failure(KeyError);
      }
      var m := new SerialMonitor(sensor, structure, null, link);
      m.Connect(connected);
      monitors := monitors[sensor.name := m];
      order := Insert(order, sensor.name);
      r := Success(());
    }

    method Monitor(sensor: Messages.Sensor, structure: Messages.SensorStructure, connected: bool)
      returns (r: Result<(), Exception>)
      requires Valid()
      modifies this
      ensures Valid()
      ensures !old(alive) ==> r == Success(()) && order == old(order) && monitors == old(monitors)
      ensures count == old(count) && alive == old(alive)
      ensures old(alive) && sensor.model !in Commands ==>
                r == Failure(KeyError) && order == old(order) && monitors == old(monitors)
      ensures old(alive) && sensor.model in Commands ==>
                && r == Success(())
                && sensor.name in monitors
                && var m := monitors[sensor.name];
                && fresh(m) && m.prediction == null && m.Valid()
                && m.sensor == sensor && m.structure == structure && m.online == connected
                && monitors == old(monitors)[sensor.name := m]
                && order == Insert(old(order), sensor.name)
    {
      if !alive {
        return Success(());
      }
      r := Register(sensor, structure, connected);
    }

    method Pull(m: SerialMonitor, reconnected: bool, response: Option<seq<Float32s.byte>>, now: int)
      returns (r: Result<Option<seq<Float32s.Float32>>, Exception>)
      requires m.Valid()
      modifies m
      ensures m.Valid()
      ensures !alive ==> r == Success(None) && m.State() == old(m.State())
      ensures alive ==> (m.State(), r) == PullSpec(old(m.State()), m.command, m.structure.keys, reconnected, response, now)
    {
      if !alive {
        return Success(None);
      }
      r := m.Pull(reconnected, response, now);
    }
  }

  datatype LegacyFuture = LegacyResolved | LegacyStoppedOf(thread: LegacySupervisor)

  /** The older `Monitors` singleton. */
  class LegacyMonitors {
    var thread: LegacySupervisor?
    const link: Connection

    constructor (link: Connection)
      ensures thread == null && this.link == link
    {
      thread := null;
      this.link := link;
    }

    function Current(): (r: map<string, SerialMonitor>)
      reads this, thread
      ensures thread == null ==> r == map[]
      ensures thread != null ==> r == thread.monitors
    {
      if thread == null then map[] else thread.monitors
    }

    /** `launch`: nothing with a live thread and no restart; otherwise the
        live thread (if any) is ended first and a new empty one started. */
    method Launch(restart: bool)
      requires thread != null ==> thread.Valid()
      modifies this, thread, if thread != null then thread.Serials() else {}
      ensures thread != null && thread.Valid()
      ensures old(thread) != null && old(thread.alive) && !restart ==> thread == old(thread)
      ensures !(old(thread) != null && old(thread.alive) && !restart) ==>
                fresh(thread) && thread.alive && thread.monitors == map[]
      ensures old(thread) != null && old(thread.alive) && restart ==>
                old(thread).stopped && forall m :: m in old(thread.Serials()) ==> !m.online
    {
      if thread != null && thread.alive {
        if !restart {
          return;
        }
        thread.End();
      }
      thread := new LegacySupervisor(link);
      thread.Launch();
    }

    method Stop() returns (f: LegacyFuture)
      modifies thread
      ensures thread == old(thread)
      ensures thread == null ==> f == LegacyResolved
      ensures thread != null ==> thread.stopSign && f == LegacyStoppedOf(thread) &&
                                 thread.monitors == old(thread.monitors) && thread.order == old(thread.order) &&
                                 thread.alive == old(thread.alive) && thread.stopped == old(thread.stopped) &&
                                 thread.count == old(thread.count)
    {
      if thread == null {
        return LegacyResolved;
      }
      thread.stopSign := true;
      f := LegacyStoppedOf(thread);
    }
  }
}

=== FILE: messages.dfy ===
/** The message catalogue of client/network/serializable: the record types of
    sensor.py and the packets of packet/auth.py, control.py, node.py, pond.py
    and sensor.py, with the JSON members each one travels as. */
module Messages {
  import opened Wrappers
  import opened JsonValues
  import opened Packets
  import opened Float32s
  import Serialize

  // ---------------------------------------------------------------------------
  // Member access
  // ---------------------------------------------------------------------------

  function GetStr(m: map<string, Json>, k: string): Option<string> {
    if k in m && m[k].JStr? then Some(m[k].s) else None
  }

  function GetInt(m: map<string, Json>, k: string): Option<int> {
    if k in m && m[k].JInt? then Some(m[k].i) else None
  }

  function GetBool(m: map<string, Json>, k: string): Option<bool> {
    if k in m && m[k].JBool? then Some(m[k].b) else None
  }

  function GetArr(m: map<string, Json>, k: string): Option<seq<Json>> {
    if k in m && m[k].JArr? then Some(m[k].items) else None
  }

  function GetObj(m: map<string, Json>, k: string): Option<map<string, Json>> {
    if k in m && m[k].JObj? then Some(m[k].members) else None
  }

  function GetAny(m: map<string, Json>, k: string): Option<Json> {
    if k in m then Some(m[k]) else None
  }

  // ---------------------------------------------------------------------------
  // Records (client/network/serializable/sensor.py)
  // ---------------------------------------------------------------------------

  /** A sensor. Its `id` travels under the member `_id`, its `model` under
      `type`; `fields` holds the active-field flags. Date-times are seconds. */
  datatype Sensor = Sensor(id: string, nodeId: string, name: string, port: string, model: string,
                           fields: map<string, bool>, activated: bool, modified: int, created: int)

  /** One measurable field of a sensor model. */
  datatype SensorField = SensorField(key: string, name: string, unit: string)

  /** The fields a sensor model reports. `keys` is the declaration order of
      `fields` (the order in which readings are paired with keys). */
  datatype SensorStructure = SensorStructure(model: string, keys: seq<string>, fields: map<string, SensorField>)
  {
    ghost predicate Valid() {
      && (forall k :: k in fields <==> k in keys)
      && (forall i, j :: 0 <= i < j < |keys| ==> keys[i] != keys[j])
    }
  }

  /** One report of a sensor's readings, as built by the renaming constructor
      of `SensorReport`: `node_id`, `sensor_id` and `model` become the members
      `nodeId`, `sensorId` and `type`. */
  datatype SensorReport = SensorReport(nodeId: string, sensorId: string, model: string,
                                       fields: map<string, Float32>, timestamp: int)

  function BoolsJson(f: map<string, bool>): Json {
    JObj(map k | k in f :: JBool(f[k]))
  }

  function ParseBools(j: Json): Option<map<string, bool>> {
    if j.JObj? && forall k :: k in j.members ==> j.members[k].JBool? then
      Some(map k | k in j.members :: j.members[k].b)
    else None
  }

  lemma BoolsRoundTrip(f: map<string, bool>)
    ensures ParseBools(BoolsJson(f)) == Some(f)
  {
    var m := BoolsJson(f).members;
    var g := ParseBools(BoolsJson(f));
    assert g.Some?;
    assert g.value.Keys == f.Keys;
    assert forall k :: k in f ==> g.value[k] == f[k];
    assert g.value == f;
  }

  function SensorJson(s: Sensor): Json {
    JObj(map["_id" := JStr(s.id), "nodeId" := JStr(s.nodeId), "name" := JStr(s.name),
             "port" := JStr(s.port), "type" := JStr(s.model), "fields" := BoolsJson(s.fields),
             "activated" := JBool(s.activated), "modified" := JInt(s.modified),
             "created" := JInt(s.created)])
  }

  function ParseSensor(j: Json): Option<Sensor> {
    if !j.JObj? then None
    else
      var m := j.members;
      var id :- GetStr(m, "_id");
      var nodeId :- GetStr(m, "nodeId");
      var name :- GetStr(m, "name");
      var port :- GetStr(m, "port");
      var model :- GetStr(m, "type");
      var fieldsJson :- GetAny(m, "fields");
      var fields :- ParseBools(fieldsJson);
      var activated :- GetBool(m, "activated");
      var modified :- GetInt(m, "modified");
      var created :- GetInt(m, "created");
      Some(Sensor(id, nodeId, name, port, model, fields, activated, modified, created))
  }

  /** A sensor is read back from its JSON form, `_id` and `type` included. */
  lemma SensorRoundTrip(s: Sensor)
    ensures ParseSensor(SensorJson(s)) == Some(s)
  {
    BoolsRoundTrip(s.fields);
  }

  function SensorsJson(ss: seq<Sensor>): seq<Json> {
    if ss == [] then [] else [SensorJson(ss[0])] + SensorsJson(ss[1..])
  }

  function ParseSensors(items: seq<Json>): Option<seq<Sensor>> {
    if items == [] then Some([])
    else
      var s :- ParseSensor(items[0]);
      var rest :- ParseSensors(items[1..]);
      Some([s] + rest)
  }

  lemma {:induction false} SensorsRoundTrip(ss: seq<Sensor>)
    ensures ParseSensors(SensorsJson(ss)) == Some(ss)
  {
    if ss != [] {
      SensorRoundTrip(ss[0]);
      SensorsRoundTrip(ss[1..]);
      assert SensorsJson(ss)[1..] == SensorsJson(ss[1..]);
      assert [ss[0]] + ss[1..] == ss;
    }
  }

  function StrsJson(xs: seq<string>): seq<Json> {
    if xs == [] then [] else [JStr(xs[0])] + StrsJson(xs[1..])
  }

  function ParseStrs(items: seq<Json>): Option<seq<string>> {
    if items == [] then Some([])
    else if !items[0].JStr? then None
    else
      var rest :- ParseStrs(items[1..]);
      Some([items[0].s] + rest)
  }

  lemma {:induction false} StrsRoundTrip(xs: seq<string>)
    ensures ParseStrs(StrsJson(xs)) == Some(xs)
  {
    if xs != [] {
      StrsRoundTrip(xs[1..]);
      assert StrsJson(xs)[1..] == StrsJson(xs[1..]);
      assert [xs[0]] + xs[1..] == xs;
    }
  }

  // ---------------------------------------------------------------------------
  // Packets
  // ---------------------------------------------------------------------------

  /** Every packet of the catalogue with its declared fields. Ponds, nodes and
      sensor structures inside packets are kept as the JSON they arrive as. */
  datatype Message =
      // auth.py
    | RequestNodeRegistration
    | NodeRegistration(signature: string)
    | RequestProfile(nodeId: string, signature: string)
    | Profile(username: string, pond: Json, node: Json, sensors: seq<Sensor>, structures: seq<Json>)
      // control.py
    | Failure(code: int)
    | Operation(operationId: int, packet: map<string, Json>)
      // node.py
    | RequestNodeList(pondId: string)
    | NodeList(pondId: string, nodes: seq<Json>)
    | NodeCreation(pondId: string, name: string, signature: string)
      // pond.py: the receipt declares no field, so every member it arrives
      // with is kept as a dynamic attribute
    | PondList(ponds: seq<Json>)
    | PondCreation(name: string)
    | PondCreationReceipt(members: map<string, Json>)
      // packet/sensor.py
    | RequestSensorTypeList
    | SensorTypeList(types: seq<string>)
    | SensorCreation(name: string, port: string, model: string)
    | SensorCreationReceipt(sensor: Sensor, structure: Json)

  const RequestNodeRegistrationClass := ClassDesc(0, "RequestNodeRegistration", IncomingPacket, NoSerialName, MemberInit)
  const NodeRegistrationClass := ClassDesc(1, "NodeRegistration", OutgoingPacket, NoSerialName, PositionalInit(["signature"]))
  const RequestProfileClass := ClassDesc(2, "RequestProfile", OutgoingPacket, NoSerialName, PositionalInit(["nodeId", "signature"]))
  const ProfileClass := ClassDesc(3, "Profile", IncomingPacket, NoSerialName, MemberInit)
  const FailureClass := ClassDesc(4, "Failure", IncomingPacket, NoSerialName, MemberInit)
  const OperationName := "cn.edu.bistu.smartpond.packet.Operation"
  const OperationClass := ClassDesc(5, "Operation", IncomingPacket, SerialName(Some(OperationName)), MemberInit)
  const RequestNodeListClass := ClassDesc(6, "RequestNodeList", OutgoingPacket, NoSerialName, PositionalInit(["pondId"]))
  const NodeListClass := ClassDesc(7, "NodeList", IncomingPacket, NoSerialName, MemberInit)
  const NodeCreationClass := ClassDesc(8, "NodeCreation", OutgoingPacket, NoSerialName, PositionalInit(["pondId", "name", "signature"]))
  const PondListClass := ClassDesc(9, "PondList", IncomingPacket, NoSerialName, MemberInit)
  const PondCreationClass := ClassDesc(10, "PondCreation", OutgoingPacket, NoSerialName, PositionalInit(["name"]))
  const PondCreationReceiptClass := ClassDesc(11, "PondCreationReceipt", IncomingPacket, NoSerialName, MemberInit)
  const RequestSensorTypeListClass := ClassDesc(12, "RequestSensorTypeList", OutgoingPacket, NoSerialName, MemberInit)
  const SensorTypeListClass := ClassDesc(13, "SensorTypeList", IncomingPacket, NoSerialName, MemberInit)
  const SensorCreationClass := ClassDesc(14, "SensorCreation", OutgoingPacket, NoSerialName, PositionalInit(["name", "port", "type"]))
  const SensorCreationReceiptClass := ClassDesc(15, "SensorCreationReceipt", IncomingPacket, NoSerialName, MemberInit)

  /** The classes in the order their modules register them. */
  const Catalogue: seq<ClassDesc> := [
    RequestNodeRegistrationClass, NodeRegistrationClass, RequestProfileClass, ProfileClass,
    FailureClass, OperationClass,
    RequestNodeListClass, NodeListClass, NodeCreationClass,
    PondListClass, PondCreationClass, PondCreationReceiptClass,
    RequestSensorTypeListClass, SensorTypeListClass, SensorCreationClass, SensorCreationReceiptClass
  ]

  function ClassOf(m: Message): (c: ClassDesc)
    ensures c in Catalogue
  {
    match m
    case RequestNodeRegistration => RequestNodeRegistrationClass
    case NodeRegistration(_) => NodeRegistrationClass
    case RequestProfile(_, _) => RequestProfileClass
    case Profile(_, _, _, _, _) => ProfileClass
    case Failure(_) => FailureClass
    case Operation(_, _) => OperationClass
    case RequestNodeList(_) => RequestNodeListClass
    case NodeList(_, _) => NodeListClass
    case NodeCreation(_, _, _) => NodeCreationClass
    case PondList(_) => PondListClass
    case PondCreation(_) => PondCreationClass
    case PondCreationReceipt(_) => PondCreationReceiptClass
    case RequestSensorTypeList => RequestSensorTypeListClass
    case SensorTypeList(_) => SensorTypeListClass
    case SensorCreation(_, _, _) => SensorCreationClass
    case SensorCreationReceipt(_, _) => SensorCreationReceiptClass
  }

  predicate IsIncoming(m: Message) {
    ClassOf(m).kind.IncomingPacket?
  }

  /** The incoming packets, constructor by constructor. */
  lemma IncomingConstructors(m: Message)
    ensures IsIncoming(m) <==>
              m.RequestNodeRegistration? || m.Profile? || m.Failure? || m.Operation? || m.NodeList? ||
              m.PondList? || m.PondCreationReceipt? || m.SensorTypeList? || m.SensorCreationReceipt?
  {
    match m {
      case RequestNodeRegistration =>
      case NodeRegistration(_) =>
      case RequestProfile(_, _) =>
      case Profile(_, _, _, _, _) =>
      case Failure(_) =>
      case Operation(_, _) =>
      case RequestNodeList(_) =>
      case NodeList(_, _) =>
      case NodeCreation(_, _, _) =>
      case PondList(_) =>
      case PondCreation(_) =>
      case PondCreationReceipt(_) =>
      case RequestSensorTypeList =>
      case SensorTypeList(_) =>
      case SensorCreation(_, _, _) =>
      case SensorCreationReceipt(_, _) =>
    }
  }

  /** Every incoming class takes jsonobject's member dict; exactly six
      outgoing classes bring a positional constructor of their own, whose
      parameters are the members the packet travels with. */
  lemma CatalogueConstructors(m: Message)
    ensures IsIncoming(m) ==> ClassOf(m).init.MemberInit?
    ensures ClassOf(m).init.PositionalInit? <==>
              m.NodeRegistration? || m.RequestProfile? || m.RequestNodeList? || m.NodeCreation? ||
              m.PondCreation? || m.SensorCreation?
    ensures ClassOf(m).init.PositionalInit? ==>
              forall k :: k in Fields(m) <==> k in ClassOf(m).init.members
  {
    match m {
      case RequestNodeRegistration =>
      case NodeRegistration(_) =>
      case RequestProfile(_, _) =>
      case Profile(_, _, _, _, _) =>
      case Failure(_) =>
      case Operation(_, _) =>
      case RequestNodeList(_) =>
      case NodeList(_, _) =>
      case NodeCreation(_, _, _) =>
      case PondList(_) =>
      case PondCreation(_) =>
      case PondCreationReceipt(_) =>
      case RequestSensorTypeList =>
      case SensorTypeList(_) =>
      case SensorCreation(_, _, _) =>
      case SensorCreationReceipt(_, _) =>
    }
  }

  /** The members a packet travels with (its `to_json()`). */
  function Fields(m: Message): map<string, Json> {
    match m
    case RequestNodeRegistration => map[]
    case NodeRegistration(signature) => map["signature" := JStr(signature)]
    case RequestProfile(nodeId, signature) => map["nodeId" := JStr(nodeId), "signature" := JStr(signature)]
    case Profile(username, pond, node, sensors, structures) =>
      map["username" := JStr(username), "pond" := pond, "node" := node,
          "sensors" := JArr(SensorsJson(sensors)), "structures" := JArr(structures)]
    case Failure(code) => map["code" := JInt(code)]
    case Operation(operationId, packet) => map["operationId" := JInt(operationId), "packet" := JObj(packet)]
    case RequestNodeList(pondId) => map["pondId" := JStr(pondId)]
    case NodeList(pondId, nodes) => map["pondId" := JStr(pondId), "nodes" := JArr(nodes)]
    case NodeCreation(pondId, name, signature) =>
      map["pondId" := JStr(pondId), "name" := JStr(name), "signature" := JStr(signature)]
    case PondList(ponds) => map["ponds" := JArr(ponds)]
    case PondCreation(name) => map["name" := JStr(name)]
    case PondCreationReceipt(members) => members
    case RequestSensorTypeList => map[]
    case SensorTypeList(types) => map["types" := JArr(StrsJson(types))]
    case SensorCreation(name, port, model) => map["name" := JStr(name), "port" := JStr(port), "type" := JStr(model)]
    case SensorCreationReceipt(sensor, structure) => map["sensor" := SensorJson(sensor), "structure" := structure]
  }

  /** The `Profile` branch of `Parse`. */
  function ParseProfile(f: map<string, Json>): (r: Option<Message>)
    ensures r.Some? ==> r.value.Profile?
  {
    var username :- GetStr(f, "username");
    var pond :- GetAny(f, "pond");
    var node :- GetAny(f, "node");
    var sensorsJson :- GetArr(f, "sensors");
    var sensors :- ParseSensors(sensorsJson);
    var structures :- GetArr(f, "structures");
    Some(Profile(username, pond, node, sensors, structures))
  }

  /** Builds the packet of class `c` from the members it was decoded with.
      Members a class does not declare are ignored; a missing or mistyped
      declared member gives `None`. */
  function Parse(c: ClassDesc, f: map<string, Json>): Option<Message> {
    if c == RequestNodeRegistrationClass then Some(RequestNodeRegistration)
    else if c == NodeRegistrationClass then
      var signature :- GetStr(f, "signature");
      Some(NodeRegistration(signature))
    else if c == RequestProfileClass then
      var nodeId :- GetStr(f, "nodeId");
      var signature :- GetStr(f, "signature");
      Some(RequestProfile(nodeId, signature))
    else if c == ProfileClass then ParseProfile(f)
    else if c == FailureClass then
      var code :- GetInt(f, "code");
      Some(Message.Failure(code))
    else if c == OperationClass then
      var operationId :- GetInt(f, "operationId");
      var packet :- GetObj(f, "packet");
      Some(Operation(operationId, packet))
    else if c == RequestNodeListClass then
      var pondId :- GetStr(f, "pondId");
      Some(RequestNodeList(pondId))
    else if c == NodeListClass then
      var pondId :- GetStr(f, "pondId");
      var nodes :- GetArr(f, "nodes");
      Some(NodeList(pondId, nodes))
    else if c == NodeCreationClass then
      var pondId :- GetStr(f, "pondId");
      var name :- GetStr(f, "name");
      var signature :- GetStr(f, "signature");
      Some(NodeCreation(pondId, name, signature))
    else if c == PondListClass then
      var ponds :- GetArr(f, "ponds");
      Some(PondList(ponds))
    else if c == PondCreationClass then
      var name :- GetStr(f, "name");
      Some(PondCreation(name))
    else if c == PondCreationReceiptClass then Some(PondCreationReceipt(f))
    else if c == RequestSensorTypeListClass then Some(RequestSensorTypeList)
    else if c == SensorTypeListClass then
      var typesJson :- GetArr(f, "types");
      var types :- ParseStrs(typesJson);
      Some(SensorTypeList(types))
    else if c == SensorCreationClass then
      var name :- GetStr(f, "name");
      var port :- GetStr(f, "port");
      var model :- GetStr(f, "type");
      Some(SensorCreation(name, port, model))
    else if c == SensorCreationReceiptClass then
      var sensorJson :- GetAny(f, "sensor");
      var sensor :- ParseSensor(sensorJson);
      var structure :- GetAny(f, "structure");
      Some(SensorCreationReceipt(sensor, structure))
    else None
  }

  /** A packet built for class `c` is of class `c`. */
  lemma ParseKeepsClass(c: ClassDesc, f: map<string, Json>)
    requires Parse(c, f).Some?
    ensures ClassOf(Parse(c, f).value) == c
  {
    if c == RequestNodeRegistrationClass {
      assert Parse(c, f).value.RequestNodeRegistration?;
    } else if c == NodeRegistrationClass {
      assert Parse(c, f).value.NodeRegistration?;
    } else if c == RequestProfileClass {
      assert Parse(c, f).value.RequestProfile?;
    } else if c == ProfileClass {
      assert Parse(c, f).value.Profile?;
    } else if c == FailureClass {
      assert Parse(c, f).value.Failure?;
    } else if c == OperationClass {
      assert Parse(c, f).value.Operation?;
    } else if c == RequestNodeListClass {
      assert Parse(c, f).value.RequestNodeList?;
    } else if c == NodeListClass {
      assert Parse(c, f).value.NodeList?;
    } else if c == NodeCreationClass {
      assert Parse(c, f).value.NodeCreation?;
    } else if c == PondListClass {
      assert Parse(c, f).value.PondList?;
    } else if c == PondCreationClass {
      assert Parse(c, f).value.PondCreation?;
    } else if c == PondCreationReceiptClass {
      assert Parse(c, f).value.PondCreationReceipt?;
    } else if c == RequestSensorTypeListClass {
      assert Parse(c, f).value.RequestSensorTypeList?;
    } else if c == SensorTypeListClass {
      assert Parse(c, f).value.SensorTypeList?;
    } else if c == SensorCreationClass {
      assert Parse(c, f).value.SensorCreation?;
    } else if c == SensorCreationReceiptClass {
      assert Parse(c, f).value.SensorCreationReceipt?;
    }
  }

  /** An `Operation` is built from an object `packet` member, which it
      keeps as it is. */
  lemma ParseOperationPacket(f: map<string, Json>)
    requires Parse(OperationClass, f).Some?
    ensures Parse(OperationClass, f).value.Operation?
    ensures "packet" in f && f["packet"] == JObj(Parse(OperationClass, f).value.packet)
  {
  }

  lemma ParseRequestNodeRegistrationFields(m: Message)
    requires m.RequestNodeRegistration?
    ensures Parse(ClassOf(m), Fields(m)) == Some(m)
  {
  }

  lemma ParseNodeRegistrationFields(m: Message)
    requires m.NodeRegistration?
    ensures Parse(ClassOf(m), Fields(m)) == Some(m)
  {
  }

  lemma ParseRequestProfileFields(m: Message)
    requires m.RequestProfile?
    ensures Parse(ClassOf(m), Fields(m)) == Some(m)
  {
  }

  lemma ParseProfileFields(m: Message)
    requires m.Profile?
    ensures Parse(ClassOf(m), Fields(m)) == Some(m)
  {
    var f := Fields(m);
    assert GetStr(f, "username") == Some(m.username);
    assert GetAny(f, "pond") == Some(m.pond);
    assert GetAny(f, "node") == Some(m.node);
    assert GetArr(f, "sensors") == Some(SensorsJson(m.sensors));
    SensorsRoundTrip(m.sensors);
    assert GetArr(f, "structures") == Some(m.structures);
    assert ParseProfile(f) == Some(m);
  }

  lemma ParseFailureFields(m: Message)
    requires m.Failure?
    ensures Parse(ClassOf(m), Fields(m)) == Some(m)
  {
  }

  lemma ParseOperationFields(m: Message)
    requires m.Operation?
    ensures Parse(ClassOf(m), Fields(m)) == Some(m)
  {
    var f := Fields(m);
    assert GetInt(f, "operationId") == Some(m.operationId);
    assert GetObj(f, "packet") == Some(m.packet);
  }

  lemma ParseRequestNodeListFields(m: Message)
    requires m.RequestNodeList?
    ensures Parse(ClassOf(m), Fields(m)) == Some(m)
  {
  }

  lemma ParseNodeListFields(m: Message)
    requires m.NodeList?
    ensures Parse(ClassOf(m), Fields(m)) == Some(m)
  {
    var f := Fields(m);
    assert GetStr(f, "pondId") == Some(m.pondId);
    assert GetArr(f, "nodes") == Some(m.nodes);
  }

  lemma ParseNodeCreationFields(m: Message)
    requires m.NodeCreation?
    ensures Parse(ClassOf(m), Fields(m)) == Some(m)
  {
    var f := Fields(m);
    assert GetStr(f, "pondId") == Some(m.pondId);
    assert GetStr(f, "name") == Some(m.name);
    assert GetStr(f, "signature") == Some(m.signature);
  }

  lemma ParsePondListFields(m: Message)
    requires m.PondList?
    ensures Parse(ClassOf(m), Fields(m)) == Some(m)
  {
    var f := Fields(m);
    assert GetArr(f, "ponds") == Some(m.ponds);
  }

  lemma ParsePondCreationFields(m: Message)
    requires m.PondCreation?
    ensures Parse(ClassOf(m), Fields(m)) == Some(m)
  {
  }

  lemma ParsePondCreationReceiptFields(m: Message)
    requires m.PondCreationReceipt?
    ensures Parse(ClassOf(m), Fields(m)) == Some(m)
  {
  }

  lemma ParseRequestSensorTypeListFields(m: Message)
    requires m.RequestSensorTypeList?
    ensures Parse(ClassOf(m), Fields(m)) == Some(m)
  {
  }

  lemma ParseSensorTypeListFields(m: Message)
    requires m.SensorTypeList?
    ensures Parse(ClassOf(m), Fields(m)) == Some(m)
  {
    StrsRoundTrip(m.types);
  }

  lemma ParseSensorCreationFields(m: Message)
    requires m.SensorCreation?
    ensures Parse(ClassOf(m), Fields(m)) == Some(m)
  {
  }

  lemma ParseSensorCreationReceiptFields(m: Message)
    requires m.SensorCreationReceipt?
    ensures Parse(ClassOf(m), Fields(m)) == Some(m)
  {
    var f := Fields(m);
    assert GetAny(f, "sensor") == Some(SensorJson(m.sensor));
    SensorRoundTrip(m.sensor);
    assert GetAny(f, "structure") == Some(m.structure);
  }

  /** Every packet is rebuilt from its own members by its own class. */
  lemma ParseFields(m: Message)
    ensures Parse(ClassOf(m), Fields(m)) == Some(m)
  {
    if m.RequestNodeRegistration? {
      ParseRequestNodeRegistrationFields(m);
    } else if m.NodeRegistration? {
      ParseNodeRegistrationFields(m);
    } else if m.RequestProfile? {
      ParseRequestProfileFields(m);
    } else if m.Profile? {
      ParseProfileFields(m);
    } else if m.Failure? {
      ParseFailureFields(m);
    } else if m.Operation? {
      ParseOperationFields(m);
    } else if m.RequestNodeList? {
      ParseRequestNodeListFields(m);
    } else if m.NodeList? {
      ParseNodeListFields(m);
    } else if m.NodeCreation? {
      ParseNodeCreationFields(m);
    } else if m.PondList? {
      ParsePondListFields(m);
    } else if m.PondCreation? {
      ParsePondCreationFields(m);
    } else if m.PondCreationReceipt? {
      ParsePondCreationReceiptFields(m);
    } else if m.RequestSensorTypeList? {
      ParseRequestSensorTypeListFields(m);
    } else if m.SensorTypeList? {
      ParseSensorTypeListFields(m);
    } else if m.SensorCreation? {
      ParseSensorCreationFields(m);
    } else {
      ParseSensorCreationReceiptFields(m);
    }
  }

  /** `RequestNodeList(pond_id)` and `NodeCreation(pond_id, name, signature)`
      carry exactly the members named. */
  lemma NodeMembers(pondId: string, name: string, signature: string)
    ensures Fields(RequestNodeList(pondId)).Keys == {"pondId"}
    ensures Fields(NodeCreation(pondId, name, signature)).Keys == {"pondId", "name", "signature"}
    ensures Fields(NodeCreation(pondId, name, signature))["pondId"] == JStr(pondId)
  {
  }

  /** `SensorCreation(name, port, model)` sends the model as `type`;
      `PondCreation(name)` and `RequestSensorTypeList()` carry the name and
      nothing respectively. */
  lemma CreationMembers(name: string, port: string, model: string)
    ensures Fields(SensorCreation(name, port, model)).Keys == {"name", "port", "type"}
    ensures Fields(SensorCreation(name, port, model))["type"] == JStr(model)
    ensures Fields(PondCreation(name)).Keys == {"name"}
    ensures Fields(RequestSensorTypeList).Keys == {}
  {
  }

  /** `RequestProfile(node_id, signature)` and `NodeRegistration(signature)`
      carry exactly the members named. */
  lemma AuthMembers(nodeId: string, signature: string)
    ensures Fields(RequestProfile(nodeId, signature)).Keys == {"nodeId", "signature"}
    ensures Fields(RequestProfile(nodeId, signature))["nodeId"] == JStr(nodeId)
    ensures Fields(NodeRegistration(signature)).Keys == {"signature"}
  {
  }

  // ---------------------------------------------------------------------------
  // Wire names of the catalogue
  // ---------------------------------------------------------------------------

  /** Incoming packets get the `Out` marker, outgoing ones `In`; `Operation`
      has its explicit name, with no direction marker. */
  lemma CatalogueWireNames(c: ClassDesc)
    requires c in Catalogue
    ensures Serialize.WireName(c).Success?
    ensures c != OperationClass ==>
              Serialize.WireName(c).value ==
                Serialize.Namespace + (if c.kind.IncomingPacket? then "Out" else "In") + c.name
    ensures c == OperationClass ==> Serialize.WireName(c).value == OperationName
    ensures c != OperationClass ==> c.serialName.NoSerialName?
  {
  }

  lemma CatalogueClassesDiffer(i: int, j: int)
    requires 0 <= i < |Catalogue| && 0 <= j < |Catalogue| && i != j
    ensures Catalogue[i].name != Catalogue[j].name || Catalogue[i].kind != Catalogue[j].kind
  {
  }

  /** A derived name starts with `...packet.Packet`, so it is never the
      explicit name of `Operation`, which continues `...packet.Operation`. */
  lemma OperationNameNotDerived(c: ClassDesc)
    requires c.serialName.NoSerialName? && Serialize.WireName(c).Success?
    ensures Serialize.WireName(c).value != OperationName
  {
    var n := Serialize.WireName(c).value;
    assert n[..|Serialize.Namespace|] == Serialize.Namespace;
    assert Serialize.Namespace[30] == 'P';
    assert OperationName[30] == 'O';
  }

  /** Catalogue classes that differ in name or direction have different
      wire names. */
  lemma WireNamesDiffer(ci: ClassDesc, cj: ClassDesc)
    requires ci in Catalogue && cj in Catalogue
    requires ci.name != cj.name || ci.kind != cj.kind
    ensures Serialize.WireName(ci) != Serialize.WireName(cj)
  {
    CatalogueWireNames(ci);
    CatalogueWireNames(cj);
    if ci == OperationClass {
      OperationNameNotDerived(cj);
    } else if cj == OperationClass {
      OperationNameNotDerived(ci);
    } else if Serialize.WireName(ci) == Serialize.WireName(cj) {
      Serialize.DerivedNamesInjective(ci, cj);
      assert false;
    }
  }

  /** No two classes of the catalogue share a wire name. */
  lemma CatalogueNamesDistinct(i: int, j: int)
    requires 0 <= i < |Catalogue| && 0 <= j < |Catalogue| && i != j
    ensures Serialize.WireName(Catalogue[i]) != Serialize.WireName(Catalogue[j])
  {
    CatalogueClassesDiffer(i, j);
    WireNamesDiffer(Catalogue[i], Catalogue[j]);
  }

  /** `c` is registered under its wire name, and its `type` attribute is
      that name. */
  predicate RegisteredIn(registered: map<string, ClassDesc>, typeAttr: map<ClassDesc, string>, c: ClassDesc) {
    && Serialize.WireName(c).Success?
    && Serialize.WireName(c).value in registered
    && registered[Serialize.WireName(c).value] == c
    && c in typeAttr && typeAttr[c] == Serialize.WireName(c).value
  }

  /** The wire round trip of a catalogue packet whose members carry no
      tags: a class taking the member dict, as every incoming class does,
      decodes its envelope and reads the members back as the same packet;
      a class with a positional constructor of its own raises instead. */
  lemma CatalogueRoundTrip(m: Message, reg: map<string, ClassDesc>, typeAttr: map<ClassDesc, string>)
    requires RegisteredIn(reg, typeAttr, ClassOf(m))
    requires Serialize.TagFree(JObj(Fields(m)))
    ensures Serialize.Serialize(Instance(ClassOf(m), Fields(m)), typeAttr).Success?
    ensures var d := Serialize.Decode(Serialize.Serialize(Instance(ClassOf(m), Fields(m)), typeAttr).value, reg);
            ClassOf(m).init.MemberInit? ==>
              && d.Success? && d.value.PyObject? && d.value.cls == ClassOf(m)
              && Serialize.ToJson(d.value.attrs).Some?
              && Parse(d.value.cls, Serialize.ToJson(d.value.attrs).value) == Some(m)
    ensures ClassOf(m).init.PositionalInit? ==>
              Serialize.Decode(Serialize.Serialize(Instance(ClassOf(m), Fields(m)), typeAttr).value, reg) ==
              Wrappers.Failure(Serialize.PositionalError(ClassOf(m)))
  {
    Serialize.RoundTrip(Instance(ClassOf(m), Fields(m)), reg, typeAttr);
    ParseFields(m);
  }

  ghost predicate RegisteredAs(reg: Serialize.Registry, c: ClassDesc)
    reads reg
  {
    RegisteredIn(reg.registered, reg.typeAttr, c)
  }

  /** Registering a class under another name leaves a registration intact. */
  lemma RegistrationKept(registered: map<string, ClassDesc>, typeAttr: map<ClassDesc, string>, d: ClassDesc, c: ClassDesc)
    requires RegisteredIn(registered, typeAttr, d)
    requires Serialize.WireName(c).Success? && Serialize.WireName(c) != Serialize.WireName(d)
    ensures RegisteredIn(registered[Serialize.WireName(c).value := c], typeAttr[c := Serialize.WireName(c).value], d)
  {
  }

  /** No class of the catalogue claims the name `n`. */
  predicate Unclaimed(n: string) {
    forall c :: c in Catalogue ==> Serialize.WireName(c) != Success(n)
  }

  /** The wire name of a catalogue class is claimed. */
  lemma ClaimedName(i: int)
    requires 0 <= i < |Catalogue| && Serialize.WireName(Catalogue[i]).Success?
    ensures forall n :: Unclaimed(n) ==> n != Serialize.WireName(Catalogue[i]).value
  {
    assert Catalogue[i] in Catalogue;
  }

  /** The classes before position `i` have wire names other than its own. */
  lemma EarlierNamesDiffer(i: int)
    requires 0 <= i < |Catalogue|
    ensures forall j :: 0 <= j < i ==> Serialize.WireName(Catalogue[j]) != Serialize.WireName(Catalogue[i])
  {
    forall j | 0 <= j < i ensures Serialize.WireName(Catalogue[j]) != Serialize.WireName(Catalogue[i]) {
      CatalogueNamesDistinct(j, i);
    }
  }

  /** The tables after registering the `i`-th class. */
  lemma RegisterStep(registered: map<string, ClassDesc>, typeAttr: map<ClassDesc, string>, i: int)
    requires 0 <= i < |Catalogue| && Serialize.WireName(Catalogue[i]).Success?
    requires forall j :: 0 <= j < i ==> RegisteredIn(registered, typeAttr, Catalogue[j])
    ensures var c := Catalogue[i];
            var n := Serialize.WireName(c).value;
            && (forall j :: 0 <= j <= i ==> RegisteredIn(registered[n := c], typeAttr[c := n], Catalogue[j]))
            && (forall n' :: n' in registered && Unclaimed(n') ==> n' in registered[n := c] && registered[n := c][n'] == registered[n'])
  {
    var c := Catalogue[i];
    EarlierNamesDiffer(i);
    forall j | 0 <= j < i
      ensures RegisteredIn(registered[Serialize.WireName(c).value := c], typeAttr[c := Serialize.WireName(c).value], Catalogue[j])
    {
      RegistrationKept(registered, typeAttr, Catalogue[j], c);
    }
    ClaimedName(i);
  }

  /** The decorator on the `i`-th class: it joins the classes before it,
      and names no class claims keep their classes. */
  method RegisterNext(reg: Serialize.Registry, i: int)
    requires reg.Valid() && 0 <= i < |Catalogue|
    requires forall j :: 0 <= j < i ==> RegisteredAs(reg, Catalogue[j])
    modifies reg
    ensures reg.Valid()
    ensures forall j :: 0 <= j <= i ==> RegisteredAs(reg, Catalogue[j])
    ensures forall n :: n in old(reg.registered) && Unclaimed(n) ==>
              n in reg.registered && reg.registered[n] == old(reg.registered)[n]
  {
    CatalogueWireNames(Catalogue[i]);
    RegisterStep(reg.registered, reg.typeAttr, i);
    var r := reg.Serializable(Catalogue[i]);
  }

  /** Importing the catalogue runs the decorator on each class in order;
      afterwards every class is registered under its own wire name, and
      names outside the catalogue keep their classes. */
  method RegisterCatalogue(reg: Serialize.Registry)
    requires reg.Valid()
    modifies reg
    ensures reg.Valid()
    ensures forall c :: c in Catalogue ==> RegisteredAs(reg, c)
    ensures forall n :: n in old(reg.registered) && Unclaimed(n) ==>
              n in reg.registered && reg.registered[n] == old(reg.registered)[n]
  {
    var i := 0;
    while i < |Catalogue|
      invariant 0 <= i <= |Catalogue|
      invariant reg.Valid()
      invariant forall j :: 0 <= j < i ==> RegisteredAs(reg, Catalogue[j])
      invariant forall n :: n in old(reg.registered) && Unclaimed(n) ==>
                  n in reg.registered && reg.registered[n] == old(reg.registered)[n]
    {
      RegisterNext(reg, i);
      i := i + 1;
    }
    forall c | c in Catalogue ensures RegisteredAs(reg, c) {
      var j :| 0 <= j < |Catalogue| && Catalogue[j] == c;
    }
  }
}

=== FILE: ordered.dfy ===
/** Least and greatest elements of finite sets of integers, the ascending
    enumeration of such a set, and the loops that compute them. Python's
    `max(d.keys())` and `sorted(d)` over integer keys (timestamps) are
    modelled with these. */
module Ordered {

  predicate IsMin(m: int, s: set<int>) {
    m in s && forall x :: x in s ==> m <= x
  }

  predicate IsMax(m: int, s: set<int>) {
    m in s && forall x :: x in s ==> x <= m
  }

  predicate Increasing(xs: seq<int>) {
    forall i, j :: 0 <= i < j < |xs| ==> xs[i] < xs[j]
  }

  /** A non-empty set has an element (stated for the such-that statements below). */
  lemma Inhabited(s: set<int>)
    requires s != {}
    ensures exists x :: x in s
  {
    if forall x :: x !in s {
      assert false;
    }
  }

  /** The same for a non-empty set of names. */
  lemma InhabitedNames(s: set<string>)
    requires s != {}
    ensures exists x :: x in s
  {
    if forall x :: x !in s {
      assert false;
    }
  }

  lemma {:induction false} MinExists(s: set<int>)
    requires s != {}
    ensures exists m :: IsMin(m, s)
  {
    Inhabited(s);
    var x :| x in s;
    if s != {x} {
      MinExists(s - {x});
      var m :| IsMin(m, s - {x});
      var r := if x < m then x else m;
      forall y | y in s ensures r <= y {
        if y != x {
          assert y in s - {x};
        }
      }
      assert IsMin(r, s);
    } else {
      forall y | y in s ensures x <= y {
        assert y in {x};
      }
      assert IsMin(x, s);
    }
  }

  lemma {:induction false} MaxExists(s: set<int>)
    requires s != {}
    ensures exists m :: IsMax(m, s)
  {
    Inhabited(s);
    var x :| x in s;
    if s != {x} {
      MaxExists(s - {x});
      var m :| IsMax(m, s - {x});
      var r := if m < x then x else m;
      forall y | y in s ensures y <= r {
        if y != x {
          assert y in s - {x};
        }
      }
      assert IsMax(r, s);
    } else {
      forall y | y in s ensures y <= x {
        assert y in {x};
      }
      assert IsMax(x, s);
    }
  }

  /** The least element of a non-empty set. */
  ghost function Min(s: set<int>): (m: int)
    requires s != {}
    ensures IsMin(m, s)
  {
    MinExists(s);
    var m :| IsMin(m, s); m
  }

  /** The greatest element of a non-empty set. */
  ghost function Max(s: set<int>): (m: int)
    requires s != {}
    ensures IsMax(m, s)
  {
    MaxExists(s);
    var m :| IsMax(m, s); m
  }

  lemma MinUnique(m: int, s: set<int>)
    requires IsMin(m, s)
    ensures m == Min(s)
  {
  }

  lemma MaxUnique(m: int, s: set<int>)
    requires IsMax(m, s)
    ensures m == Max(s)
  {
  }

  /** The elements of `s` in ascending order (what `sorted` returns). */
  ghost function Sorted(s: set<int>): (r: seq<int>)
    decreases |s|
  {
    if s == {} then [] else [Min(s)] + Sorted(s - {Min(s)})
  }

  /** `Sorted(s)` enumerates exactly the elements of `s`, each once, ascending. */
  lemma {:induction false} SortedIsEnumeration(s: set<int>)
    ensures |Sorted(s)| == |s|
    ensures forall x :: x in Sorted(s) <==> x in s
    ensures Increasing(Sorted(s))
    decreases |s|
  {
    if s != {} {
      var m := Min(s);
      SortedIsEnumeration(s - {m});
      var rest := Sorted(s - {m});
      assert Sorted(s) == [m] + rest;
      forall i | 0 <= i < |rest| ensures m < rest[i] {
        assert rest[i] in s - {m};
      }
    }
  }

  /** The last element of the ascending enumeration is the maximum. */
  lemma {:induction false} SortedLastIsMax(s: set<int>)
    requires s != {}
    ensures |Sorted(s)| == |s| && Sorted(s)[|s| - 1] == Max(s)
  {
    SortedIsEnumeration(s);
    var r := Sorted(s);
    assert r[|s| - 1] in s;
    forall x | x in s ensures x <= r[|s| - 1] {
      var i :| 0 <= i < |r| && r[i] == x;
    }
    MaxUnique(r[|s| - 1], s);
  }

  method MinOf(s: set<int>) returns (m: int)
    requires s != {}
    ensures m == Min(s)
  {
    Inhabited(s);
    var x :| x in s;
    m := x;
    var rest := s - {x};
    while rest != {}
      invariant rest <= s && m in s
      invariant forall y :: y in s && y !in rest ==> m <= y
      decreases rest
    {
      Inhabited(rest);
      var y :| y in rest;
      if y < m {
        m := y;
      }
      rest := rest - {y};
    }
    MinUnique(m, s);
  }

  method MaxOf(s: set<int>) returns (m: int)
    requires s != {}
    ensures m == Max(s)
  {
    Inhabited(s);
    var x :| x in s;
    m := x;
    var rest := s - {x};
    while rest != {}
      invariant rest <= s && m in s
      invariant forall y :: y in s && y !in rest ==> y <= m
      decreases rest
    {
      Inhabited(rest);
      var y :| y in rest;
      if m < y {
        m := y;
      }
      rest := rest - {y};
    }
    MaxUnique(m, s);
  }

  /** Enumerates `s` in ascending order by repeatedly taking the least
      remaining element. */
  method SortedKeys(s: set<int>) returns (ks: seq<int>)
    ensures ks == Sorted(s)
  {
    ks := [];
    var rest := s;
    while rest != {}
      invariant rest <= s
      invariant ks + Sorted(rest) == Sorted(s)
      decreases rest
    {
      var m := MinOf(rest);
      ghost var tail := Sorted(rest - {m});
      assert Sorted(rest) == [m] + tail;
      assert (ks + [m]) + tail == ks + ([m] + tail);
      ks := ks + [m];
      rest := rest - {m};
    }
  }
}

=== FILE: outbox.dfy ===
/** The server connection as the modelled code sees it: a log of what was
    sent. Delivery, framing and the socket itself are not modelled. */
module Outbox {
  import opened Messages

  /** What goes out. `Report` and `RequestWeather` are wrapper packets whose
      definitions are not part of this model. */
  datatype Outgoing =
    | Send(message: Message)
    | Report(report: SensorReport)
    | RequestWeather

  class Connection {
    var sent: seq<Outgoing>

    constructor ()
      ensures sent == []
    {
      sent := [];
    }

    method Send(o: Outgoing)
      modifies this
      ensures sent == old(sent) + [o]
    {
      sent := sent + [o];
    }
  }
}

=== FILE: packet.dfy ===
/** The packet class hierarchy of client/abstract/packet.py. Every message
    class is a JSON object class; a packet is incoming (sent by the server and
    handled by the client through `execute`) or outgoing (sent by the client,
    with no behaviour of its own). */
module Packets {
  import opened JsonValues
  import opened Wrappers

  /** Where a class sits in the class hierarchy. */
  datatype Kind =
    | IncomingPacket   // subclass of IncomingPacket: provides `execute`
    | OutgoingPacket   // subclass of OutgoingPacket: adds nothing to Packet
    | BarePacket       // subclass of Packet of neither direction
    | PlainJsonObject  // a JsonObject class that is not a Packet
    | PlainClass       // any other class

  /** The `__serial_name__` class attribute: absent, or present with a string
      or with `None`. */
  datatype SerialName = NoSerialName | SerialName(name: Option<string>)

  /** How the constructor of a JSON object class takes the one positional
      argument the decoder hands it. */
  datatype Init =
      /** jsonobject's own constructor: a dict of members (or `None`) */
    | MemberInit
      /** an `__init__(self, p1, ..., pn)` of the class's own that hands each
          `p_i` on as the string member `members[i]` */
    | PositionalInit(members: seq<string>)

  /** A class, as far as the registry, the encoder and the decoder look at
      it. `id` is the identity of the class object: two classes may share a
      name. */
  datatype ClassDesc = ClassDesc(id: int, name: string, kind: Kind, serialName: SerialName, init: Init)
  {
    predicate IsPacket() {
      kind.IncomingPacket? || kind.OutgoingPacket? || kind.BarePacket?
    }

    predicate IsJsonObject() {
      IsPacket() || kind.PlainJsonObject?
    }
  }

  /** An instance of a JSON object class: its class and its `to_json()`
      mapping (the value of `Packet.context`). */
  datatype Instance = Instance(cls: ClassDesc, fields: map<string, Json>)
}

=== FILE: predict.dfy ===
/** The data preparation of client/service/predict.py: minute keys, the
    fixed-order feature vector, and the merge of a sensor's reports with the
    weather reports into the rows of the prediction frame. The database
    queries are not modelled: the reports arrive as sequences in the order
    the queries return them (newest first). A row's time stamp is the
    minute's first second, as an integer. */
module Predictions {
  import opened Wrappers
  import opened JsonValues
  import opened Ordered
  import opened WeatherExtract

  type Row = map<string, Json>

  const TimeKey := "时间"
  const DissolvedOxygen := "溶解氧"
  const WeatherCondition := "天气状况"

  /** `_keys`: the feature order of the forecasting model. */
  const FeatureKeys: seq<string> :=
    [TimeKey, "温度", DissolvedOxygen, "pH", "氨氮", "硝氮", WeatherCondition, WindSpeedKey, TemperatureKey]

  const Zero := JReal(0.0)

  /** `_transform_key`: the start of the minute holding `t` (seconds and
      microseconds dropped by formatting to minutes and parsing back). */
  function TransformKey(t: int): (r: int)
    ensures r % 60 == 0 && r <= t < r + 60
  {
    t - t % 60
  }

  /** Two instants get the same key exactly when they fall in the same
      minute, and a key is its own key. */
  lemma SameMinute(a: int, b: int)
    ensures TransformKey(a) == TransformKey(b) <==> a / 60 == b / 60
    ensures TransformKey(TransformKey(a)) == TransformKey(a)
  {
    assert a == (a / 60) * 60 + a % 60;
    assert b == (b / 60) * 60 + b % 60;
  }

  /** `value.get(key, 0.0)` for each key, in order. */
  function PrepareFrom(value: Row, keys: seq<string>): (r: seq<Json>)
    ensures |r| == |keys|
    ensures forall i :: 0 <= i < |keys| ==> r[i] == if keys[i] in value then value[keys[i]] else Zero
  {
    if keys == [] then []
    else [if keys[0] in value then value[keys[0]] else Zero] + PrepareFrom(value, keys[1..])
  }

  /** `prepare`: the row as the model's nine features. */
  function Prepare(value: Row): seq<Json> {
    PrepareFrom(value, FeatureKeys)
  }

  /** The vector depends only on the feature keys: two rows that agree on
      them give the same vector, and a row without them gives all zeros. */
  lemma PrepareOnlyFeatures(a: Row, b: Row)
    requires forall k :: k in FeatureKeys ==> (k in a <==> k in b) && (k in a ==> a[k] == b[k])
    ensures Prepare(a) == Prepare(b)
    ensures (forall k :: k in FeatureKeys ==> k !in a) ==> Prepare(a) == seq(|FeatureKeys|, _ => Zero)
  {
    assert forall i :: 0 <= i < |FeatureKeys| ==> FeatureKeys[i] in FeatureKeys;
  }

  /** A row made from an extracted weather report alone: the wind speed and
      temperature land in their slots, but the condition slot reads 0.0, as
      `extract` names the condition `天气状态` while the feature is
      `天气状况`. */
  lemma PrepareWeather(skycon: map<string, Json>, payload: Json)
    requires Extract(skycon, payload).Success?
    ensures var row := Extract(skycon, payload).value;
            var v := Prepare(row);
            && v[6] == Zero && v[7] == row[WindSpeedKey] && v[8] == row[TemperatureKey]
            && forall i :: 0 <= i < 7 ==> v[i] == Zero
  {
    ExtractContents(skycon, payload);
    var row := Extract(skycon, payload).value;
    var v := Prepare(row);
    forall i | 0 <= i < 7 ensures v[i] == Zero {
      assert FeatureKeys[i] !in row;
    }
  }

  // ---------------------------------------------------------------------------
  // Collecting reports by minute
  // ---------------------------------------------------------------------------

  /** One stored report: when it was created and its fields. */
  datatype Report = Report(created: int, fields: Row)

  /** The minute key of the `i`-th report. */
  function KeyAt(reports: seq<Report>, i: int): int
    requires 0 <= i < |reports|
  {
    TransformKey(reports[i].created)
  }

  /** The dictionary the query loop fills with `d[_transform_key(created)] =
      fields`, visiting `reports` in order. */
  function Collected(reports: seq<Report>): map<int, Row>
  {
    if reports == [] then map[]
    else
      var last := reports[|reports| - 1];
      Collected(reports[..|reports| - 1])[TransformKey(last.created) := last.fields]
  }

  /** The query loop. */
  method Collect(reports: seq<Report>) returns (d: map<int, Row>)
    ensures d == Collected(reports)
  {
    d := map[];
    for i := 0 to |reports|
      invariant d == Collected(reports[..i])
    {
      assert reports[..i + 1][..i] == reports[..i];
      d := d[TransformKey(reports[i].created) := reports[i].fields];
    }
    assert reports[..|reports|] == reports;
  }

  /** The keys are the minutes of the reports. */
  lemma {:induction false} CollectedKeys(reports: seq<Report>, k: int)
    ensures k in Collected(reports) <==> exists i :: 0 <= i < |reports| && KeyAt(reports, i) == k
  {
    if reports != [] {
      var n := |reports| - 1;
      var front := reports[..n];
      CollectedKeys(front, k);
      if KeyAt(reports, n) != k {
        if k in Collected(front) {
          var i :| 0 <= i < n && KeyAt(front, i) == k;
          assert KeyAt(reports, i) == k;
        }
        if exists i :: 0 <= i < |reports| && KeyAt(reports, i) == k {
          var i :| 0 <= i < |reports| && KeyAt(reports, i) == k;
          assert KeyAt(front, i) == k;
        }
      }
    }
  }

  /** Each minute holds the fields of the last report visited in that
      minute. */
  lemma {:induction false} CollectedWinner(reports: seq<Report>, k: int)
    requires k in Collected(reports)
    ensures exists i :: 0 <= i < |reports| && KeyAt(reports, i) == k &&
                        Collected(reports)[k] == reports[i].fields &&
                        forall j :: i < j < |reports| ==> KeyAt(reports, j) != k
  {
    var n := |reports| - 1;
    var front := reports[..n];
    if KeyAt(reports, n) != k {
      assert k in Collected(front);
      CollectedWinner(front, k);
      var i :| 0 <= i < n && KeyAt(front, i) == k && Collected(front)[k] == front[i].fields &&
               forall j :: i < j < n ==> KeyAt(front, j) != k;
      assert KeyAt(reports, i) == k && Collected(reports)[k] == reports[i].fields;
      forall j | i < j < |reports| ensures KeyAt(reports, j) != k {
        if j < n {
          assert KeyAt(front, j) == KeyAt(reports, j);
        }
      }
    } else {
      assert Collected(reports)[k] == reports[n].fields;
    }
  }

  /** Newest first, as the queries order them. */
  predicate NewestFirst(reports: seq<Report>) {
    forall i, j :: 0 <= i < j < |reports| ==> reports[i].created >= reports[j].created
  }

  /** With the reports newest first, the report kept for a minute is the
      oldest one of that minute. */
  lemma OldestInMinuteWins(reports: seq<Report>, k: int)
    requires NewestFirst(reports) && k in Collected(reports)
    ensures exists i :: 0 <= i < |reports| && KeyAt(reports, i) == k &&
                        Collected(reports)[k] == reports[i].fields &&
                        forall j :: 0 <= j < |reports| && KeyAt(reports, j) == k ==>
                                      reports[i].created <= reports[j].created
  {
    CollectedWinner(reports, k);
    var i :| 0 <= i < |reports| && KeyAt(reports, i) == k && Collected(reports)[k] == reports[i].fields &&
             forall j :: i < j < |reports| ==> KeyAt(reports, j) != k;
    forall j | 0 <= j < |reports| && KeyAt(reports, j) == k ensures reports[i].created <= reports[j].created {
      if j < i {
        assert reports[j].created >= reports[i].created;
      }
    }
  }

  // ---------------------------------------------------------------------------
  // Merging a sensor row with the weather
  // ---------------------------------------------------------------------------

  /** The keys of `ws` all name weather reports. */
  predicate Covers(weathers: map<int, Row>, ws: seq<int>) {
    forall i :: 0 <= i < |ws| ==> ws[i] in weathers
  }

  /** `value.update(weather)` for every weather key of `ws` strictly before
      `sk`, in the order of `ws`. */
  function OverlayEarlier(value: Row, weathers: map<int, Row>, ws: seq<int>, sk: int): Row
    requires Covers(weathers, ws)
    decreases ws
  {
    if ws == [] then value
    else
      var v := if sk > ws[0] then value + weathers[ws[0]] else value;
      OverlayEarlier(v, weathers, ws[1..], sk)
  }

  /** The row of sensor minute `sk`: its fields, the earlier weathers in
      ascending order, and then, unless the row is still empty, the latest
      weather (`ws` ascending and not empty). */
  function MergeRow(fields: Row, weathers: map<int, Row>, ws: seq<int>, sk: int): Row
    requires Covers(weathers, ws) && ws != []
  {
    var v := OverlayEarlier(fields, weathers, ws, sk);
    if |v| > 0 then v + weathers[ws[|ws| - 1]] else v
  }

  /** One step of the overlay, at position `i` of `ws`. */
  lemma OverlayStep(value: Row, weathers: map<int, Row>, ws: seq<int>, sk: int, i: int)
    requires Covers(weathers, ws) && 0 <= i < |ws|
    ensures OverlayEarlier(value, weathers, ws[i..], sk) ==
            OverlayEarlier(if sk > ws[i] then value + weathers[ws[i]] else value, weathers, ws[i + 1..], sk)
  {
    assert ws[i..][1..] == ws[i + 1..];
  }

  /** The inner loop of the merge. */
  method MergeSensorRow(fields: Row, weathers: map<int, Row>, ws: seq<int>, sk: int) returns (value: Row)
    requires Covers(weathers, ws) && ws != []
    ensures value == MergeRow(fields, weathers, ws, sk)
  {
    value := map[];
    value := value + fields;
    assert value == fields;
    for i := 0 to |ws|
      invariant OverlayEarlier(value, weathers, ws[i..], sk) == OverlayEarlier(fields, weathers, ws, sk)
    {
      OverlayStep(value, weathers, ws, sk, i);
      if sk > ws[i] {
        value := value + weathers[ws[i]];
      }
    }
    if |value| > 0 {
      value := value + weathers[ws[|ws| - 1]];
    }
  }

  /** What the overlay keeps: a key of a weather before `sk` holds the value
      of the last such weather (in `ws` order) that has it; any other key
      keeps its value from the start row. */
  lemma {:induction false} OverlayValues(value: Row, weathers: map<int, Row>, ws: seq<int>, sk: int, k: string)
    requires Covers(weathers, ws)
    decreases ws
    ensures var r := OverlayEarlier(value, weathers, ws, sk);
            && (k in r <==> k in value || exists i :: 0 <= i < |ws| && ws[i] < sk && k in weathers[ws[i]])
            && ((forall i :: 0 <= i < |ws| && ws[i] < sk ==> k !in weathers[ws[i]]) && k in value ==> r[k] == value[k])
            && (forall i :: (0 <= i < |ws| && ws[i] < sk && k in weathers[ws[i]] &&
                             (forall j :: i < j < |ws| && ws[j] < sk ==> k !in weathers[ws[j]])) ==>
                               r[k] == weathers[ws[i]][k])
  {
    if ws != [] {
      var v := if sk > ws[0] then value + weathers[ws[0]] else value;
      OverlayValues(v, weathers, ws[1..], sk, k);
      forall i | 1 <= i < |ws| ensures ws[1..][i - 1] == ws[i] {
      }
    }
  }

  /** The latest weather always wins on a non-empty row; on an empty row
      (no fields and no earlier weather) nothing is overlaid. */
  lemma LatestWeatherWins(fields: Row, weathers: map<int, Row>, ws: seq<int>, sk: int)
    requires Covers(weathers, ws) && ws != []
    ensures var r := MergeRow(fields, weathers, ws, sk);
            && (r != map[] ==> forall k :: k in weathers[ws[|ws| - 1]] ==> k in r && r[k] == weathers[ws[|ws| - 1]][k])
            && (fields == map[] && (forall i :: 0 <= i < |ws| ==> ws[i] >= sk || weathers[ws[i]] == map[]) ==> r == map[])
  {
    var v := OverlayEarlier(fields, weathers, ws, sk);
    if fields == map[] && (forall i :: 0 <= i < |ws| ==> ws[i] >= sk || weathers[ws[i]] == map[]) {
      forall k ensures k !in v {
        OverlayValues(fields, weathers, ws, sk, k);
      }
      assert v == map[];
    }
  }

  /** The sensor's own fields survive unless a weather overlay names the
      same key. */
  lemma SensorFieldsKept(fields: Row, weathers: map<int, Row>, ws: seq<int>, sk: int, k: string)
    requires Covers(weathers, ws) && ws != [] && k in fields
    requires forall i :: 0 <= i < |ws| ==> k !in weathers[ws[i]]
    ensures k in MergeRow(fields, weathers, ws, sk) && MergeRow(fields, weathers, ws, sk)[k] == fields[k]
  {
    OverlayValues(fields, weathers, ws, sk, k);
  }

  // ---------------------------------------------------------------------------
  // The frame
  // ---------------------------------------------------------------------------

  /** `row = {'时间': key}; row.update(elements)`. */
  function Stamp(key: int, elements: Row): Row {
    map[TimeKey := JInt(key)] + elements
  }

  /** The rows in the order of `sks`, each merged with the weathers. */
  function Rows(sensors: map<int, Row>, weathers: map<int, Row>, sks: seq<int>, ws: seq<int>): (r: seq<Row>)
    requires Covers(sensors, sks) && Covers(weathers, ws) && ws != []
    ensures |r| == |sks|
  {
    if sks == [] then []
    else [Stamp(sks[0], MergeRow(sensors[sks[0]], weathers, ws, sks[0]))] + Rows(sensors, weathers, sks[1..], ws)
  }

  /** The frame before filling: no rows without weather, otherwise one row
      per sensor minute, in ascending minute order. */
  ghost function Frame(sensors: map<int, Row>, weathers: map<int, Row>): seq<Row> {
    SortedIsEnumeration(sensors.Keys);
    SortedIsEnumeration(weathers.Keys);
    if weathers == map[] then []
    else Rows(sensors, weathers, Sorted(sensors.Keys), Sorted(weathers.Keys))
  }

  /** `frame['溶解氧'].fillna(0.0)` when the column exists: the column exists
      when some row has the key; rows without it, or with a null, get 0.0. */
  function FillDissolvedOxygen(frame: seq<Row>): (r: seq<Row>)
    ensures |r| == |frame|
  {
    if exists i :: 0 <= i < |frame| && DissolvedOxygen in frame[i] then
      seq(|frame|, i requires 0 <= i < |frame| =>
        if DissolvedOxygen !in frame[i] || frame[i][DissolvedOxygen] == JNull
        then frame[i][DissolvedOxygen := Zero] else frame[i])
    else frame
  }

  /** Once filled, either no row has a dissolved-oxygen value or every row
      has a non-null one; values already present are kept, a missing or null
      value becomes 0.0 when the column exists, and nothing else in a row
      changes. */
  lemma FilledColumn(frame: seq<Row>)
    ensures var r := FillDissolvedOxygen(frame);
            && ((forall i :: 0 <= i < |r| ==> DissolvedOxygen !in r[i]) ||
                (forall i :: 0 <= i < |r| ==> DissolvedOxygen in r[i] && r[i][DissolvedOxygen] != JNull))
            && (forall i :: 0 <= i < |r| ==> r[i] - {DissolvedOxygen} == frame[i] - {DissolvedOxygen})
            && (forall i :: 0 <= i < |r| && DissolvedOxygen in frame[i] && frame[i][DissolvedOxygen] != JNull ==>
                  r[i][DissolvedOxygen] == frame[i][DissolvedOxygen])
            && ((exists j :: 0 <= j < |frame| && DissolvedOxygen in frame[j]) ==>
                  forall i :: 0 <= i < |r| && (DissolvedOxygen !in frame[i] || frame[i][DissolvedOxygen] == JNull) ==>
                    r[i][DissolvedOxygen] == Zero)
  {
    var r := FillDissolvedOxygen(frame);
    forall i | 0 <= i < |r| ensures r[i] - {DissolvedOxygen} == frame[i] - {DissolvedOxygen} {
      assert (r[i] - {DissolvedOxygen}).Keys == (frame[i] - {DissolvedOxygen}).Keys;
    }
  }

  /** The data part of `pull`: both report lists collected by minute, the
      weather contexts extracted, rows merged and the column filled.
      Extraction errors propagate. */
  ghost function Pull(skycon: map<string, Json>, sensorReports: seq<Report>, weatherReports: seq<(int, Json)>):
    Result<seq<Row>, Exception>
  {
    match ExtractAll(skycon, weatherReports)
    case Failure(e) => Failure(e)
    case Success(extracted) => Success(FillDissolvedOxygen(Frame(Collected(sensorReports), Collected(extracted))))
  }

  /** The weather reports with their contexts extracted, stopping at the
      first failure. */
  function ExtractAll(skycon: map<string, Json>, weatherReports: seq<(int, Json)>): (r: Result<seq<Report>, Exception>)
    ensures r.Success? ==> |r.value| == |weatherReports|
    ensures r.Success? ==> forall i :: 0 <= i < |weatherReports| ==>
              r.value[i].created == weatherReports[i].0 &&
              Extract(skycon, weatherReports[i].1) == Success(r.value[i].fields)
    ensures r.Failure? ==> exists i :: 0 <= i < |weatherReports| && Extract(skycon, weatherReports[i].1).Failure?
  {
    if weatherReports == [] then Success([])
    else
      match Extract(skycon, weatherReports[0].1)
      case Failure(e) => Failure(e)
      case Success(fields) =>
        match ExtractAll(skycon, weatherReports[1..])
        case Failure(e) => Failure(e)
        case Success(rest) => Success([Report(weatherReports[0].0, fields)] + rest)
  }

  /** The outer loop of the merge and the stamping loop, fused: one row per
      sensor minute of `sks`, in that order. */
  method MergeRows(sensors: map<int, Row>, weathers: map<int, Row>, sks: seq<int>, ws: seq<int>) returns (frame: seq<Row>)
    requires Covers(sensors, sks) && Covers(weathers, ws) && ws != []
    ensures frame == Rows(sensors, weathers, sks, ws)
  {
    frame := [];
    for i := 0 to |sks|
      invariant frame + Rows(sensors, weathers, sks[i..], ws) == Rows(sensors, weathers, sks, ws)
    {
      assert sks[i..][1..] == sks[i + 1..];
      var value := MergeSensorRow(sensors[sks[i]], weathers, ws, sks[i]);
      frame := frame + [Stamp(sks[i], value)];
    }
  }

  /** The merge section of `pull`, with its loops: collect both report
      lists, sort the minutes, then merge and stamp the rows. */
  method BuildFrame(sensorReports: seq<Report>, weatherReports: seq<Report>) returns (frame: seq<Row>)
    ensures frame == Frame(Collected(sensorReports), Collected(weatherReports))
  {
    var sensors := Collect(sensorReports);
    var weathers := Collect(weatherReports);
    var sks := SortedKeys(sensors.Keys);
    var ws := SortedKeys(weathers.Keys);
    SortedIsEnumeration(sensors.Keys);
    SortedIsEnumeration(weathers.Keys);
    if |weathers| == 0 {
      assert weathers == map[];
      return [];
    }
    assert ws != [];
    frame := MergeRows(sensors, weathers, sks, ws);
  }

  /** Without weather reports there are no rows. */
  lemma NoWeatherNoRows(sensors: map<int, Row>)
    ensures Frame(sensors, map[]) == []
  {
  }

  /** With weather, the rows are stamped with the sensor minutes in
      strictly ascending order, one row per minute, each the merged row. */
  lemma {:induction false} RowsAscending(sensors: map<int, Row>, weathers: map<int, Row>)
    requires weathers != map[]
    ensures Covers(sensors, Sorted(sensors.Keys)) && Covers(weathers, Sorted(weathers.Keys)) && Sorted(weathers.Keys) != []
    ensures var f := Frame(sensors, weathers);
            var sks := Sorted(sensors.Keys);
            && |f| == |sensors|
            && (forall i :: 0 <= i < |f| ==> sks[i] in sensors && f[i] == Stamp(sks[i], MergeRow(sensors[sks[i]], weathers, Sorted(weathers.Keys), sks[i])))
            && (forall i, j :: 0 <= i < j < |f| ==> sks[i] < sks[j])
            && (forall k :: k in sensors <==> k in sks)
  {
    SortedIsEnumeration(sensors.Keys);
    SortedIsEnumeration(weathers.Keys);
    var sks := Sorted(sensors.Keys);
    var ws := Sorted(weathers.Keys);
    RowsAt(sensors, weathers, sks, ws);
  }

  lemma {:induction false} RowsAt(sensors: map<int, Row>, weathers: map<int, Row>, sks: seq<int>, ws: seq<int>)
    requires Covers(sensors, sks) && Covers(weathers, ws) && ws != []
    ensures forall i :: 0 <= i < |sks| ==>
              Rows(sensors, weathers, sks, ws)[i] == Stamp(sks[i], MergeRow(sensors[sks[i]], weathers, ws, sks[i]))
  {
    if sks != [] {
      RowsAt(sensors, weathers, sks[1..], ws);
    }
  }
}

=== FILE: serial_monitor.dfy ===
/** The serial sensor monitor of client/network/monitor/serial.py (and its
    older copy, the `Monitor` class of client/network/monitor.py, which is the
    same monitor without a prediction feed).

    The monitor reads the sensor's holding registers (Modbus function 0x03,
    section 6.3 of the Modbus Application Protocol Specification V1.1b3),
    decodes the response into 32-bit floats, pairs them with the field keys
    of the sensor model, keeps a per-field history and reports the readings
    to the server. Device I/O and the wall clock are parameters: whether a
    reconnect succeeds, the response (`None` when it is not a holding
    register response, else the bytes of `response.encode()`), and the time
    in seconds. */
module SerialMonitors {
  import opened Wrappers
  import opened Float32s
  import opened Ordered
  import Messages
  import opened Outbox
  import opened GatedMonitors

  /** A read request: starting register, register count and unit id. */
  datatype Command = Command(address: int, count: int, unit: int)

  const Commands: map<string, Command> := map["TNET_100" := Command(100, 24, 33)]

  /** `commands[sensor.type]`, which raises KeyError for an unknown model. */
  function CommandFor(model: string): (r: Result<Command, Exception>)
    ensures model == "TNET_100" ==> r == Success(Command(100, 24, 33))
    ensures model != "TNET_100" ==> r == Failure(KeyError)
  {
    if model in Commands then Success(Commands[model]) else Failure(KeyError)
  }

  // ---------------------------------------------------------------------------
  // Decoding the response
  // ---------------------------------------------------------------------------

  /** The reading at `i`: bytes `[b0, b1, b2, b3]` unpacked big-endian as
      `[b2, b3, b0, b1]` (the two 16-bit words swapped). */
  function Word(payload: seq<byte>, i: nat): Float32
    requires i + 4 <= |payload|
  {
    Float32(payload[i + 2], payload[i + 3], payload[i], payload[i + 1])
  }

  /** The readings at `index`, `index + 4`, ... strictly below `stop`; a group
      that runs past the end makes the unpack fail. */
  function DecodeFrom(payload: seq<byte>, index: nat, stop: int): Result<seq<Float32>, Exception>
    decreases stop - index
  {
    if index >= stop then Success([])
    else if index + 4 > |payload| then Failure(StructError)
    else Prepend([Word(payload, index)], DecodeFrom(payload, index + 4, stop))
  }

  function Prepend(vs: seq<Float32>, r: Result<seq<Float32>, Exception>): Result<seq<Float32>, Exception> {
    match r
    case Success(rest) => Success(vs + rest)
    case Failure(e) => Failure(e)
  }

  /** The decode loop: indices 1, 5, 9, ... strictly below the byte count in
      `payload[0]`; an empty payload has no byte count to read. */
  function Decode(payload: seq<byte>): Result<seq<Float32>, Exception> {
    if |payload| == 0 then Failure(IndexError) else DecodeFrom(payload, 1, payload[0] as int)
  }

  /** How many indices `range(index, stop, 4)` visits. */
  function Visits(index: int, stop: int): nat {
    if index >= stop then 0 else (stop - index - 1) / 4 + 1
  }

  lemma {:induction false} DecodeFromShape(payload: seq<byte>, index: nat, stop: int)
    ensures DecodeFrom(payload, index, stop).Success? <==>
              index >= stop || index + 4 * (Visits(index, stop) - 1) + 4 <= |payload|
    ensures DecodeFrom(payload, index, stop).Success? ==>
              var vs := DecodeFrom(payload, index, stop).value;
              && |vs| == Visits(index, stop)
              && forall k :: 0 <= k < |vs| ==> index + 4 * k + 4 <= |payload| && vs[k] == Word(payload, index + 4 * k)
    decreases stop - index
  {
    if index < stop {
      DecodeFromShape(payload, index + 4, stop);
      assert Visits(index, stop) == Visits(index + 4, stop) + 1;
      if index + 4 <= |payload| && DecodeFrom(payload, index + 4, stop).Success? {
        var rest := DecodeFrom(payload, index + 4, stop).value;
        var vs := DecodeFrom(payload, index, stop).value;
        assert vs == [Word(payload, index)] + rest;
        forall k | 0 <= k < |vs| ensures index + 4 * k + 4 <= |payload| && vs[k] == Word(payload, index + 4 * k) {
          if k > 0 {
            assert vs[k] == rest[k - 1];
            assert index + 4 + 4 * (k - 1) == index + 4 * k;
          }
        }
      }
    }
  }

  /** Decoding succeeds exactly when the payload has a byte count and the
      last visited group fits; it then yields one reading per visited index,
      each the word-swapped group at that index. */
  lemma DecodeShape(payload: seq<byte>)
    ensures Decode(payload).Success? <==>
              |payload| > 0 &&
              (payload[0] as int <= 1 || 1 + 4 * (Visits(1, payload[0] as int) - 1) + 4 <= |payload|)
    ensures Decode(payload).Success? ==>
              var vs := Decode(payload).value;
              && |vs| == Visits(1, payload[0] as int)
              && forall k :: 0 <= k < |vs| ==> 4 * k + 5 <= |payload| && vs[k] == Word(payload, 1 + 4 * k)
  {
    if |payload| > 0 {
      DecodeFromShape(payload, 1, payload[0] as int);
    }
  }

  /** A well-formed response to the TNET_100 command (byte count 48 followed
      by the 48 register bytes) decodes to 12 readings. */
  lemma TnetResponse(payload: seq<byte>)
    requires |payload| == 49 && payload[0] == 48
    ensures Decode(payload).Success? && |Decode(payload).value| == 12
  {
    DecodeShape(payload);
  }

  lemma PrependStep(values: seq<Float32>, payload: seq<byte>, index: nat, stop: int)
    requires index < stop && index + 4 <= |payload|
    ensures Prepend(values, DecodeFrom(payload, index, stop)) ==
            Prepend(values + [Word(payload, index)], DecodeFrom(payload, index + 4, stop))
  {
    var w := Word(payload, index);
    match DecodeFrom(payload, index + 4, stop)
    case Success(rest) =>
      assert values + ([w] + rest) == (values + [w]) + rest;
    case Failure(_) =>
  }

  /** The decode loop as written: a `for` over `range(1, payload[0], 4)`. */
  method DecodeReadings(payload: seq<byte>) returns (r: Result<seq<Float32>, Exception>)
    ensures r == Decode(payload)
  {
    if |payload| == 0 {
      return Failure(IndexError);
    }
    var stop := payload[0] as int;
    var values: seq<Float32> := [];
    var index := 1;
    ghost var first := DecodeFrom(payload, 1, stop);
    if first.Success? {
      assert [] + first.value == first.value;
    }
    while index < stop
      invariant index >= 1
      invariant Decode(payload) == Prepend(values, DecodeFrom(payload, index, stop))
      decreases stop - index
    {
      if index + 4 > |payload| {
        return Failure(StructError);
      }
      PrependStep(values, payload, index, stop);
      values := values + [Word(payload, index)];
      index := index + 4;
    }
    assert values + [] == values;
    r := Success(values);
  }

  // ---------------------------------------------------------------------------
  // Pairing readings with field keys
  // ---------------------------------------------------------------------------

  /** `dict(filter(lambda x: x[1] != 0.0, zip(keys, values)))`: pairs keys and
      readings by position, stops at the shorter, drops readings equal to 0.0
      and lets a later duplicate key win. */
  function Match(keys: seq<string>, values: seq<Float32>): (r: map<string, Float32>)
    ensures forall k :: k in r <==>
              exists i :: 0 <= i < |keys| && i < |values| && keys[i] == k && !values[i].IsZero()
  {
    if |keys| == 0 || |values| == 0 then map[]
    else
      var rest := Match(keys[1..], values[1..]);
      assert forall k :: k in rest <==>
               exists i :: 1 <= i < |keys| && i < |values| && keys[i] == k && !values[i].IsZero() by {
        forall k | k in rest ensures exists i :: 1 <= i < |keys| && i < |values| && keys[i] == k && !values[i].IsZero() {
          var i :| 0 <= i < |keys| - 1 && i < |values| - 1 && keys[1..][i] == k && !values[1..][i].IsZero();
          assert keys[i + 1] == k && !values[i + 1].IsZero();
        }
        forall k | exists i :: 1 <= i < |keys| && i < |values| && keys[i] == k && !values[i].IsZero()
          ensures k in rest
        {
          var i :| 1 <= i < |keys| && i < |values| && keys[i] == k && !values[i].IsZero();
          assert keys[1..][i - 1] == k && !values[1..][i - 1].IsZero();
        }
      }
      (if values[0].IsZero() then map[] else map[keys[0] := values[0]]) + rest
  }

  /** With distinct keys, each kept reading sits under its own key. */
  lemma {:induction false} MatchValue(keys: seq<string>, values: seq<Float32>, i: int)
    requires forall a, b :: 0 <= a < b < |keys| ==> keys[a] != keys[b]
    requires 0 <= i < |keys| && i < |values| && !values[i].IsZero()
    ensures keys[i] in Match(keys, values) && Match(keys, values)[keys[i]] == values[i]
  {
    if i > 0 {
      MatchValue(keys[1..], values[1..], i - 1);
      var rest := Match(keys[1..], values[1..]);
      assert keys[1..][i - 1] == keys[i];
      assert keys[i] != keys[0];
    }
  }

  // ---------------------------------------------------------------------------
  // The history kept by `record`
  // ---------------------------------------------------------------------------

  /** Distinct points are at least 60 s apart. */
  ghost predicate Spaced(s: set<int>) {
    forall x, y :: x in s && y in s && x != y ==> x - y >= 60 || y - x >= 60
  }

  /** Every field's history is spaced and holds at most 60 points. */
  ghost predicate Bounded(history: map<string, map<int, Float32>>) {
    forall k :: k in history ==> Spaced(history[k].Keys) && |history[k]| <= 60
  }

  /** One field's points after a new reading `v` at `t`: skipped when the
      newest point is less than 60 s older; otherwise inserted, and once more
      than 60 points are held, only those less than 3600 s older than `t`
      are kept. */
  ghost function Step(records: map<int, Float32>, t: int, v: Float32): map<int, Float32> {
    if records != map[] && t - Max(records.Keys) < 60 then records
    else
      var r := records[t := v];
      if |r| > 60 then map x | x in r && t - x < 3600 :: r[x] else r
  }

  /** The points held for field `k`, none if it has no history. */
  function Prior(history: map<string, map<int, Float32>>, k: string): map<int, Float32> {
    if k in history then history[k] else map[]
  }

  /** The body of `record` for one field, proved against `Step`. */
  method StepField(records: map<int, Float32>, t: int, v: Float32) returns (r: map<int, Float32>)
    ensures r == Step(records, t, v)
  {
    if records != map[] {
      var newest := MaxOf(records.Keys);
      if t - newest < 60 {
        return records;
      }
    }
    r := records[t := v];
    if |r| > 60 {
      r := map x | x in r && t - x < 3600 :: r[x];
    }
  }

  /** `record`: every field of the latest readings is stepped; every other
      field is dropped. */
  ghost function RecordSpec(history: map<string, map<int, Float32>>, values: map<string, Float32>, t: int)
    : map<string, map<int, Float32>>
  {
    map k | k in values :: Step(Prior(history, k), t, values[k])
  }

  /** The first loop of `record`: steps every field of the latest readings. */
  method StepFields(history: map<string, map<int, Float32>>, values: map<string, Float32>, t: int)
    returns (h: map<string, map<int, Float32>>)
    ensures forall k :: k in h <==> k in history || k in values
    ensures forall k :: k in values ==> h[k] == Step(Prior(history, k), t, values[k])
    ensures forall k :: k in history && k !in values ==> h[k] == history[k]
  {
    h := history;
    var todo := values.Keys;
    while todo != {}
      invariant todo <= values.Keys
      invariant forall k :: k in h <==> k in history || (k in values && k !in todo)
      invariant forall k :: k in values && k !in todo ==> h[k] == Step(Prior(history, k), t, values[k])
      invariant forall k :: k in history && (k !in values || k in todo) ==> h[k] == history[k]
      decreases todo
    {
      InhabitedNames(todo);
      var key :| key in todo;
      assert Prior(h, key) == Prior(history, key);
      var records := StepField(Prior(h, key), t, values[key]);
      h := h[key := records];
      todo := todo - {key};
    }
  }

  /** The second loop of `record`: pops every field outside `keep`. */
  method DropStale(history: map<string, map<int, Float32>>, keep: set<string>)
    returns (h: map<string, map<int, Float32>>)
    ensures h.Keys == history.Keys * keep
    ensures forall k :: k in h ==> h[k] == history[k]
  {
    h := history;
    var stale := h.Keys - keep;
    while stale != {}
      invariant stale <= h.Keys
      invariant h.Keys == history.Keys * keep + stale
      invariant forall k :: k in h ==> h[k] == history[k]
      decreases stale
    {
      InhabitedNames(stale);
      var key :| key in stale;
      h := h - {key};
      stale := stale - {key};
    }
  }

  /** Both loops of `record`, proved against `RecordSpec`. */
  method RecordHistory(history: map<string, map<int, Float32>>, values: map<string, Float32>, t: int)
    returns (h: map<string, map<int, Float32>>)
    ensures h == RecordSpec(history, values, t)
  {
    var stepped := StepFields(history, values, t);
    h := DropStale(stepped, values.Keys);
    assert h.Keys == RecordSpec(history, values, t).Keys;
  }

  /** The points of a spaced set within `(t - 60 * n, t]`. */
  ghost function Window(s: set<int>, t: int, n: nat): set<int> {
    set x | x in s && t - 60 * n < x <= t
  }

  lemma AtMostOne(b: set<int>)
    requires forall x, y :: x in b && y in b ==> x - y < 60 && y - x < 60
    requires Spaced(b)
    ensures |b| <= 1
  {
    if b != {} {
      Inhabited(b);
      var x :| x in b;
      forall y | y in b ensures y == x {
        assert x - y < 60 && y - x < 60;
      }
      assert b == {x};
    }
  }

  lemma {:induction false} WindowBound(s: set<int>, t: int, n: nat)
    requires Spaced(s)
    ensures |Window(s, t, n)| <= n
  {
    if n == 0 {
      assert Window(s, t, n) == {};
    } else {
      WindowBound(s, t, n - 1);
      var band := set x | x in s && t - 60 * n < x <= t - 60 * (n - 1);
      assert Spaced(band);
      AtMostOne(band);
      assert Window(s, t, n) == Window(s, t, n - 1) + band;
    }
  }

  /** Spaced points within an hour of `t` number at most 60. */
  lemma HourBound(s: set<int>, t: int)
    requires Spaced(s)
    requires forall x :: x in s ==> t - 3600 < x <= t
    ensures |s| <= 60
  {
    WindowBound(s, t, 60);
    assert Window(s, t, 60) == s;
  }

  /** The step keeps the bound: inserted points are 60 s past every other,
      and pruning leaves spaced points within the last hour. */
  lemma StepBounded(records: map<int, Float32>, t: int, v: Float32)
    requires Spaced(records.Keys) && |records| <= 60
    ensures Spaced(Step(records, t, v).Keys) && |Step(records, t, v)| <= 60
  {
    if !(records != map[] && t - Max(records.Keys) < 60) {
      var r := records[t := v];
      assert forall x :: x in records ==> x <= t - 60 by {
        if records != map[] {
          var m := Max(records.Keys);
        }
      }
      assert Spaced(r.Keys);
      if |r| > 60 {
        var p := map x | x in r && t - x < 3600 :: r[x];
        assert p.Keys <= r.Keys;
        assert Spaced(p.Keys);
        HourBound(p.Keys, t);
      }
    }
  }

  /** After `record` every field's history is still spaced and holds at most
      60 points, and the fields are exactly those of the latest readings. */
  lemma RecordBounded(history: map<string, map<int, Float32>>, values: map<string, Float32>, t: int)
    requires Bounded(history)
    ensures Bounded(RecordSpec(history, values, t))
    ensures RecordSpec(history, values, t).Keys == values.Keys
  {
    forall k | k in values
      ensures Spaced(RecordSpec(history, values, t)[k].Keys) && |RecordSpec(history, values, t)[k]| <= 60
    {
      StepBounded(Prior(history, k), t, values[k]);
    }
  }

  /** The insertion rule of a step: the point goes in exactly when the field
      has no points or its newest point is at least 60 s older. */
  lemma StepRule(records: map<int, Float32>, t: int, v: Float32)
    ensures records != map[] && t - Max(records.Keys) < 60 ==> Step(records, t, v) == records
    ensures !(records != map[] && t - Max(records.Keys) < 60) ==>
              && t !in records
              && t in Step(records, t, v) && Step(records, t, v)[t] == v
              && Step(records, t, v).Keys <= records.Keys + {t}
              && (|records| < 60 ==> Step(records, t, v) == records[t := v])
  {
    if records != map[] && t - Max(records.Keys) >= 60 {
      assert t !in records;
    }
  }

  // ---------------------------------------------------------------------------
  // The monitor
  // ---------------------------------------------------------------------------

  /** What `pull`, `lazy_pull` and `record` read and write. */
  datatype DeviceState = DeviceState(
    online: bool,
    requests: seq<Command>,
    payload: Option<seq<Float32>>,
    timestamp: Option<int>,
    history: map<string, map<int, Float32>>)

  /** `pull`: reconnect once if offline; without a link, or on a response
      that is not a holding register response, nothing else changes and the
      result is `None`; otherwise the decoded readings become the payload,
      `now` the timestamp, and the history is recorded. */
  ghost function PullSpec(s: DeviceState, command: Command, keys: seq<string>,
                          reconnected: bool, response: Option<seq<byte>>, now: int)
    : (DeviceState, Result<Option<seq<Float32>>, Exception>)
  {
    if !s.online && !reconnected then (s, Success(None))
    else
      var sent := s.(online := true, requests := s.requests + [command]);
      if response.None? then (sent, Success(None))
      else match Decode(response.value)
        case Failure(e) => (sent, Failure(e))
        case Success(values) =>
          (sent.(payload := Some(values), timestamp := Some(now),
                 history := RecordSpec(s.history, Match(keys, values), now)),
           Success(Some(values)))
  }

  /** Whether `lazy_pull` can answer from its cache: both fields are set
      and the readings are less than 60 s old. */
  predicate Fresh(s: DeviceState, now: int) {
    s.payload.Some? && s.timestamp.Some? && now - s.timestamp.value < 60
  }

  ghost function LazyPullSpec(s: DeviceState, command: Command, keys: seq<string>,
                              reconnected: bool, response: Option<seq<byte>>, now: int)
    : (DeviceState, Result<Option<seq<Float32>>, Exception>)
  {
    if Fresh(s, now) then (s, Success(s.payload))
    else PullSpec(s, command, keys, reconnected, response, now)
  }

  /** A failed pull touches neither the readings nor the history. */
  lemma PullFailureKeepsReadings(s: DeviceState, command: Command, keys: seq<string>,
                                 reconnected: bool, response: Option<seq<byte>>, now: int)
    requires var (_, r) := PullSpec(s, command, keys, reconnected, response, now);
             !(r.Success? && r.value.Some?)
    ensures var (s', _) := PullSpec(s, command, keys, reconnected, response, now);
            s'.payload == s.payload && s'.timestamp == s.timestamp && s'.history == s.history
    ensures !s.online && !reconnected ==> PullSpec(s, command, keys, reconnected, response, now).0 == s
  {
  }

  /** Every pull that gets a link issues exactly one read request, with the
      monitor's command. */
  lemma PullRequests(s: DeviceState, command: Command, keys: seq<string>,
                     reconnected: bool, response: Option<seq<byte>>, now: int)
    ensures var (s', _) := PullSpec(s, command, keys, reconnected, response, now);
            s'.requests == if s.online || reconnected then s.requests + [command] else s.requests
  {
  }

  /** A fresh cache answers without device I/O; a stale or empty one pulls. */
  lemma LazyPullUsesCache(s: DeviceState, command: Command, keys: seq<string>,
                          reconnected: bool, response: Option<seq<byte>>, now: int)
    ensures Fresh(s, now) ==>
              LazyPullSpec(s, command, keys, reconnected, response, now) == (s, Success(s.payload))
    ensures !Fresh(s, now) ==>
              LazyPullSpec(s, command, keys, reconnected, response, now) ==
              PullSpec(s, command, keys, reconnected, response, now)
  {
  }

  /** Pulls keep every field's history spaced and at most 60 points long. */
  lemma PullKeepsBound(s: DeviceState, command: Command, keys: seq<string>,
                       reconnected: bool, response: Option<seq<byte>>, now: int)
    requires Bounded(s.history)
    ensures Bounded(LazyPullSpec(s, command, keys, reconnected, response, now).0.history)
  {
    if !Fresh(s, now) && (s.online || reconnected) && response.Some? && Decode(response.value).Success? {
      RecordBounded(s.history, Match(keys, Decode(response.value).value), now);
    }
  }

  class SerialMonitor {
    var sensor: Messages.Sensor
    const structure: Messages.SensorStructure
    /** `None` (null) for the older monitor, which feeds no prediction. */
    const prediction: PredictionMonitor?
    const command: Command
    const link: Connection

    var online: bool
    var requests: seq<Command>
    var payload: Option<seq<Float32>>
    var timestamp: Option<int>
    var history: map<string, map<int, Float32>>

    function State(): DeviceState
      reads this
    {
      DeviceState(online, requests, payload, timestamp, history)
    }

    ghost predicate Valid()
      reads this
    {
      Bounded(history)
    }

    constructor (sensor: Messages.Sensor, structure: Messages.SensorStructure, prediction: PredictionMonitor?, link: Connection)
      requires sensor.model in Commands
      ensures this.sensor == sensor && this.structure == structure && this.prediction == prediction
      ensures this.link == link && command == Commands[sensor.model]
      ensures State() == DeviceState(false, [], None, None, map[])
      ensures Valid()
    {
      this.sensor := sensor;
      this.structure := structure;
      this.prediction := prediction;
      this.link := link;
      command := Commands[sensor.model];
      online := false;
      requests := [];
      payload := None;
      timestamp := None;
      history := map[];
    }

    /** `last_values`: the matched latest readings, if any. */
    function LastValues(): (r: Option<map<string, Float32>>)
      reads this
      ensures r.Some? <==> payload.Some?
      ensures r.Some? ==> r.value == Match(structure.keys, payload.value)
    {
      if payload.None? then None else Some(Match(structure.keys, payload.value))
    }

    /** `record`: steps the history of every matched field, then removes the
        fields that are not among the matched readings. */
    method Record()
      requires payload.Some? && timestamp.Some? && Valid()
      modifies this
      ensures payload == old(payload) && timestamp == old(timestamp)
      ensures online == old(online) && requests == old(requests) && sensor == old(sensor)
      ensures history == RecordSpec(old(history), Match(structure.keys, payload.value), timestamp.value)
      ensures Valid()
    {
      var values := Match(structure.keys, payload.value);
      RecordBounded(history, values, timestamp.value);
      history := RecordHistory(history, values, timestamp.value);
    }

    /** `pull`, proved against `PullSpec`. */
    method Pull(reconnected: bool, response: Option<seq<byte>>, now: int)
      returns (r: Result<Option<seq<Float32>>, Exception>)
      requires Valid()
      modifies this
      ensures (State(), r) == PullSpec(old(State()), command, structure.keys, reconnected, response, now)
      ensures Valid() && sensor == old(sensor)
    {
      if !online {
        online := reconnected;
      }
      if !online {
        return Success(None);
      }
      requests := requests + [command];
      if response.None? {
        return Success(None);
      }
      var values := DecodeReadings(response.value);
      if values.Failure? {
        return Failure(values.error);
      }
      payload := Some(values.value);
      timestamp := Some(now);
      Record();
      r := Success(Some(values.value));
    }

    /** `lazy_pull`, proved against `LazyPullSpec`. */
    method LazyPull(reconnected: bool, response: Option<seq<byte>>, now: int)
      returns (r: Result<Option<seq<Float32>>, Exception>)
      requires Valid()
      modifies this
      ensures (State(), r) == LazyPullSpec(old(State()), command, structure.keys, reconnected, response, now)
      ensures Valid() && sensor == old(sensor)
    {
      if payload.None? || timestamp.None? {
        r := Pull(reconnected, response, now);
        return;
      }
      if now - timestamp.value >= 60 {
        r := Pull(reconnected, response, now);
        return;
      }
      r := Success(payload);
    }

    /** `report`: when the lazy pull gives readings, their matched map goes to
        the prediction monitor (if any), becomes the sensor's active-field
        flags, and is sent once inside a `SensorReport`; otherwise nothing
        is fed, flagged or sent. */
    method Report(reconnected: bool, response: Option<seq<byte>>, now: int)
      returns (r: Result<(), Exception>)
      requires Valid()
      modifies this, link, if prediction != null then {prediction.store} else {}
      ensures Valid()
      ensures var (s', pulled) := LazyPullSpec(old(State()), command, structure.keys, reconnected, response, now);
              && State() == s'
              && (pulled.Failure? ==> r == Failure(pulled.error))
              && (pulled.Success? ==> r == Success(()))
              && (pulled.Success? && pulled.value.Some? ==>
                    var fields := Match(structure.keys, pulled.value.value);
                    && sensor == old(sensor).(fields := map k | k in fields :: true)
                    && link.sent == old(link.sent) +
                         [Outgoing.Report(Messages.SensorReport(old(sensor).nodeId, old(sensor).id, old(sensor).model, fields, now))]
                    && (prediction != null ==>
                          prediction.store.serials == old(prediction.store.serials)[MinuteKey(now) := fields]))
              && (!(pulled.Success? && pulled.value.Some?) ==>
                    sensor == old(sensor) && link.sent == old(link.sent) &&
                    (prediction != null ==> prediction.store.serials == old(prediction.store.serials)))
    {
      var datas := LazyPull(reconnected, response, now);
      if datas.Failure? {
        return Failure(datas.error);
      }
      if datas.value.None? {
        return Success(());
      }
      var fields := Match(structure.keys, datas.value.value);
      if prediction != null {
        prediction.AppendSerial(fields, now);
      }
      sensor := sensor.(fields := map k | k in fields :: true);
      link.Send(Outgoing.Report(Messages.SensorReport(sensor.nodeId, sensor.id, sensor.model, fields, now)));
      r := Success(());
    }

    /** `report` as written: the readings reach the prediction store and the
        sensor's flags as in `Report`, but nothing can be sent. The `Report`
        wrapper is imported from a package that does not define it
        (ImportError); were it defined, `Client` has no `send` method
        (AttributeError). `wrapperDefined` says which of the two is met
        first. */
    method ReportAsWritten(reconnected: bool, response: Option<seq<byte>>, now: int, wrapperDefined: bool)
      returns (r: Result<(), Exception>)
      requires Valid()
      modifies this, if prediction != null then {prediction.store} else {}
      ensures Valid()
      ensures link.sent == old(link.sent)
      ensures var (s', pulled) := LazyPullSpec(old(State()), command, structure.keys, reconnected, response, now);
              && State() == s'
              && (pulled.Failure? ==> r == Failure(pulled.error))
              && (pulled.Success? && pulled.value.None? ==> r == Success(()))
              && (pulled.Success? && pulled.value.Some? ==>
                    var fields := Match(structure.keys, pulled.value.value);
                    && r == Failure(if wrapperDefined then AttributeError else ImportError)
                    && sensor == old(sensor).(fields := map k | k in fields :: true)
                    && (prediction != null ==>
                          prediction.store.serials == old(prediction.store.serials)[MinuteKey(now) := fields]))
              && (!(pulled.Success? && pulled.value.Some?) ==>
                    sensor == old(sensor) &&
                    (prediction != null ==> prediction.store.serials == old(prediction.store.serials)))
    {
      var datas := LazyPull(reconnected, response, now);
      if datas.Failure? {
        return Failure(datas.error);
      }
      if datas.value.None? {
        return Success(());
      }
      var fields := Match(structure.keys, datas.value.value);
      if prediction != null {
        prediction.AppendSerial(fields, now);
      }
      sensor := sensor.(fields := map k | k in fields :: true);
      r := Failure(if wrapperDefined then AttributeError else ImportError);
    }

    /** `connect`: whether the link came up is a parameter (a failed
        connect leaves it down). */
    method Connect(succeeded: bool)
      modifies this
      ensures online == succeeded
      ensures requests == old(requests) && payload == old(payload) && timestamp == old(timestamp)
      ensures history == old(history) && sensor == old(sensor)
    {
      online := succeeded;
    }

    /** `close`: the link goes down. */
    method Close()
      modifies this
      ensures !online
      ensures requests == old(requests) && payload == old(payload) && timestamp == old(timestamp)
      ensures history == old(history) && sensor == old(sensor)
    {
      online := false;
    }
  }
}

=== FILE: serialize.dfy ===
/** The message registry and wire envelope of client/abstract/serialize.py.

    A decorator derives each packet class's wire name, stores it in the
    class attribute `type` and records name -> class in a global table. The
    encoder tags every registered packet with a `"=="` member holding its wire
    name; the decoder's object hook, applied to every JSON object bottom-up,
    pops that tag and rebuilds the registered class from the remaining
    members. */
module Serialize {
  import opened Wrappers
  import opened JsonValues
  import opened Packets

  /** The namespace every derived wire name starts with. */
  const Namespace := "cn.edu.bistu.smartpond.packet.Packet"

  /** The key under which the encoder stores the wire name. */
  const Tag := "=="

  // ---------------------------------------------------------------------------
  // Wire names and the registry
  // ---------------------------------------------------------------------------

  /** The wire name the decorator gives `c`, or the exception it raises. */
  function WireName(c: ClassDesc): Result<string, Exception> {
    match c.serialName
    case SerialName(Some(n)) => Success(n)
    case SerialName(None) => Failure(ValueError)
    case NoSerialName =>
      if !c.IsPacket() then Failure(ValueError)
      else if c.kind.IncomingPacket? then Success(Namespace + "Out" + c.name)
      else if c.kind.OutgoingPacket? then Success(Namespace + "In" + c.name)
      else Failure(TypeError)
  }

  /** The rules of the name derivation, case by case. */
  lemma WireNameRules(c: ClassDesc)
    ensures c.serialName.SerialName? && c.serialName.name.Some? ==>
              WireName(c) == Success(c.serialName.name.value)
    ensures c.serialName == SerialName(None) ==> WireName(c) == Failure(ValueError)
    ensures c.serialName.NoSerialName? && c.kind.IncomingPacket? ==>
              WireName(c) == Success(Namespace + "Out" + c.name)
    ensures c.serialName.NoSerialName? && c.kind.OutgoingPacket? ==>
              WireName(c) == Success(Namespace + "In" + c.name)
    ensures c.serialName.NoSerialName? && c.kind.BarePacket? ==> WireName(c) == Failure(TypeError)
    ensures c.serialName.NoSerialName? && !c.IsPacket() ==> WireName(c) == Failure(ValueError)
  {
  }

  /** Derived names never collide across classes that differ in direction or
      in class name: the name determines both. */
  lemma DerivedNamesInjective(c1: ClassDesc, c2: ClassDesc)
    requires c1.serialName.NoSerialName? && c2.serialName.NoSerialName?
    requires WireName(c1).Success? && WireName(c2).Success?
    requires WireName(c1) == WireName(c2)
    ensures c1.kind == c2.kind && c1.name == c2.name
  {
    var n := WireName(c1).value;
    var p := |Namespace|;
    assert n[..p] == Namespace;
    assert n[p] == (if c1.kind.IncomingPacket? then 'O' else 'I');
    assert n[p] == (if c2.kind.IncomingPacket? then 'O' else 'I');
    var marker := if c1.kind.IncomingPacket? then "Out" else "In";
    assert n == Namespace + marker + c1.name;
    assert n == Namespace + marker + c2.name;
    assert c1.name == n[p + |marker|..];
    assert c2.name == n[p + |marker|..];
  }

  /** The global `registered` table and the `type` class attributes that the
      decorator `serializable` writes. */
  class Registry {
    /** wire name -> class */
    var registered: map<string, ClassDesc>
    /** class -> its `type` attribute */
    var typeAttr: map<ClassDesc, string>

    /** Every table entry and every `type` attribute is the wire name of its class. */
    ghost predicate Valid()
      reads this
    {
      && (forall n :: n in registered ==> WireName(registered[n]) == Success(n))
      && (forall c :: c in typeAttr ==> WireName(c) == Success(typeAttr[c]))
    }

    constructor ()
      ensures Valid() && registered == map[] && typeAttr == map[]
    {
      registered := map[];
      typeAttr := map[];
    }

    /** The decorator: on success sets `type`, maps the name to the class
        (replacing silently whatever class held that name) and returns the
        class unchanged; on failure raises and changes nothing. */
    method Serializable(c: ClassDesc) returns (r: Result<ClassDesc, Exception>)
      requires Valid()
      modifies this
      ensures Valid()
      ensures WireName(c).Failure? ==>
                r == Failure(WireName(c).error) && registered == old(registered) && typeAttr == old(typeAttr)
      ensures WireName(c).Success? ==>
                && r == Success(c)
                && registered == old(registered)[WireName(c).value := c]
                && typeAttr == old(typeAttr)[c := WireName(c).value]
    {
      var name := WireName(c);
      if name.Failure? {
        return Failure(name.error);
      }
      typeAttr := typeAttr[c := name.value];
      registered := registered[name.value := c];
      r := Success(c);
    }
  }

  // ---------------------------------------------------------------------------
  // Decoded values
  // ---------------------------------------------------------------------------

  /** A value built by `json.loads`: plain data, or an instance that the
      object hook rebuilt from a tagged object. */
  datatype Py =
    | PyNone
    | PyBool(b: bool)
    | PyInt(i: int)
    | PyFloat(r: real)
    | PyStr(s: string)
    | PyList(items: seq<Py>)
    | PyDict(entries: map<string, Py>)
    | PyObject(cls: ClassDesc, attrs: map<string, Py>)

  /** What `json.loads` builds without an object hook. */
  function Lift(j: Json): Py {
    match j
    case JNull => PyNone
    case JBool(b) => PyBool(b)
    case JInt(i) => PyInt(i)
    case JReal(r) => PyFloat(r)
    case JStr(s) => PyStr(s)
    case JArr(items) => PyList(seq(|items|, i requires 0 <= i < |items| => Lift(items[i])))
    case JObj(m) => PyDict(map k | k in m :: Lift(m[k]))
  }

  /** The JSON form of a plain value; `None` when an instance occurs in it. */
  function Plain(p: Py): Option<Json> {
    match p
    case PyNone => Some(JNull)
    case PyBool(b) => Some(JBool(b))
    case PyInt(i) => Some(JInt(i))
    case PyFloat(r) => Some(JReal(r))
    case PyStr(s) => Some(JStr(s))
    case PyList(items) =>
      if forall i :: 0 <= i < |items| ==> Plain(items[i]).Some? then
        Some(JArr(seq(|items|, i requires 0 <= i < |items| && Plain(items[i]).Some? => Plain(items[i]).value)))
      else None
    case PyDict(m) =>
      if forall k :: k in m ==> Plain(m[k]).Some? then
        Some(JObj(map k | k in m :: Plain(m[k]).value))
      else None
    case PyObject(_, _) => None
  }

  /** `to_json()` of a rebuilt instance: the JSON form of its attributes. */
  function ToJson(attrs: map<string, Py>): Option<map<string, Json>> {
    if forall k :: k in attrs ==> Plain(attrs[k]).Some? then
      Some(map k | k in attrs :: Plain(attrs[k]).value)
    else None
  }

  lemma {:induction false} PlainLift(j: Json)
    ensures Plain(Lift(j)) == Some(j)
  {
    match j
    case JArr(items) =>
      var lifted := Lift(j).items;
      forall i | 0 <= i < |items| ensures Plain(lifted[i]) == Some(items[i]) {
        PlainLift(items[i]);
      }
      assert seq(|lifted|, i requires 0 <= i < |lifted| && Plain(lifted[i]).Some? => Plain(lifted[i]).value) == items;
    case JObj(m) =>
      var lifted := Lift(j).entries;
      forall k | k in m ensures Plain(lifted[k]) == Some(m[k]) {
        PlainLift(m[k]);
      }
      var r := Plain(Lift(j));
      assert r.Some? && r.value.JObj?;
      assert r.value.members.Keys == m.Keys;
      assert forall k :: k in m ==> r.value.members[k] == m[k];
      assert r.value.members == m;
    case _ =>
  }

  /** The members of a JSON object as the decoder sees them. */
  function Lifted(packet: map<string, Json>): map<string, Py> {
    map k | k in packet :: Lift(packet[k])
  }

  /** The members of a JSON object decoded without a hook serialise back
      to the object. */
  lemma ToJsonLifted(packet: map<string, Json>)
    ensures ToJson(Lifted(packet)) == Some(packet)
  {
    var attrs := Lifted(packet);
    forall k | k in attrs ensures Plain(attrs[k]) == Some(packet[k]) {
      PlainLift(packet[k]);
    }
    var j := ToJson(attrs).value;
    assert j.Keys == packet.Keys;
    assert j == packet;
  }

  /** Decoding a JSON object and serialising its attributes again gives the
      object back, less its tag. */
  lemma LiftedRoundTrip(packet: map<string, Json>)
    ensures ToJson(Lifted(packet) - {Tag}) == Some(packet - {Tag})
  {
    ToJsonLifted(packet - {Tag});
    assert Lifted(packet) - {Tag} == Lifted(packet - {Tag});
  }

  /** No object anywhere inside `j` has a `"=="` member. */
  predicate TagFree(j: Json) {
    match j
    case JArr(items) => forall i :: 0 <= i < |items| ==> TagFree(items[i])
    case JObj(m) => Tag !in m && forall k :: k in m ==> TagFree(m[k])
    case _ => true
  }

  // ---------------------------------------------------------------------------
  // Encoding
  // ---------------------------------------------------------------------------

  /** `PacketEncoder.default`: a registered packet becomes its `to_json()`
      plus the `"=="` member; any other JSON object class its untagged
      `to_json()`; anything else raises the base encoder's TypeError. */
  function Default(o: Instance, typeAttr: map<ClassDesc, string>): (r: Result<Json, Exception>)
    ensures r.Success? <==> o.cls.IsJsonObject()
    ensures r.Failure? ==> r.error == TypeError
    ensures r.Success? ==> r.value.JObj? && r.value.members - {Tag} == o.fields - {Tag}
    ensures r.Success? ==> (Tag in r.value.members <==> (o.cls.IsPacket() && o.cls in typeAttr) || Tag in o.fields)
    ensures o.cls.IsPacket() && o.cls in typeAttr ==> r.Success? && r.value.members[Tag] == JStr(typeAttr[o.cls])
    ensures !(o.cls.IsPacket() && o.cls in typeAttr) && r.Success? ==> r.value.members == o.fields
  {
    if o.cls.IsPacket() && o.cls in typeAttr then
      Success(JObj(o.fields[Tag := JStr(typeAttr[o.cls])]))
    else if o.cls.IsJsonObject() then
      Success(JObj(o.fields))
    else
      Failure(TypeError)
  }

  /** `serialize(packet)`, up to the JSON text: the tree `json.dumps` prints. */
  function Serialize(p: Instance, typeAttr: map<ClassDesc, string>): Result<Json, Exception> {
    Default(p, typeAttr)
  }

  /** `str(packet)` is exactly `serialize(packet)`. The `__str__` method
      promises nothing but this delegation, so the contract states it. */
  function Str(p: Instance, typeAttr: map<ClassDesc, string>): (r: Result<Json, Exception>)
    ensures r == Serialize(p, typeAttr)
  {
    Serialize(p, typeAttr)
  }

  /** `packet.context` is what the envelope carries besides the tag. */
  lemma ContextIsEnvelopeWithoutTag(p: Instance, typeAttr: map<ClassDesc, string>)
    requires p.cls.IsPacket() && p.cls in typeAttr && Tag !in p.fields
    ensures Serialize(p, typeAttr).Success? && Serialize(p, typeAttr).value.JObj?
    ensures Serialize(p, typeAttr).value.members - {Tag} == p.fields
    ensures Serialize(p, typeAttr).value.members[Tag] == JStr(typeAttr[p.cls])
  {
    var e := Serialize(p, typeAttr).value.members;
    assert e == p.fields[Tag := JStr(typeAttr[p.cls])];
    assert e - {Tag} == p.fields;
  }

  // ---------------------------------------------------------------------------
  // Decoding
  // ---------------------------------------------------------------------------

  /** `c(arg)` for a JSON object class `c`, with `arg` what the decoder
      hands over. jsonobject's own constructor wraps a dict, takes `None` as
      an empty object and rejects anything else (its BadValueError, here
      ValueError). A constructor of the class's own with one parameter hands
      `arg` on to its string member, which takes only a string or `None`;
      with any other number of parameters the call itself raises
      TypeError. */
  function Construct(c: ClassDesc, arg: Py): Result<Py, Exception> {
    match c.init
    case MemberInit =>
      if arg.PyDict? then Success(PyObject(c, arg.entries))
      else if arg.PyNone? then Success(PyObject(c, map[]))
      else Failure(ValueError)
    case PositionalInit(ms) =>
      if |ms| != 1 then Failure(TypeError)
      else if arg.PyStr? || arg.PyNone? then Success(PyObject(c, map[ms[0] := arg]))
      else Failure(ValueError)
  }

  /** The exception a positional constructor of its own raises when handed
      a member dict. */
  function PositionalError(c: ClassDesc): Exception
    requires c.init.PositionalInit?
  {
    if |c.init.members| == 1 then ValueError else TypeError
  }

  /** The object hook `from_dict`, applied to an object whose members are
      already decoded: pop `"=="`; with no tag, a `None` tag or a name that is
      not registered, give back the rest of the object; with a registered
      name, call that class on the rest: `target(values)` for a JSON object
      class, `target(**values)` (modelled as taking every member) for any
      other. A list or dict as tag makes the `not in registered` test raise
      TypeError (unhashable). */
  function FromDict(values: map<string, Py>, reg: map<string, ClassDesc>): Result<Py, Exception> {
    if Tag !in values then Success(PyDict(values))
    else
      var rest := values - {Tag};
      match values[Tag]
      case PyStr(n) =>
        if n !in reg then Success(PyDict(rest))
        else if reg[n].IsJsonObject() then Construct(reg[n], PyDict(rest))
        else Success(PyObject(reg[n], rest))
      case PyList(_) => Failure(TypeError)
      case PyDict(_) => Failure(TypeError)
      case _ => Success(PyDict(rest))
  }

  /** The position of the first `true` in `s`. */
  function {:induction false} FirstTrue(s: seq<bool>): (r: nat)
    requires true in s
    ensures r < |s| && s[r] && forall i :: 0 <= i < r ==> !s[i]
  {
    if s[0] then 0 else 1 + FirstTrue(s[1..])
  }

  /** `json.loads(content, object_hook=from_dict)`: every object is passed
      to the hook after its members have been decoded, so an exception
      raised while decoding a member (a hook call further down) propagates
      unchanged. In an array the first failing item raises; the members of
      an object are decoded in text order, which the tree does not keep, so
      the error is that of one failing member, left unspecified. */
  ghost function Decode(j: Json, reg: map<string, ClassDesc>): Result<Py, Exception> {
    match j
    case JArr(items) =>
      if exists i :: 0 <= i < |items| && Decode(items[i], reg).Failure? then
        var i :| 0 <= i < |items| && Decode(items[i], reg).Failure?;
        var failed := seq(|items|, h requires 0 <= h < |items| => Decode(items[h], reg).Failure?);
        assert failed[i];
        Decode(items[FirstTrue(failed)], reg)
      else Success(PyList(seq(|items|, i requires 0 <= i < |items| && Decode(items[i], reg).Success? =>
                                          Decode(items[i], reg).value)))
    case JObj(m) =>
      if exists k :: k in m && Decode(m[k], reg).Failure? then
        var k :| k in m && Decode(m[k], reg).Failure?;
        Decode(m[k], reg)
      else FromDict(map k | k in m :: Decode(m[k], reg).value, reg)
    case _ => Success(Lift(j))
  }

  /** An array fails exactly when one of its items does, and then with the
      error of the first failing item. */
  lemma FirstFailingItem(items: seq<Json>, reg: map<string, ClassDesc>, i: nat)
    requires i < |items| && Decode(items[i], reg).Failure?
    requires forall h :: 0 <= h < i ==> Decode(items[h], reg).Success?
    ensures Decode(JArr(items), reg) == Decode(items[i], reg)
  {
    var failed := seq(|items|, h requires 0 <= h < |items| => Decode(items[h], reg).Failure?);
    assert failed[i];
    var first := FirstTrue(failed);
    assert first == i;
  }

  /** An object fails exactly when one of its members does, and then with
      the error of a failing member; when every failing member raises the
      same exception, that is the error. */
  lemma FailingMember(m: map<string, Json>, reg: map<string, ClassDesc>, e: Exception)
    requires exists k :: k in m && Decode(m[k], reg).Failure?
    requires forall k :: k in m && Decode(m[k], reg).Failure? ==> Decode(m[k], reg).error == e
    ensures Decode(JObj(m), reg) == Failure(e)
  {
    var k :| k in m && Decode(m[k], reg).Failure?;
    assert Decode(JObj(m), reg).Failure?;
  }

  /** A member that raises makes the enclosing object raise the same
      exception when it is the only failing member: a registered class with
      a positional constructor nested under `key` raises its own error, not
      one of the outer object. */
  lemma NestedPositionalRaises(key: string, n: string, reg: map<string, ClassDesc>)
    requires n in reg && reg[n].IsJsonObject() && reg[n].init.PositionalInit?
    ensures Decode(JObj(map[Tag := JStr(n)]), reg) == Failure(PositionalError(reg[n]))
    ensures Decode(JObj(map[key := JObj(map[Tag := JStr(n)])]), reg) == Failure(PositionalError(reg[n]))
    ensures Decode(JArr([JObj(map[Tag := JStr(n)])]), reg) == Failure(PositionalError(reg[n]))
  {
    var inner := map[Tag := JStr(n)];
    assert Decode(inner[Tag], reg) == Success(PyStr(n));
    var values := DecodeObject(inner, reg);
    assert values == map[Tag := PyStr(n)];
    assert Decode(JObj(inner), reg) == Failure(PositionalError(reg[n]));
    assert map[key := JObj(inner)][key] == JObj(inner);
    FailingMember(map[key := JObj(inner)], reg, PositionalError(reg[n]));
    FirstFailingItem([JObj(inner)], reg, 0);
  }

  /** An object whose members all decode is handed to the hook with the
      decoded members. */
  lemma DecodeObject(m: map<string, Json>, reg: map<string, ClassDesc>) returns (values: map<string, Py>)
    requires forall k :: k in m ==> Decode(m[k], reg).Success?
    ensures values == (map k | k in m :: Decode(m[k], reg).value)
    ensures Decode(JObj(m), reg) == FromDict(values, reg)
  {
    assert !exists k :: k in m && Decode(m[k], reg).Failure?;
    values := map k | k in m :: Decode(m[k], reg).value;
  }

  /** An object tagged with a registered class that takes the member dict,
      whose other members all decode, becomes that class with the decoded
      members. */
  lemma DecodeTagged(m: map<string, Json>, n: string, reg: map<string, ClassDesc>)
    requires Tag !in m && n in reg && reg[n].IsJsonObject() && reg[n].init.MemberInit?
    requires forall k :: k in m ==> Decode(m[k], reg).Success?
    ensures Decode(JObj(m[Tag := JStr(n)]), reg) ==
            Success(PyObject(reg[n], map k | k in m :: Decode(m[k], reg).value))
  {
    var t := m[Tag := JStr(n)];
    var values := DecodeObject(t, reg);
    assert values[Tag] == PyStr(n);
    assert values - {Tag} == map k | k in m :: Decode(m[k], reg).value;
  }

  /** The hook never fails on a missing tag: the object comes back unchanged. */
  lemma UntaggedPassesThrough(values: map<string, Py>, reg: map<string, ClassDesc>)
    requires Tag !in values
    ensures FromDict(values, reg) == Success(PyDict(values))
  {
  }

  /** The hook never fails on an unknown name: the tag is stripped and the
      object passes through. */
  lemma UnknownTagStripped(values: map<string, Py>, reg: map<string, ClassDesc>)
    requires Tag in values && values[Tag].PyStr? && values[Tag].s !in reg
    ensures FromDict(values, reg) == Success(PyDict(values - {Tag}))
    ensures Tag !in FromDict(values, reg).value.entries
  {
  }

  /** A registered name rebuilds its class from the remaining members when
      the class takes them (jsonobject's own constructor, or a class that is
      no JSON object); a positional constructor of the class's own cannot
      take the member dict and raises. */
  lemma RegisteredTagRebuilds(values: map<string, Py>, reg: map<string, ClassDesc>)
    requires Tag in values && values[Tag].PyStr? && values[Tag].s in reg
    ensures var c := reg[values[Tag].s];
            c.init.MemberInit? || !c.IsJsonObject() ==> FromDict(values, reg) == Success(PyObject(c, values - {Tag}))
    ensures var c := reg[values[Tag].s];
            c.init.PositionalInit? && c.IsJsonObject() ==> FromDict(values, reg) == Failure(PositionalError(c))
  {
  }

  /** Objects without tags decode to themselves. */
  lemma {:induction false} DecodeTagFree(j: Json, reg: map<string, ClassDesc>)
    requires TagFree(j)
    ensures Decode(j, reg) == Success(Lift(j))
  {
    match j
    case JArr(items) =>
      forall i | 0 <= i < |items| ensures Decode(items[i], reg) == Success(Lift(items[i])) {
        DecodeTagFree(items[i], reg);
      }
      assert !exists i :: 0 <= i < |items| && Decode(items[i], reg).Failure?;
      var decoded := seq(|items|, i requires 0 <= i < |items| && Decode(items[i], reg).Success? =>
                                   Decode(items[i], reg).value);
      assert Decode(j, reg) == Success(PyList(decoded));
      assert decoded == Lift(j).items;
    case JObj(m) =>
      forall k | k in m ensures Decode(m[k], reg) == Success(Lift(m[k])) {
        DecodeTagFree(m[k], reg);
      }
      assert !exists k :: k in m && Decode(m[k], reg).Failure?;
      var values := map k | k in m :: Decode(m[k], reg).value;
      assert Decode(j, reg) == FromDict(values, reg);
      assert Tag !in values;
      var lifted := Lift(j).entries;
      assert values.Keys == lifted.Keys;
      assert forall k :: k in values ==> values[k] == lifted[k];
      assert values == lifted;
    case _ =>
  }

  /** Round trip: a registered packet whose fields carry no tags of their own
      decodes to an instance of the same class with equal `to_json()` when
      its class takes the member dict; a class with a positional constructor
      of its own cannot be rebuilt from its envelope. */
  lemma RoundTrip(p: Instance, reg: map<string, ClassDesc>, typeAttr: map<ClassDesc, string>)
    requires p.cls.IsPacket() && p.cls in typeAttr
    requires typeAttr[p.cls] in reg && reg[typeAttr[p.cls]] == p.cls
    requires TagFree(JObj(p.fields))
    ensures Serialize(p, typeAttr).Success?
    ensures var d := Decode(Serialize(p, typeAttr).value, reg);
            p.cls.init.MemberInit? ==>
              d.Success? && d.value.PyObject? && d.value.cls == p.cls && ToJson(d.value.attrs) == Some(p.fields)
    ensures p.cls.init.PositionalInit? ==>
              Decode(Serialize(p, typeAttr).value, reg) == Failure(PositionalError(p.cls))
  {
    var name := typeAttr[p.cls];
    var m := p.fields[Tag := JStr(name)];
    assert Serialize(p, typeAttr) == Success(JObj(m));
    var values := DecodeEnvelope(p.fields, name, reg);
    var rest := values - {Tag};
    assert Decode(JObj(m), reg) == Construct(p.cls, PyDict(rest));
    if p.cls.init.PositionalInit? {
      return;
    }
    forall k | k in rest ensures Plain(rest[k]) == Some(p.fields[k]) {
      PlainLift(p.fields[k]);
    }
    var t := ToJson(rest);
    assert t.Some?;
    assert t.value.Keys == p.fields.Keys;
    assert forall k :: k in p.fields ==> t.value[k] == p.fields[k];
    assert t.value == p.fields;
  }

  /** Decoding the members of an envelope whose fields carry no tags: each
      member comes back as `json.loads` would build it without a hook. */
  lemma DecodeEnvelope(fields: map<string, Json>, name: string, reg: map<string, ClassDesc>)
    returns (values: map<string, Py>)
    requires TagFree(JObj(fields))
    ensures var m := fields[Tag := JStr(name)];
            && (forall k :: k in m ==> Decode(m[k], reg).Success?)
            && values == (map k | k in m :: Decode(m[k], reg).value)
            && Decode(JObj(m), reg) == FromDict(values, reg)
    ensures values.Keys == fields.Keys + {Tag} && values[Tag] == PyStr(name)
    ensures forall k :: k in fields ==> values[k] == Lift(fields[k])
  {
    var m := fields[Tag := JStr(name)];
    forall k | k in m ensures Decode(m[k], reg) == Success(Lift(m[k])) {
      if k != Tag {
        DecodeTagFree(m[k], reg);
      }
    }
    assert !exists k :: k in m && Decode(m[k], reg).Failure?;
    values := map k | k in m :: Decode(m[k], reg).value;
  }

  /** Because registration overwrites silently, a packet whose name was later
      taken by another class decodes as that other class. */
  lemma OverwrittenNameDecodesAsOther(p: Instance, other: ClassDesc, reg: map<string, ClassDesc>,
                                      typeAttr: map<ClassDesc, string>)
    requires p.cls.IsPacket() && p.cls in typeAttr
    requires typeAttr[p.cls] in reg && reg[typeAttr[p.cls]] == other && other != p.cls
    requires TagFree(JObj(p.fields))
    ensures var d := Decode(Serialize(p, typeAttr).value, reg);
            d.Success? ==> d.value.PyObject? && d.value.cls == other
    ensures other.init.MemberInit? || !other.IsJsonObject() ==> Decode(Serialize(p, typeAttr).value, reg).Success?
  {
    var values := DecodeEnvelope(p.fields, typeAttr[p.cls], reg);
  }

  /** `deserialize(content, clazz)`: with no class, the hooked decode; with a
      JSON object class, that class called on the parsed value; with any
      other class, `None`. `j` is the JSON tree of `content`. */
  ghost function Deserialize(j: Json, clazz: Option<ClassDesc>, reg: map<string, ClassDesc>): Result<Py, Exception> {
    match clazz
    case None => Decode(j, reg)
    case Some(c) => if c.IsJsonObject() then Construct(c, Lift(j)) else Success(PyNone)
  }

  /** With a target class no tag is processed: a class taking the member
      dict keeps every member of the parsed object, `"=="` included, and
      rejects a parsed value that is neither an object nor null; a class
      that is no JSON object gives `None`; without a class the result is
      the hooked decode. */
  lemma DeserializeIntoClass(j: Json, c: ClassDesc, reg: map<string, ClassDesc>)
    ensures Deserialize(j, None, reg) == Decode(j, reg)
    ensures !c.IsJsonObject() ==> Deserialize(j, Some(c), reg) == Success(PyNone)
    ensures c.IsJsonObject() && c.init.MemberInit? && j.JObj? ==>
              var r := Deserialize(j, Some(c), reg);
              r.Success? && r.value.PyObject? && r.value.cls == c && ToJson(r.value.attrs) == Some(j.members)
    ensures c.IsJsonObject() && c.init.MemberInit? && !j.JObj? && !j.JNull? ==>
              Deserialize(j, Some(c), reg) == Failure(ValueError)
  {
    if j.JObj? {
      assert Lift(j).entries == Lifted(j.members);
      ToJsonLifted(j.members);
    }
  }
}

=== FILE: session.dfy ===
/** `LiveServerSession.request` of client/network/session.py: the URL a
    request goes to, and what is forwarded to the HTTP session. Sending the
    request is not modelled; the forwarded call is returned instead. */
module Sessions {
  import opened Wrappers
  import opened JsonValues

  const Slash := '/'

  /** `s.rstrip('/')`. */
  function RStrip(s: string): (r: string)
    ensures |r| <= |s| && r == s[..|r|]
    ensures r == [] || r[|r| - 1] != Slash
    ensures forall i :: |r| <= i < |s| ==> s[i] == Slash
  {
    if s != [] && s[|s| - 1] == Slash then RStrip(s[..|s| - 1]) else s
  }

  /** `s.lstrip('/')`. */
  function LStrip(s: string): (r: string)
    ensures |r| <= |s| && r == s[|s| - |r|..]
    ensures r == [] || r[0] != Slash
    ensures forall i :: 0 <= i < |s| - |r| ==> s[i] == Slash
  {
    if s != [] && s[0] == Slash then LStrip(s[1..]) else s
  }

  /** `'/'.join([base.rstrip('/'), url.lstrip('/')])`. */
  function Join(base: string, url: string): string {
    RStrip(base) + [Slash] + LStrip(url)
  }

  /** The join contributes exactly one slash: the base stripped of its
      trailing slashes, then a single slash with no slash on either side of
      it, then the path stripped of its leading slashes. */
  lemma JoinOneSlash(base: string, url: string)
    ensures var j := Join(base, url);
            var p := |RStrip(base)|;
            && p < |j| && j[p] == Slash
            && (p == 0 || j[p - 1] != Slash)
            && (p + 1 == |j| || j[p + 1] != Slash)
            && j[..p] == RStrip(base) && j[p + 1..] == LStrip(url)
  {
    var b := RStrip(base);
    var u := LStrip(url);
    var j := b + [Slash] + u;
    assert j == Join(base, url);
    assert j[..|b|] == b;
    assert j[|b| + 1..] == u;
  }

  /** Slashes at the seam do not matter. */
  lemma {:induction false} JoinIgnoresSeamSlashes(base: string, url: string)
    ensures Join(base + [Slash], url) == Join(base, url)
    ensures Join(base, [Slash] + url) == Join(base, url)
  {
    assert (base + [Slash])[..|base + [Slash]| - 1] == base;
    assert ([Slash] + url)[1..] == url;
  }

  /** The call handed on to `Session.request`. */
  datatype Forwarded = Forwarded(verb: string, url: string, args: seq<Json>, kwargs: map<string, Json>)

  const AbsoluteKey := "absolute"

  /** `request(verb, url, *args, **kwargs)` with `base_url` as set by the
      constructor (`None` by default). `absolute` is popped from the keyword
      arguments with default False; unless it is truthy the URL is joined to
      the base, and a missing base raises AttributeError. */
  function Request(base: Option<string>, verb: string, url: string, args: seq<Json>, kwargs: map<string, Json>):
    (r: Result<Forwarded, Exception>)
    ensures r.Success? ==> r.value.verb == verb && r.value.args == args && r.value.kwargs == kwargs - {AbsoluteKey}
    ensures r.Success? ==> AbsoluteKey !in r.value.kwargs &&
                           forall k :: k in kwargs && k != AbsoluteKey ==> k in r.value.kwargs && r.value.kwargs[k] == kwargs[k]
  {
    var absolute := AbsoluteKey in kwargs && Truthy(kwargs[AbsoluteKey]);
    var rest := kwargs - {AbsoluteKey};
    if absolute then Success(Forwarded(verb, url, args, rest))
    else if base.None? then Failure(AttributeError)
    else Success(Forwarded(verb, Join(base.value, url), args, rest))
  }

  /** The URL: untouched when `absolute` is truthy, the join otherwise; a
      request fails only when it needs a base and has none. */
  lemma RequestUrl(base: Option<string>, verb: string, url: string, args: seq<Json>, kwargs: map<string, Json>)
    ensures var absolute := AbsoluteKey in kwargs && Truthy(kwargs[AbsoluteKey]);
            var r := Request(base, verb, url, args, kwargs);
            && (absolute ==> r.Success? && r.value.url == url)
            && (!absolute && base.Some? ==> r.Success? && r.value.url == Join(base.value, url))
            && (r.Failure? <==> !absolute && base.None?)
            && (r.Failure? ==> r.error == AttributeError)
  {
  }
}

=== FILE: singleton.dfy ===
/** The `Singleton` metaclass of client/abstract/meta.py: calling a class
    constructs its instance on the first call and returns that same object
    on every later call. The cache is one dictionary shared by every class
    made with the metaclass, keyed by class. */
module Singletons {
  import opened JsonValues

  /** An instance, recording the class it was made for and the arguments
      its constructor ran with. */
  class Instance {
    const cls: string
    const args: seq<Json>

    constructor (cls: string, args: seq<Json>)
      ensures this.cls == cls && this.args == args
    {
      this.cls := cls;
      this.args := args;
    }
  }

  /** The metaclass's `_instances`, with the log of constructor runs. */
  class Singleton {
    var instances: map<string, Instance>
    ghost var constructed: seq<string>

    /** Each cached instance belongs to its key's class, and the constructor
        ran exactly once for each cached class and for no other. */
    ghost predicate Valid()
      reads this, set c | c in instances :: instances[c]
    {
      && (forall c :: c in instances ==> instances[c].cls == c)
      && (forall i, j :: 0 <= i < j < |constructed| ==> constructed[i] != constructed[j])
      && (forall c :: c in instances <==> c in constructed)
    }

    constructor ()
      ensures Valid() && instances == map[] && constructed == []
    {
      instances := map[];
      constructed := [];
    }

    /** `cls(*args)`: the first call for `cls` constructs and caches the
        instance; later calls ignore `args` and return the cached object. */
    method Call(cls: string, args: seq<Json>) returns (o: Instance)
      requires Valid()
      modifies this
      ensures Valid()
      ensures o.cls == cls && cls in instances && instances[cls] == o
      ensures cls in old(instances) ==> o == old(instances[cls]) && instances == old(instances) && constructed == old(constructed)
      ensures cls !in old(instances) ==> fresh(o) && o.args == args && instances == old(instances)[cls := o] &&
                                         constructed == old(constructed) + [cls]
    {
      if cls !in instances {
        var made := new Instance(cls, args);
        instances := instances[cls := made];
        constructed := constructed + [cls];
      }
      o := instances[cls];
    }
  }

  /** Distinct classes never share an instance. */
  lemma DistinctClassesDistinctInstances(s: Singleton, a: string, b: string)
    requires s.Valid() && a in s.instances && b in s.instances && a != b
    ensures s.instances[a] != s.instances[b]
  {
  }

  /** Two calls for the same class give the same object, and the constructor
      runs at most once; calls for two classes give two objects. */
  method CallTwice(s: Singleton, c: string, d: string, first: seq<Json>, second: seq<Json>)
    returns (x: Instance, y: Instance, z: Instance)
    requires s.Valid()
    modifies s
    ensures x == y && z.cls == d && (c != d ==> x != z)
    ensures |s.constructed| <= |old(s.constructed)| + (if c == d then 1 else 2)
    ensures c !in old(s.instances) ==> x.args == first
  {
    x := s.Call(c, first);
    y := s.Call(c, second);
    z := s.Call(d, second);
  }
}

=== FILE: supervisor.dfy ===
/** The monitor supervisor of client/network/monitors.py: a thread that
    keeps a name-keyed map of monitors (the weather monitor first), runs a
    report pass on a heartbeat counter, registers serial sensors together
    with their prediction monitors, and closes every monitor when it stops;
    and the `Monitors` facade that launches and stops that thread.

    The thread loop is driven by the caller: one `Step` is one turn of the
    loop. A pass is returned as the list of monitor names to report, in map
    order; the caller performs the reports (each with the device I/O of that
    moment). A future is resolved when the supervisor call completes. */
module Supervisors {
  import opened Wrappers
  import opened Counters
  import opened Outbox
  import opened GatedMonitors
  import opened SerialMonitors
  import Messages

  /** The heartbeat counter starts here ... */
  const Start := 50
  /** ... and a pass runs when it reaches this value. */
  const Threshold := 60

  const WeatherKey := "weather"

  /** The key of a sensor's prediction monitor. */
  function PredictionKey(name: string): (k: string)
    ensures |k| == |name| + 12 && k[|k| - 1] == ']' && k[..|name|] == name
  {
    name + "[prediction]"
  }

  /** What the map holds. */
  datatype Entry =
    | WeatherEntry
    | SerialEntry(monitor: SerialMonitor)
    | PredictionEntry(prediction: PredictionMonitor)

  /** `is_online`: always for the weather and prediction monitors; the link
      state for a serial monitor. */
  function IsOnline(e: Entry): bool
    reads if e.SerialEntry? then {e.monitor} else {}
  {
    match e
    case SerialEntry(m) => m.online
    case _ => true
  }

  predicate Distinct(order: seq<string>) {
    forall i, j :: 0 <= i < j < |order| ==> order[i] != order[j]
  }

  /** A dictionary's key order after `d[k] = v`: a new key goes last, an
      existing key keeps its place. */
  function Insert(order: seq<string>, k: string): (r: seq<string>)
    ensures forall x :: x in r <==> x in order || x == k
    ensures Distinct(order) ==> Distinct(r)
    ensures |order| <= |r| && r[..|order|] == order
    ensures k in order <==> r == order
  {
    if k in order then order else order + [k]
  }

  /** The passes: the first on the 10th heartbeat, then one every 60th. */
  lemma PassSchedule(n: nat)
    requires n >= 1
    ensures FiresOn(Start, Threshold, n) <==> n >= 10 && (n - 10) % 60 == 0
  {
    FiringSchedule(Start, Threshold, n);
  }

  /** A new serial monitor fed to a new prediction monitor, after `connect`
      (whose failure leaves the link down). */
  method Connected(sensor: Messages.Sensor, structure: Messages.SensorStructure, connected: bool,
                   store: PredictionStore, link: Connection)
    returns (m: SerialMonitor)
    requires sensor.model in Commands
    ensures fresh(m) && m.prediction != null && fresh(m.prediction) && m.Valid()
    ensures m.sensor == sensor && m.structure == structure && m.online == connected
    ensures m.prediction.store == store && m.link == link
  {
    var prediction := new PredictionMonitor(store);
    m := new SerialMonitor(sensor, structure, prediction, link);
    m.Connect(connected);
  }

  /** `MonitorThread`. */
  class Supervisor {
    const weather: WeatherMonitor
    const store: PredictionStore
    const link: Connection

    /** The dictionary `monitors`: its key order and its entries. */
    var order: seq<string>
    var monitors: map<string, Entry>
    var count: int
    /** `is_alive()`, the stop sign, and whether `stopped` is resolved. */
    var alive: bool
    var stopSign: bool
    var stopped: bool

    /** The serial monitors in the map. */
    function Serials(): set<SerialMonitor>
      reads this
    {
      set k | k in monitors && monitors[k].SerialEntry? :: monitors[k].monitor
    }

    ghost predicate Valid()
      reads this
    {
      && Distinct(order)
      && (forall k :: k in order <==> k in monitors)
      && |order| > 0 && order[0] == WeatherKey
      && WeatherKey in monitors && monitors[WeatherKey] == WeatherEntry
      && 0 <= count < Threshold
    }

    /** A new thread holds only the weather monitor, under `'weather'`, and
        has not started. */
    constructor (registry: WeatherRegistry, store: PredictionStore, link: Connection)
      ensures Valid() && fresh(weather)
      ensures weather.registry == registry && weather.link == link
      ensures this.store == store && this.link == link
      ensures order == [WeatherKey] && monitors == map[WeatherKey := WeatherEntry]
      ensures count == Start && !alive && !stopSign && !stopped
    {
      weather := new WeatherMonitor(registry, link);
      this.store := store;
      this.link := link;
      order := [WeatherKey];
      monitors := map[WeatherKey := WeatherEntry];
      count := Start;
      alive := false;
      stopSign := false;
      stopped := false;
    }

    /** `start()`. */
    method Launch()
      modifies this
      ensures alive
      ensures order == old(order) && monitors == old(monitors) && count == old(count)
      ensures stopSign == old(stopSign) && stopped == old(stopped)
    {
      alive := true;
    }

    /** One heartbeat: counts it and, when the counter reaches 60, resets it
        and gives back the names to report, in map order. */
    method Heartbeat() returns (schedule: seq<string>)
      requires Valid()
      modifies this
      ensures Valid()
      ensures count == Next(old(count), Threshold)
      ensures Fires(old(count), Threshold) ==> schedule == order
      ensures !Fires(old(count), Threshold) ==> schedule == []
      ensures order == old(order) && monitors == old(monitors)
      ensures alive == old(alive) && stopSign == old(stopSign) && stopped == old(stopped)
    {
      count := count + 1;
      if count < Threshold {
        return [];
      }
      count := 0;
      schedule := order;
    }

    /** After the loop: every monitor is closed (the weather and prediction
        monitors' `close` does nothing), then `stopped` resolves. */
    method Teardown()
      requires Valid()
      modifies this, Serials()
      ensures Valid()
      ensures forall m :: m in Serials() ==> !m.online
      ensures forall m :: m in old(Serials()) ==> m.history == old(m.history)
      ensures stopped && !alive
      ensures order == old(order) && monitors == old(monitors) && count == old(count)
      ensures stopSign == old(stopSign)
    {
      var i := 0;
      while i < |order|
        invariant 0 <= i <= |order|
        invariant order == old(order) && monitors == old(monitors) && count == old(count)
        invariant alive == old(alive) && stopSign == old(stopSign) && stopped == old(stopped)
        invariant Valid()
        invariant forall j :: 0 <= j < i && monitors[order[j]].SerialEntry? ==> !monitors[order[j]].monitor.online
        invariant forall m :: m in old(Serials()) ==> m.history == old(m.history)
        decreases |order| - i
      {
        match monitors[order[i]] {
          case SerialEntry(m) => m.Close();
          case _ =>
        }
        i := i + 1;
      }
      forall m | m in Serials() ensures !m.online {
        var k :| k in monitors && monitors[k].SerialEntry? && monitors[k].monitor == m;
        var j :| 0 <= j < |order| && order[j] == k;
      }
      stopped := true;
      alive := false;
    }

    /** One turn of the thread loop: with the stop sign set the loop exits
        and tears down; otherwise it is a heartbeat. */
    method Step() returns (schedule: seq<string>)
      requires Valid() && alive
      modifies this, Serials()
      ensures Valid()
      ensures old(stopSign) ==> schedule == [] && stopped && !alive && count == old(count) &&
                                forall m :: m in Serials() ==> !m.online
      ensures !old(stopSign) ==> count == Next(old(count), Threshold) && alive &&
                                 schedule == (if Fires(old(count), Threshold) then order else [])
      ensures order == old(order) && monitors == old(monitors)
    {
      if stopSign {
        Teardown();
        return [];
      }
      schedule := Heartbeat();
    }

    /** `end()`: sets the stop sign and waits for the teardown. */
    method End()
      requires Valid() && alive
      modifies this, Serials()
      ensures Valid()
      ensures stopSign && stopped && !alive
      ensures forall m :: m in Serials() ==> !m.online
      ensures order == old(order) && monitors == old(monitors)
    {
      stopSign := true;
      Teardown();
    }

    /** `monitors[key] = e` on a key other than `'weather'`. */
    method Put(key: string, e: Entry)
      requires Valid() && key != WeatherKey
      modifies this
      ensures Valid()
      ensures monitors == old(monitors)[key := e] && order == Insert(old(order), key)
      ensures count == old(count) && alive == old(alive) && stopSign == old(stopSign) && stopped == old(stopped)
    {
      monitors := monitors[key := e];
      order := Insert(order, key);
    }

    /** The part of `__monitor` past the reuse check: a new serial monitor
        with its own prediction monitor, connected or not, stored under the
        sensor's name and under the prediction key, and the prediction
        registered with the weather monitor. */
    method Add(sensor: Messages.Sensor, structure: Messages.SensorStructure, connected: bool)
      returns (m: SerialMonitor)
      requires Valid() && sensor.model in Commands
      requires !(sensor.name in monitors && IsOnline(monitors[sensor.name]))
      modifies this, weather.registry
      ensures Valid()
      ensures count == old(count) && alive == old(alive) && stopSign == old(stopSign) && stopped == old(stopped)
      ensures fresh(m) && m.prediction != null && fresh(m.prediction)
      ensures m.sensor == sensor && m.structure == structure && m.online == connected
      ensures m.prediction.store == store && m.link == link
      ensures monitors == old(monitors)[sensor.name := SerialEntry(m)]
                                       [PredictionKey(sensor.name) := PredictionEntry(m.prediction)]
      ensures order == Insert(Insert(old(order), sensor.name), PredictionKey(sensor.name))
      ensures weather.registry.predictions == old(weather.registry.predictions) + [m.prediction]
    {
      m := Connected(sensor, structure, connected, store, link);
      var prediction := m.prediction;
      assert sensor.name != WeatherKey;
      Put(sensor.name, SerialEntry(m));
      var key := PredictionKey(sensor.name);
      assert key[|key| - 1] != WeatherKey[|WeatherKey| - 1];
      Put(key, PredictionEntry(prediction));
      weather.RegisterPrediction(prediction);
    }

    /** `__monitor`: nothing when an online monitor already sits under the
        sensor's name; KeyError (storing nothing) for a model without a
        command; otherwise `Add`. */
    method Register(sensor: Messages.Sensor, structure: Messages.SensorStructure, connected: bool)
      returns (r: Result<(), Exception>)
      requires Valid()
      modifies this, weather.registry
      ensures Valid()
      ensures count == old(count) && alive == old(alive) && stopSign == old(stopSign) && stopped == old(stopped)
      ensures old(sensor.name in monitors && IsOnline(monitors[sensor.name])) ==>
                r == Success(()) && order == old(order) && monitors == old(monitors) &&
                weather.registry.predictions == old(weather.registry.predictions)
      ensures !old(sensor.name in monitors && IsOnline(monitors[sensor.name])) && sensor.model !in Commands ==>
                r == Failure(KeyError) && order == old(order) && monitors == old(monitors) &&
                weather.registry.predictions == old(weather.registry.predictions)
      ensures !old(sensor.name in monitors && IsOnline(monitors[sensor.name])) && sensor.model in Commands ==>
                && r == Success(())
                && sensor.name in monitors && monitors[sensor.name].SerialEntry?
                && var m := monitors[sensor.name].monitor;
                && fresh(m) && m.prediction != null && fresh(m.prediction)
                && m.sensor == sensor && m.structure == structure && m.online == connected
                && monitors == old(monitors)[sensor.name := SerialEntry(m)]
                                            [PredictionKey(sensor.name) := PredictionEntry(m.prediction)]
                && order == Insert(Insert(old(order), sensor.name), PredictionKey(sensor.name))
                && weather.registry.predictions == old(weather.registry.predictions) + [m.prediction]
    {
      if sensor.name in monitors && IsOnline(monitors[sensor.name]) {
        return Success(());
      }
      if sensor.model !in Commands {
        return Failure(KeyError);
      }
      var m := Add(sensor, structure, connected);
      assert PredictionKey(sensor.name) != sensor.name;
      assert monitors[sensor.name] == SerialEntry(m);
      r := Success(());
    }

    /** `monitor`: on a finished thread a resolved future and nothing
        registered; otherwise the registration (its failure is what the
        future holds). */
    method Monitor(sensor: Messages.Sensor, structure: Messages.SensorStructure, connected: bool)
      returns (r: Result<(), Exception>)
      requires Valid()
      modifies this, weather.registry
      ensures Valid()
      ensures !old(alive) ==> r == Success(()) && order == old(order) && monitors == old(monitors) &&
                              weather.registry.predictions == old(weather.registry.predictions)
      ensures count == old(count) && alive == old(alive)
      ensures old(alive) && old(sensor.name in monitors && IsOnline(monitors[sensor.name])) ==>
                r == Success(()) && order == old(order) && monitors == old(monitors) &&
                weather.registry.predictions == old(weather.registry.predictions)
      ensures old(alive) && !old(sensor.name in monitors && IsOnline(monitors[sensor.name])) && sensor.model !in Commands ==>
                r == Failure(KeyError) && order == old(order) && monitors == old(monitors) &&
                weather.registry.predictions == old(weather.registry.predictions)
      ensures old(alive) && !old(sensor.name in monitors && IsOnline(monitors[sensor.name])) && sensor.model in Commands ==>
                && r == Success(())
                && sensor.name in monitors && monitors[sensor.name].SerialEntry?
                && var m := monitors[sensor.name].monitor;
                && fresh(m) && m.prediction != null && fresh(m.prediction)
                && m.sensor == sensor && m.structure == structure && m.online == connected
                && monitors == old(monitors)[sensor.name := SerialEntry(m)]
                                            [PredictionKey(sensor.name) := PredictionEntry(m.prediction)]
                && order == Insert(Insert(old(order), sensor.name), PredictionKey(sensor.name))
                && weather.registry.predictions == old(weather.registry.predictions) + [m.prediction]
    {
      if !alive {
        return Success(());
      }
      r := Register(sensor, structure, connected);
    }

    /** `pull`: on a finished thread a resolved `None` and no device I/O;
        otherwise the monitor's own pull. */
    method Pull(m: SerialMonitor, reconnected: bool, response: Option<seq<Float32s.byte>>, now: int)
      returns (r: Result<Option<seq<Float32s.Float32>>, Exception>)
      requires m.Valid()
      modifies m
      ensures m.Valid()
      ensures !alive ==> r == Success(None) && m.State() == old(m.State())
      ensures alive ==> (m.State(), r) == PullSpec(old(m.State()), m.command, m.structure.keys, reconnected, response, now)
    {
      if !alive {
        return Success(None);
      }
      r := m.Pull(reconnected, response, now);
    }
  }

  /** A future as the callers see it. */
  datatype Future = Resolved | StoppedOf(thread: Supervisor)

  /** The `Monitors` singleton. */
  class Monitors {
    var thread: Supervisor?
    const registry: WeatherRegistry
    const store: PredictionStore
    const link: Connection

    constructor (registry: WeatherRegistry, store: PredictionStore, link: Connection)
      ensures thread == null && this.registry == registry && this.store == store && this.link == link
    {
      thread := null;
      this.registry := registry;
      this.store := store;
      this.link := link;
    }

    /** The `monitors` property: the thread's map, or an empty one. */
    function Current(): (r: map<string, Entry>)
      reads this, thread
      ensures thread == null ==> r == map[]
      ensures thread != null ==> r == thread.monitors
    {
      if thread == null then map[] else thread.monitors
    }

    /** `launch`: with a live thread and no restart nothing happens; with
        a restart the old thread is ended (stopped and torn down) first;
        then a new thread is started. The weather monitor's registrations
        are class-level and survive. */
    method Launch(restart: bool)
      requires thread != null ==> thread.Valid()
      modifies this, thread, if thread != null then thread.Serials() else {}
      ensures thread != null && thread.Valid()
      ensures old(thread) != null && old(thread.alive) && !restart ==> thread == old(thread)
      ensures !(old(thread) != null && old(thread.alive) && !restart) ==>
                && fresh(thread) && thread.alive && thread.order == [WeatherKey]
                && thread.weather.registry == registry
      ensures old(thread) != null && old(thread.alive) && restart ==> old(thread).stopped
      ensures old(thread) != null && old(thread.alive) && !restart ==> thread.alive == old(thread.alive)
      ensures registry.predictions == old(registry.predictions)
    {
      if thread != null && thread.alive {
        if !restart {
          return;
        }
        thread.End();
      }
      thread := new Supervisor(registry, store, link);
      thread.Launch();
    }

    /** `stop`: a resolved future without a thread; otherwise the stop sign
        is set and the thread's `stopped` future comes back. */
    method Stop() returns (f: Future)
      modifies thread
      ensures thread == old(thread)
      ensures thread == null ==> f == Resolved
      ensures thread != null ==> thread.stopSign && f == StoppedOf(thread) &&
                                 thread.monitors == old(thread.monitors) && thread.order == old(thread.order) &&
                                 thread.alive == old(thread.alive) && thread.stopped == old(thread.stopped) &&
                                 thread.count == old(thread.count)
    {
      if thread == null {
        return Resolved;
      }
      thread.stopSign := true;
      f := StoppedOf(thread);
    }
  }
}

=== FILE: weather_extract.dfy ===
/** `extract` of client/util/weather.py: the three readings a weather report
    contributes to a prediction row, taken from the realtime section of the
    weather service's payload. The sky-condition translation table is read
    from a file at import time; here it is a parameter. */
module WeatherExtract {
  import opened Wrappers
  import opened JsonValues

  const ConditionKey := "天气状态"
  const WindSpeedKey := "风速"
  const TemperatureKey := "气温"

  /** `j[key]` on the value `json.loads` builds from `j`: a dictionary gives
      the member or raises KeyError; every other value raises TypeError
      (lists and strings want integer indices, the rest are not
      subscriptable). */
  function Index(j: Json, key: string): (r: Result<Json, Exception>)
    ensures r.Success? <==> j.JObj? && key in j.members
    ensures r.Success? ==> r.value == j.members[key]
    ensures r.Failure? ==> r.error == (if j.JObj? then KeyError else TypeError)
  {
    match j
    case JObj(members) => if key in members then Success(members[key]) else Failure(KeyError)
    case _ => Failure(TypeError)
  }

  /** `skycon_map[code]`: the table's keys are strings, so any other hashable
      value misses (KeyError) and a list or dictionary is unhashable
      (TypeError). */
  function Translate(skycon: map<string, Json>, code: Json): (r: Result<Json, Exception>)
    ensures r.Success? <==> code.JStr? && code.s in skycon
    ensures r.Success? ==> r.value == skycon[code.s]
    ensures r.Failure? ==> r.error == (if code.JArr? || code.JObj? then TypeError else KeyError)
  {
    match code
    case JStr(s) => if s in skycon then Success(skycon[s]) else Failure(KeyError)
    case JArr(_) => Failure(TypeError)
    case JObj(_) => Failure(TypeError)
    case _ => Failure(KeyError)
  }

  /** The realtime section, `payload['result']['realtime']`. */
  function Realtime(payload: Json): Result<Json, Exception> {
    match Index(payload, "result")
    case Failure(e) => Failure(e)
    case Success(result) => Index(result, "realtime")
  }

  /** `extract(payload)`: the members are evaluated in display order, so the
      first failing lookup decides the exception. */
  function Extract(skycon: map<string, Json>, payload: Json): (r: Result<map<string, Json>, Exception>)
  {
    match Realtime(payload)
    case Failure(e) => Failure(e)
    case Success(context) =>
      match Index(context, "skycon")
      case Failure(e) => Failure(e)
      case Success(code) =>
        match Translate(skycon, code)
        case Failure(e) => Failure(e)
        case Success(condition) =>
          match Index(context, "wind")
          case Failure(e) => Failure(e)
          case Success(wind) =>
            match Index(wind, "speed")
            case Failure(e) => Failure(e)
            case Success(speed) =>
              match Index(context, "temperature")
              case Failure(e) => Failure(e)
              case Success(temperature) =>
                Success(map[ConditionKey := condition, WindSpeedKey := speed, TemperatureKey := temperature])
  }

  /** A payload the service would send: every lookup `extract` makes finds
      its member. */
  predicate WellFormed(skycon: map<string, Json>, payload: Json) {
    && payload.JObj? && "result" in payload.members
    && var result := payload.members["result"];
    && result.JObj? && "realtime" in result.members
    && var context := result.members["realtime"];
    && context.JObj? && "skycon" in context.members && "wind" in context.members && "temperature" in context.members
    && context.members["skycon"].JStr? && context.members["skycon"].s in skycon
    && context.members["wind"].JObj? && "speed" in context.members["wind"].members
  }

  /** `extract` succeeds exactly on well-formed payloads, and then returns
      three keys: the translated condition, and the wind speed and
      temperature copied unchanged. */
  lemma ExtractContents(skycon: map<string, Json>, payload: Json)
    ensures Extract(skycon, payload).Success? <==> WellFormed(skycon, payload)
    ensures WellFormed(skycon, payload) ==>
              var context := payload.members["result"].members["realtime"].members;
              var row := Extract(skycon, payload).value;
              && row.Keys == {ConditionKey, WindSpeedKey, TemperatureKey}
              && row[ConditionKey] == skycon[context["skycon"].s]
              && row[WindSpeedKey] == context["wind"].members["speed"]
              && row[TemperatureKey] == context["temperature"]
  {
  }

  /** A payload whose sky code the table does not know raises KeyError
      (every earlier lookup having succeeded). */
  lemma UnknownSkyconRaises(skycon: map<string, Json>, payload: Json, code: string)
    requires payload.JObj? && "result" in payload.members
    requires var result := payload.members["result"]; result.JObj? && "realtime" in result.members
    requires var context := payload.members["result"].members["realtime"];
             context.JObj? && "skycon" in context.members && context.members["skycon"] == JStr(code)
    requires code !in skycon
    ensures Extract(skycon, payload) == Failure(KeyError)
  {
  }

  /** A payload that is not an object, or lacks `result`, fails at the first
      lookup: TypeError and KeyError respectively. */
  lemma MissingResultRaises(skycon: map<string, Json>, payload: Json)
    ensures !payload.JObj? ==> Extract(skycon, payload) == Failure(TypeError)
    ensures payload.JObj? && "result" !in payload.members ==> Extract(skycon, payload) == Failure(KeyError)
  {
  }
}

=== FILE: wrappers.dfy ===
/** Optional values, results, and the Python exceptions that the modelled code
    raises or lets escape. */
module Wrappers {

  datatype Option<+T> = None | Some(value: T)
  {
    predicate IsFailure() {
      None?
    }

    function PropagateFailure<U>(): Option<U>
      requires None?
    {
      None
    }

    function Extract(): T
      requires Some?
    {
      value
    }
  }

  datatype Result<+T, +E> = Success(value: T) | Failure(error: E)

  /** The Python exception classes that matter to the model. */
  datatype Exception =
    | TypeError
    | ValueError
    | KeyError
    | AttributeError
    | IndexError
    | StructError
    | ImportError
}
